=== FILE: README.md ===
# torrentapp — a verified model of the search, queue and streaming core

torrentapp is a music player: the browser searches a tracker through its own backend, queues tracks,
and streams or downloads torrents through a WebTorrent engine on the server. This project models the
sequential logic of that system in Dafny and proves what it promises.

- `wrappers.dfy` — `Option`.
- `strings.dfy` (module `Strings`) — `String.prototype.includes`, ASCII lower-casing, `join`, `split` on one
  character, decimal rendering and reading of numbers, and the subsequence order that every `filter` keeps.
- `text.dfy` and `levenshtein.dfy` (modules `TextUtils`, `Levenshtein`) — `src/utils/text.js`: normalisation, the
  condensed form, the matrix Levenshtein distance (a method over an `array2`, proved equal to the recursive edit
  distance), the fuzzy-match gate, query tokenising, filter tokens, the integer part of the relevancy score,
  quality inference and the audio-release classifier.
- `player.dfy` (module `Player`) — the client controller `TorrentStream` of `main.js` as a class: the play queue
  (`playQueue`, `currentQueueItem`, `isQueueProcessing`) and the `activeDownloads` and `torrentStatusTimers` maps.
- `helpers.dfy`, `results.dfy`, `media.dfy`, `suggestions.dfy` — the pure helpers of `main.js`: `escapeHtml`,
  `getFileExtension`, `buildDescriptionFromFiles`, the post-processing of `searchTorrents`, the choice of the file
  to play in `findAndPlayMediaFile`, and `buildSuggestions` (its counting loop is a method).
- `encoding.dfy` (module `Encoding`) — UTF-8 (RFC 3629), Base64 (section 4 of RFC 4648) and `encodeURIComponent`,
  each with a proved round trip.
- `server.dfy` (module `Server`) — `server.js`: the `activeTorrents` registry as a class, the status lookup, the
  query guard of the search endpoint, and the row filter of the 1337x scraper, both as written and corrected.

## Model

| member | source | states |
|---|---|---|
| TextUtils.NormalizeText | src/utils/text.js:6-11 | the result has no combining mark U+0300..U+036F and no upper-case ASCII letter, and is no longer than the input |
| TextUtils.NormalizeAppend | src/utils/text.js:6-11 | normalisation works character by character: it distributes over concatenation |
| TextUtils.NormalizeFixed | src/utils/text.js:6-11 | text already without marks and capitals is left unchanged |
| TextUtils.NormalizeIdempotent | src/utils/text.js:6-11 | normalising twice is normalising once |
| TextUtils.KeepAlnum | src/utils/text.js:14 | `replace(/[^a-z0-9]/g, '')` keeps only [a-z0-9] |
| TextUtils.KeepAlnumSubsequence | src/utils/text.js:14 | what is kept is a subsequence of the input |
| TextUtils.KeepAlnumFixed | src/utils/text.js:14 | a string of [a-z0-9] only is kept whole |
| TextUtils.KeepAlnumAppend | src/utils/text.js:14 | the filter distributes over concatenation |
| TextUtils.CondensedShape | src/utils/text.js:13-15 | the condensed text holds only [a-z0-9] and is a subsequence of the normalised text |
| TextUtils.CondensedIdempotent | src/utils/text.js:13-15 | condensing condensed text changes nothing |
| Levenshtein.Min3 | src/utils/text.js:31-35 | `Math.min` of three: no greater than any and equal to one of them |
| Levenshtein.SelfDistance | src/utils/text.js:18 | a string is at distance 0 from itself |
| Levenshtein.ZeroDistanceEqual | src/utils/text.js:18 | distance 0 holds only between equal strings |
| Levenshtein.Symmetric | src/utils/text.js:17-40 | the distance does not depend on the order of the arguments |
| Levenshtein.UpperBound | src/utils/text.js:17-40 | the distance is at most the longer length |
| Levenshtein.LowerBound | src/utils/text.js:17-40 | the distance is at least the difference of the lengths |
| Levenshtein.InsertStep | src/utils/text.js:32-33 | appending a character to one string costs at most one more edit |
| Levenshtein.DeleteStep | src/utils/text.js:32-33 | the same for the other string |
| Levenshtein.DeleteBound | src/utils/text.js:32-33 | dropping the last character of the first string saves at most one edit |
| Levenshtein.InsertBound | src/utils/text.js:32-33 | dropping the last character of the second string saves at most one edit |
| Levenshtein.MatchLast | src/utils/text.js:28-29 | equal last characters make the diagonal cell the distance, so the shortcut that skips the minimum is sound |
| Levenshtein.Recurrence | src/utils/text.js:26-38 | the matrix cell update (copy the diagonal on a match, otherwise 1 + the minimum of the three neighbours) computes the edit distance of the prefixes |
| Levenshtein.InitMatrix | src/utils/text.js:22-24 | the matrix has one row per character of b plus one and one column per character of a plus one, with row 0 and column 0 numbered |
| Levenshtein.CellValue | src/utils/text.js:28-36 | the value written into a cell from its three neighbours is the edit distance of the prefixes |
| Levenshtein.FillRow | src/utils/text.js:27-37 | the inner loop fills row i so that each cell holds the edit distance of its prefixes |
| Levenshtein.ComputeLevenshtein | src/utils/text.js:17-40 | `levenshtein(a, b)`, with its early returns, equals the recursive edit distance |
| TextUtils.RunsShape | src/utils/text.js:58-62 | every piece is non-empty [a-z0-9], and the pieces run together are exactly the letters and digits |
| TextUtils.TokenizeQuery | src/utils/text.js:58-62 | every token is non-empty and made of [a-z0-9] only |
| TextUtils.TokensSpellCondensed | src/utils/text.js:58-62 | the tokens, run together, are the condensed query: tokenising loses only separators |
| TextUtils.TokenizeJoin | src/utils/text.js:58-62 | tokens joined by single spaces tokenise back to exactly those tokens, so the split falls at every separator and nowhere else |
| TextUtils.StrongTokens | src/utils/text.js:66 | the tokens of length at least 4, each as many times as it occurs and none other (multiset counts), as a subsequence of the tokens |
| TextUtils.BuildFilterTokens | src/utils/text.js:64-68 | when a token has length at least 4: those tokens with their multiplicities, in order; otherwise all tokens; an empty query gives none |
| TextUtils.MatchedTokens | src/utils/text.js:76-80 | the tokens the title contains, no more entries than tokens |
| TextUtils.MatchedTokensCounts | src/utils/text.js:76-80 | each contained token is matched as many times as it occurs in the tokens, so a repeated word scores again; an uncontained one never |
| TextUtils.MatchedTokensInOrder | src/utils/text.js:76-80 | the matched tokens keep the order of the tokens, as the phrase built from them needs |
| TextUtils.CalculateRelevancyScore | src/utils/text.js:70-87 | no tokens: the seed count; otherwise 5 points per contained token plus 5 for the joined phrase, and `log10(seeds + 1)` |
| TextUtils.PointsBound | src/utils/text.js:75-84 | the token points are at most 5 * (number of tokens + 1) |
| TextUtils.ContainsTransitive | src/utils/text.js:82 | a substring of a substring is a substring |
| TextUtils.AllMatched | src/utils/text.js:76-80 | a title containing every token scores every token |
| TextUtils.PhraseGivesTopScore | src/utils/text.js:76-84 | a title containing the joined phrase gets the top score 5 * (number of tokens + 1) |
| TextUtils.Threshold | src/utils/text.js:54 | `Math.ceil(n * 0.2)`: the least whole number at least n/5 |
| TextUtils.IsFuzzyMatch | src/utils/text.js:42-56 | false when either side is empty; true on normalised containment or condensed containment; otherwise true exactly when the condensed distance is within the threshold |
| TextUtils.FuzzyReflexive | src/utils/text.js:42-56 | a non-empty title matches itself |
| TextUtils.FuzzySameCondensed | src/utils/text.js:48-51 | titles that differ only in case, marks and punctuation match |
| TextUtils.FuzzyOneEdit | src/utils/text.js:53-55 | one typo between titles with letters or digits is always tolerated |
| TextUtils.FuzzyRejectsLongQuery | src/utils/text.js:53-55 | a condensed query more than twice the condensed title is rejected unless the plain containment holds |
| TextUtils.AnyContained | src/utils/text.js:102-105 | `some(k => text.includes(k))`: true exactly when some keyword is contained |
| TextUtils.FirstContained | src/utils/text.js:91-96 | the first keyword from a position on that the text contains |
| TextUtils.InferAudioQuality | src/utils/text.js:89-97 | the label is one of FLAC, 320/256/192/128 kbps, or Audio |
| TextUtils.QualityByPriority | src/utils/text.js:89-97 | the label is that of the first keyword, in the order flac, 320, 256, 192, 128, found in the text; Audio exactly when none is |
| TextUtils.FlacOutranksBitrates | src/utils/text.js:91 | a title naming flac is labelled FLAC whatever bit-rate it also names |
| TextUtils.IsLikelyAudioRelease | src/utils/text.js:99-106 | accepted exactly when the name is non-empty and its normalised form contains an audio keyword and no video keyword (both directions) |
| TextUtils.KeywordNormalized | src/utils/text.js:3-4 | the keyword lists are already normalised |
| TextUtils.VideoKeywordVetoes | src/utils/text.js:102-104 | a name containing a video keyword is rejected, whatever audio keywords surround it |
| TextUtils.AudioKeywordSuffices | src/utils/text.js:105 | without a video keyword, one audio keyword is enough |
| TextUtils.KeywordSurvives | src/utils/text.js:102-105 | a keyword of letters and digits is still contained after normalising the text around it |
| Player.MakeEntry | main.js:45-54 | the queue entry keeps the track's locality, has a magnet or stream URL exactly when the track has one, and always a title |
| Player.AcceptedDispatches | main.js:56-63 | every entry that passes the validation can be played |
| Player.FirstPlayable | main.js:90-105 | the first entry that is a local stream or has a magnet; those before it are skipped |
| Player.PlayNextEmpty | main.js:78-83 | on an empty queue nothing is current and processing stops |
| Player.PlayNextTakesHead | main.js:86-98 | on a validated queue the head is taken off and becomes current, and the queue shrinks by one |
| Player.NewDownload | main.js:863-871 | a new download starts at progress 0 with status 'downloading' and a non-empty name |
| Player.WithoutId | main.js:108-111 | `filter(item => item.id !== id)`: exactly the entries with another id, no more entries than the queue |
| Player.WithoutIdCounts | main.js:108-111 | every entry with another id stays as many times as it occurs, none with that id |
| Player.WithoutIdInOrder | main.js:108-111 | the entries that stay keep their order |
| Player.WithoutIdLength | main.js:108-111 | exactly the entries carrying the id are removed |
| Player.WithoutAbsentId | main.js:108-111 | removing an id nobody carries leaves the queue unchanged |
| Player.TorrentStream.constructor | main.js:13-36 | an empty queue, nothing current, not processing, empty maps |
| Player.TorrentStream.PlayNextInQueue | main.js:77-106 | the new queue state and the playback request are those of the head-skipping specification; the maps are untouched |
| Player.TorrentStream.AddToQueue | main.js:44-71 | a missing track or an entry failing validation leaves the state unchanged; otherwise exactly one entry is appended, and playback starts when idle and paused |
| Player.TorrentStream.RemoveFromQueue | main.js:108-111 | the queue loses exactly the entries with the id, the rest in order |
| Player.TorrentStream.ClearQueue | main.js:113-116 | the queue is empty; the current item stays |
| Player.TorrentStream.HandleTrackEnded | main.js:159-163 | plays the next entry only while processing; otherwise nothing changes |
| Player.TorrentStream.DownloadTorrent | main.js:848-882 | no magnet or a failed start changes nothing; an id already downloading is never overwritten; otherwise exactly that id is added |
| Player.TorrentStream.StopMonitoringTorrent | main.js:255-260 | the key is absent afterwards and every other timer stays; the handle cleared is the old one |
| Player.TorrentStream.RemoveDownload | main.js:1060-1068 | an unknown id changes nothing; otherwise that download and its poll timer go, and the delete request is made |
| ClientHelpers.ReplaceAllAppend | main.js:1151-1156 | a global replacement distributes over concatenation |
| ClientHelpers.ReplaceAbsent | main.js:1151-1156 | replacing a character that is absent changes nothing |
| ClientHelpers.EscapeHtml | main.js:1149-1157 | the escaped text contains no raw <, >, " or ' |
| ClientHelpers.EscapeHtmlIsPerCharacter | main.js:1149-1157 | the chain of replacements, with & first, escapes each character independently |
| ClientHelpers.ChainChar | main.js:1152-1156 | on one character the five replacements give that character's entity |
| ClientHelpers.EscapeRoundTrip | main.js:1149-1157 | decoding the five entities gives the original text back, so nothing is escaped twice |
| ClientHelpers.UnescapeChar | main.js:1152-1156 | each entity decodes to its character |
| ClientHelpers.AfterLastDot | main.js:1160-1161 | none exactly when there is no dot; otherwise a text without a dot |
| ClientHelpers.AfterLastDotSplits | main.js:1160-1161 | the name is some text, a dot, then the text after the last dot |
| ClientHelpers.AfterLastDotOfDotted | main.js:1160-1161 | for base.ext the text after the last dot is ext |
| ClientHelpers.GetFileExtension | main.js:1159-1162 | no dot in the result, and '' for a name without a dot |
| ClientHelpers.ExtensionAfterLastDot | main.js:1159-1162 | with a dot, the extension is the lower-cased text after a dot that no later dot follows |
| ClientHelpers.ExtensionOfDotted | main.js:1159-1162 | for base.ext the extension is ext lower-cased |
| ClientHelpers.NamesOf | main.js:1141 | `map(file => file.name).filter(Boolean)`: only non-empty names |
| ClientHelpers.NamesOfEmpty | main.js:1141-1144 | the preview is empty exactly when every file name is empty |
| ClientHelpers.FirstThree | main.js:1141 | `slice(0, 3)`: the first three files, or all when fewer |
| ClientHelpers.BuildDescriptionFromFiles | main.js:1137-1147 | '' exactly when none of the first three files has a name; otherwise it starts with 'Incluye: ' |
| ClientHelpers.DescriptionNamesPreview | main.js:1141-1146 | every named file among the first three appears in the description |
| ClientHelpers.DescriptionOfFewFiles | main.js:1141-1146 | up to three named files: all names, comma separated, and no remainder |
| ClientHelpers.DescriptionCountsRest | main.js:1145-1146 | more than three files, three named: the three names and ' y N más' with N = files.length - 3 |
| ClientHelpers.NamesOfLength | main.js:1141 | the names list is the files minus the unnamed ones |
| ClientHelpers.DescriptionCountsUnnamed | main.js:1137-1147 | whenever a preview exists, the count after it is the files past the first three plus the unnamed files among the first three |
| SearchResults.Adapt | main.js:390-400 | the `map` of one result: local results get 0 leechs, others leechs ?? peers ?? 0; a non-empty category, quality or description is kept, an empty one becomes 'library'/'music', 'Archivo local'/'Audio' by `isLocal`, or the description built from the files; files are the raw files, or [] when absent |
| SearchResults.AdaptAll | main.js:390-401 | one adapted result per raw result, in order |
| SearchResults.LosslessOnly | main.js:403-408 | every kept result is lossless and a result of the list, and every lossless result is kept |
| SearchResults.LosslessOnlyCounts | main.js:403-408 | each lossless result is kept as many times as it occurs, the others never |
| SearchResults.LosslessOnlyInOrder | main.js:403-408 | the kept results keep their order |
| SearchResults.WithLocal | main.js:410-414 | every selected result belongs to the group, and there are no more of them than results |
| SearchResults.SortGroups | main.js:410-414 | after the sort every result of the preferred group precedes every other |
| SearchResults.SortPermutes | main.js:410-414 | the sort is a permutation |
| SearchResults.SortIsStable | main.js:410-414 | within each group the order is kept: the sort is stable |
| SearchResults.GroupedSplit | main.js:410-414 | a grouped list is its preferred group followed by the other |
| SearchResults.SortIsUnique | main.js:410-414 | the sorted list is the only grouped list with the same groups in the same order |
| SearchResults.Kept | main.js:390-408 | every result after map and filter has the defaults filled in and passes the filter |
| SearchResults.SortKeepsAcceptable | main.js:410-414 | sorting keeps that property |
| SearchResults.SearchTorrents | main.js:389-421 | a failed request gives []; the results are grouped as the preference asks and pass the lossless filter when it is on |
| SearchResults.SearchKeepsMatches | main.js:389-416 | the results are a permutation of the adapted, filtered results, and every result passing the filter is shown |
| MediaSelection.Filter | main.js:893 | `filter` keeps no more files than it is given |
| MediaSelection.FilterKeeps | main.js:893 | every kept file is a file of the torrent that passes the test |
| MediaSelection.FilterFinds | main.js:893 | every file that passes the test is kept |
| MediaSelection.NoneKept | main.js:893-895 | an empty filter result means no file passes the test |
| MediaSelection.KeptBelow | main.js:893-901 | a file that passes the test respects any length bound every kept file respects |
| MediaSelection.AudioFiles | main.js:892-893 | the audio files are no more than the files |
| MediaSelection.NoAudioFiles | main.js:893-899 | an empty audio list means no file has an audio extension |
| MediaSelection.LongestAudio | main.js:893-901 | the longest kept file is an audio file of the torrent that no audio file is longer than |
| MediaSelection.ReduceLongest | main.js:901 | the `reduce` keeps the first of the longest files |
| MediaSelection.LongestFile | main.js:901 | the chosen position holds a file no other is longer than, and every earlier file is shorter |
| MediaSelection.FirstLongestUnique | main.js:901 | only one position is first among the longest |
| MediaSelection.SelectMediaFile | main.js:885-901 | no files, or no audio file, is reported as such; otherwise an audio file of the torrent that no audio file is longer than |
| MediaSelection.SelectsFirstOfLongest | main.js:901 | among equally long audio files, the first listed is played |
| Suggestions.FindKey | main.js:1261-1263 | the position of the key in the stats, or -1 exactly when it is absent |
| Suggestions.TallyCounts | main.js:1256-1265 | keys are distinct, each count is the number of artists with that lower-cased key, and every artist has an entry |
| Suggestions.CountKeyWitness | main.js:1256-1265 | a counted key comes from some artist |
| Suggestions.CountArtists | main.js:1256-1265 | the counting loop builds exactly the tally |
| Suggestions.SortByCount | main.js:1267-1268 | the sort by count is a permutation |
| Suggestions.InsertWithCount | main.js:1268 | inserting an entry puts it ahead of the entries with its count and reorders no others among themselves |
| Suggestions.SortByCountIsStable | main.js:1268 | the sort is stable: for every count, the entries with that count keep their first-seen order, which decides the top three among ties |
| Suggestions.InsertKeepsOrder | main.js:1268 | inserting keeps the counts decreasing |
| Suggestions.InsertBounded | main.js:1268 | inserting an entry within a count bound keeps every count within it |
| Suggestions.SortIsOrdered | main.js:1268 | the sorted counts are decreasing |
| Suggestions.TopArtists | main.js:1267-1269 | at most three artists: min(3, number of artists) |
| Suggestions.TopArtistsAreMostFrequent | main.js:1267-1269 | the top artists are in decreasing order and no left-out artist is counted more than any of them |
| Suggestions.ArtistCards | main.js:1271-1294 | two cards per artist: the artist and the artist's live sets |
| Suggestions.QueryCards | main.js:1296-1319 | two cards for the query: essentials and similar artists |
| Suggestions.ArtistPairs | main.js:1271-1294 | two cards per top artist: card 2k searches for the artist, card 2k+1 for the artist + " live" |
| Suggestions.PushArtistCards | main.js:1271-1294 | the loop pushes exactly the artist cards |
| Suggestions.BuildSuggestions | main.js:1253-1323 | at most six cards: two per top artist then two for the query, cut to six; card 2k searches for the k-th artist and card 2k+1 for its live sets; with room left, the essentials card and then the similar-artists card follow |
| Encoding.Utf8RoundTrip | server.js:121 | `Buffer.from(magnet)` encodes to UTF-8 bytes that decode back to the magnet |
| Encoding.Utf8Injective | server.js:121 | different strings have different UTF-8 bytes |
| Encoding.DecodeEncodedChar | server.js:121 | each code point's 1- to 4-byte form decodes back to it |
| Encoding.Base64Length | server.js:121 | the base64 text has 4 characters per started group of 3 bytes |
| Encoding.Base64Alphabet | server.js:121 | every character of the base64 text is from the alphabet or '=' |
| Encoding.Base64RoundTrip | server.js:121 | base64 decoding gives the bytes back |
| Encoding.Base64Injective | server.js:121 | different bytes have different base64 texts |
| Encoding.EncodeURIComponent | server.js:77 | the encoded name holds only unreserved characters and '%' |
| Encoding.URIComponentRoundTrip | server.js:77 | decoding the percent-encoded name gives the name back |
| Server.TorrentId | server.js:121 | the id is base64 of the magnet's UTF-8 bytes, made of base64 characters |
| Server.TorrentIdInjective | server.js:121 | different magnets never share an id |
| Server.Registry.constructor | server.js:112 | the registry starts empty |
| Server.Registry.RegisteredMagnet | server.js:121-146 | every registered id is the base64 id of exactly one magnet the engine was asked to add |
| Server.Registry.PostStream | server.js:114-154 | no magnet: 400 and nothing changes; a known id: already_added without an engine call and nothing changes; otherwise one engine call, then 500 with the registry unchanged or exactly one new entry named after the torrent or 'Unknown' |
| Server.Registry.OnEngineError | server.js:133-136 | an engine error removes exactly that torrent's id |
| Server.Registry.OnEngineProgress | server.js:142-146 | the registry holds the engine's live torrent: an update replaces only that entry's torrent, keeping its `added` time and display name; an unknown id changes nothing |
| Server.Registry.Status | server.js:156-182 | 404 exactly for an unknown id or an entry without a torrent, with the two messages; otherwise name, downloaded, uploaded, numPeers and done of the torrent as held now; the registry is only read |
| Server.StatusAfterProgress | server.js:171-180 | after the engine updates a torrent, the status reports the updated figures, not those of the moment it was added |
| Server.PostTwice | server.js:114-148 | posting one magnet twice calls the engine once, registers one id and reports already_added the second time |
| Server.SearchQuery | server.js:95-98 | the first non-empty of `q` and `query`; none exactly when both are empty |
| Server.HandleSearch | server.js:93-108 | both parameters empty: 400 and the scraper is not run; otherwise the guarded scraper's results (the scraper as written differs on linkless rows, see Findings) |
| Server.SearchUrl | server.js:32 | the listing URL on the 1377x site |
| Server.SearchUrlQuery | server.js:32 | the query is read back from the URL's path segment |
| Server.FakeHash | server.js:55 | the hash is never empty and holds no '/' |
| Server.FakeHashWithoutSlash | server.js:55 | a link without '/' has no third piece: the forty-zero fallback |
| Server.FakeHashOneSlash | server.js:55 | a link with one '/' has two pieces: the forty-zero fallback |
| Server.FakeHashEmptyThird | server.js:55 | an empty third piece is falsy: the forty-zero fallback |
| Server.FakeHashOfTorrentLink | server.js:55 | for /torrent/ID/... the hash is ID |
| Server.DigitPrefix | server.js:68 | the leading digits of the text |
| Server.ParseIntReadsNumber | server.js:68 | a seeds cell holding a number followed by a non-digit reads as that number |
| Server.ParseIntFails | server.js:68 | no digit after the optional sign: `parseInt` gives NaN and `|| 0` gives 0 |
| Server.MagnetFields | server.js:77 | the magnet's three parameters come apart at '&' and the name decodes back |
| Server.SplitThree | server.js:77 | three pieces joined by a separator they do not hold split back into them |
| Server.ResultOf | server.js:66-78 | the result carries the row's name, the fake hash and the magnet built from them |
| Server.ResultFields | server.js:66-76 | the size cell, peers 0, category 'music', quality 'MP3', type 'audio' and the site URL of the link |
| Server.ResultSeeds | server.js:68 | a seeds cell starting with a number gives that many seeds |
| Server.ResultSeedsFallback | server.js:68 | a seeds cell not starting with a number or a sign gives 0 seeds |
| Server.ScrapeRows | server.js:45-81 | at most one result per row |
| Server.Search1337xMusic | server.js:30-90 | the loop, with the row guard ahead of the hash, returns the results of the qualifying rows among the first 20; a failed download gives [] |
| Server.ScrapeKeepsQualifyingRows | server.js:58-79 | every result has a name that looks like music and a hash; every qualifying row gives its result, and every result is the result of a qualifying row |
| Server.ScrapedFromQualifying | server.js:58-79 | no result comes from a row without a name, without a link or not looking like music |
| Server.SearchReadsTwentyRows | server.js:46 | at most 20 results |
| Server.LinklessRowThrows | server.js:55 | as written, any row without a link throws before the guard |
| Server.LinklessRowLosesAllResults | server.js:55-58 | as written, a linkless row among the first 20 empties the whole search |
| Server.LinklessFirstRow | server.js:55-89 | the counterexample: as written [], guarded one result |
| Server.LinklessThenQualifying | server.js:55-89 | a linkless row followed by a qualifying one: as written [], guarded exactly that row's result |
| Server.AsWrittenAgreesWithoutLinklessRows | server.js:45-81 | without linkless rows the code as written and the guarded version agree |
| Server.LowerKeywordIsMusic | server.js:59-63 | a lower-case name holding a keyword passes `isMusic` |

## Left out

- Unicode NFD decomposition and full Unicode lower-casing: `NormalizeText` strips the marks U+0300..U+036F that
  are already decomposed and lower-cases A-Z only, and `ToLower` lower-cases A-Z only.
- `Math.log10(seeds + 1)` in the relevancy score: `CalculateRelevancyScore` returns the integer points and the seed
  count separately instead of their floating-point sum.
- `Math.ceil(n * 0.2)` is modelled as the integer `(n + 4) / 5`. Although `n * 0.2` is rarely exact in binary
  floating point, the two agree on every string length up to 100000, which covers every length that arises; the
  floating-point rounding itself is not modelled.
- `SearchResults.Adapt`: the other fields that the `...result` spread copies (magnet, seeds, size, source and any
  further ones) are not carried by `SearchResult`, which holds only the fields the rest of the model reads.
- Floating-point figures: `parseSize`, `formatSpeed`, `formatTime`, progress rounding, and the status fields
  `progress`, `downloadSpeed`, `uploadSpeed` and `timeRemaining`.
- DOM rendering, event wiring, the audio element, `showError`/`showLoading`, `updateQueueUI` and the cards.
- `fetch`, timers and the polling loops `monitorTorrentStatus` and `pollDownloadStatus`; their replies are
  parameters (`reply` of `DownloadTorrent`, `engine` of `PostStream`, `page` of the scraper), and a timer
  handle is a number.
- `Date.now()` and `Math.random()` in the queue entry id: the id is a parameter of `AddToQueue`.
- The WebTorrent engine: `client.add` is a parameter that throws or hands back a torrent; its `error` event is the
  method `OnEngineError`, and its progress (metadata, pieces, peers) is the method `OnEngineProgress`, both called
  by whoever drives the model.
- `cleanArtistName` and `deriveArtistFromName` (word-boundary regular expressions): `BuildSuggestions` takes the
  already cleaned artist names.
- axios, cheerio and Express: the scraper takes the rows already extracted from the table, and the handlers take
  the request fields as strings.
- `fs` download listing and deletion, the SIGINT shutdown, and the routes `DELETE /api/torrent/:id` and
  `/api/stream/:id/:index` that the client calls but `server.js` does not define.
- Strings are sequences of Unicode scalar values, so lone surrogates, which `Buffer.from` turns into U+FFFD, do not
  arise.
- `ParseIntOrZero` reads an optional sign and decimal digits; it does not model `parseInt`'s skipping of leading
  white space (the cells are trimmed) or its `0x` prefix.
- `Server.Registry.Status` does not model the 500 reply of the handler's `catch`, which nothing in the model
  can reach.

## Findings

| source | as written | input that shows it | evidently intended | confidence | as-written member | corrected member |
|---|---|---|---|---|---|---|
| server.js:55-58 | `href.split('/')` is evaluated for every row before the `if (name && href)` guard, so a row without a link throws and the `catch` returns [] for the whole search | a listing whose first row has no second link in its name cell and whose second row is a linked "abba flac" | skip the linkless row and keep the other results | not executed | Server.LinklessFirstRow | Server.Search1337xMusic |

=== FILE: encoding.dfy ===
/**
 * The byte encodings the server and the scraper rely on: UTF-8 (what `Buffer.from(string)`
 * produces), base64 with the standard alphabet and `=` padding (section 4 of RFC 4648, what
 * `toString('base64')` produces) and `encodeURIComponent`. Each comes with a decoder and the
 * round trip that makes it injective.
 */
module Encoding {
  import opened Wrappers

  type byte = b: int | 0 <= b < 256

  // ---------------------------------------------------------------- UTF-8

  /** The UTF-8 bytes of one Unicode scalar value. */
  function EncodeChar(c: char): (bytes: seq<byte>)
    ensures 1 <= |bytes| <= 4
    ensures |bytes| == 1 <==> c as int < 0x80
  {
    var cp := c as int;
    if cp < 0x80 then [cp]
    else if cp < 0x800 then [0xC0 + cp / 64, 0x80 + cp % 64]
    else if cp < 0x10000 then [0xE0 + cp / 4096, 0x80 + (cp / 64) % 64, 0x80 + cp % 64]
    else [0xF0 + cp / 262144, 0x80 + (cp / 4096) % 64, 0x80 + (cp / 64) % 64, 0x80 + cp % 64]
  }

  function Utf8Encode(s: string): seq<byte>
  {
    if s == [] then [] else EncodeChar(s[0]) + Utf8Encode(s[1..])
  }

  predicate IsContinuation(b: byte) { 0x80 <= b < 0xC0 }

  /** The first character of `bytes` and how many bytes it takes, rejecting overlong forms and surrogates. */
  function DecodeFirst(bytes: seq<byte>): (r: Option<(char, nat)>)
    requires bytes != []
    ensures r.Some? ==> 1 <= r.value.1 <= |bytes|
  {
    var b0: int := bytes[0];
    if b0 < 0x80 then Some((b0 as char, 1))
    else if 0xC0 <= b0 < 0xE0 && |bytes| >= 2 && IsContinuation(bytes[1]) then
      var cp := (b0 - 0xC0) * 64 + (bytes[1] as int - 0x80);
      if cp >= 0x80 then Some((cp as char, 2)) else None
    else if 0xE0 <= b0 < 0xF0 && |bytes| >= 3 && IsContinuation(bytes[1]) && IsContinuation(bytes[2]) then
      var cp := (b0 - 0xE0) * 4096 + (bytes[1] as int - 0x80) * 64 + (bytes[2] as int - 0x80);
      if cp >= 0x800 && !(0xD800 <= cp < 0xE000) then Some((cp as char, 3)) else None
    else if 0xF0 <= b0 < 0xF8 && |bytes| >= 4 && IsContinuation(bytes[1]) && IsContinuation(bytes[2]) && IsContinuation(bytes[3]) then
      var cp := (b0 - 0xF0) * 262144 + (bytes[1] as int - 0x80) * 4096 + (bytes[2] as int - 0x80) * 64 + (bytes[3] as int - 0x80);
      if 0x10000 <= cp < 0x110000 then Some((cp as char, 4)) else None
    else None
  }

  function Utf8Decode(bytes: seq<byte>): Option<string>
    decreases |bytes|
  {
    if bytes == [] then Some([])
    else match DecodeFirst(bytes) {
      case None => None
      case Some((c, n)) =>
        match Utf8Decode(bytes[n..]) {
          case None => None
          case Some(rest) => Some([c] + rest)
        }
    }
  }

  lemma DecodeEncodedChar(c: char, rest: seq<byte>)
    ensures DecodeFirst(EncodeChar(c) + rest) == Some((c, |EncodeChar(c)|))
  {
    var cp := c as int;
    if cp < 0x80 {
    } else if cp < 0x800 {
      DecodeTwo(c, rest);
    } else if cp < 0x10000 {
      DecodeThree(c, rest);
    } else {
      DecodeFour(c, rest);
    }
  }

  lemma DecodeTwo(c: char, rest: seq<byte>)
    requires 0x80 <= c as int < 0x800
    ensures DecodeFirst(EncodeChar(c) + rest) == Some((c, 2))
  {
    var cp := c as int;
    var bytes := EncodeChar(c) + rest;
    var hi, lo := cp / 64, cp % 64;
    assert bytes[0] == 0xC0 + hi && bytes[1] == 0x80 + lo;
    assert hi * 64 + lo == cp;
  }

  lemma DecodeThree(c: char, rest: seq<byte>)
    requires 0x800 <= c as int < 0x10000
    ensures DecodeFirst(EncodeChar(c) + rest) == Some((c, 3))
  {
    var cp := c as int;
    var bytes := EncodeChar(c) + rest;
    var b0, b1, b2 := cp / 4096, (cp / 64) % 64, cp % 64;
    assert bytes[0] == 0xE0 + b0 && bytes[1] == 0x80 + b1 && bytes[2] == 0x80 + b2;
    assert b0 * 64 + b1 == cp / 64;
    assert b0 * 4096 + b1 * 64 + b2 == cp;
  }

  lemma DecodeFour(c: char, rest: seq<byte>)
    requires 0x10000 <= c as int
    ensures DecodeFirst(EncodeChar(c) + rest) == Some((c, 4))
  {
    var cp := c as int;
    var bytes := EncodeChar(c) + rest;
    var b0, b1, b2, b3 := cp / 262144, (cp / 4096) % 64, (cp / 64) % 64, cp % 64;
    assert bytes[0] == 0xF0 + b0 && bytes[1] == 0x80 + b1 && bytes[2] == 0x80 + b2 && bytes[3] == 0x80 + b3;
    assert b0 * 64 + b1 == cp / 4096;
    assert (cp / 4096) * 64 + b2 == cp / 64;
    assert b0 * 262144 + b1 * 4096 + b2 * 64 + b3 == cp;
  }

  /** UTF-8 loses nothing: decoding the encoding of a string gives the string back. */
  lemma {:induction false} Utf8RoundTrip(s: string)
    ensures Utf8Decode(Utf8Encode(s)) == Some(s)
  {
    if s != [] {
      var head := EncodeChar(s[0]);
      var tail := Utf8Encode(s[1..]);
      DecodeEncodedChar(s[0], tail);
      assert (head + tail)[|head|..] == tail;
      Utf8RoundTrip(s[1..]);
      assert [s[0]] + s[1..] == s;
    }
  }

  lemma Utf8Injective(a: string, b: string)
    requires Utf8Encode(a) == Utf8Encode(b)
    ensures a == b
  {
    Utf8RoundTrip(a);
    Utf8RoundTrip(b);
  }

  // ---------------------------------------------------------------- base64, section 4 of RFC 4648

  /** The character for a 6-bit value in the standard alphabet. */
  function Base64Char(i: nat): (c: char)
    requires i < 64
  {
    if i < 26 then ('A' as int + i) as char
    else if i < 52 then ('a' as int + i - 26) as char
    else if i < 62 then ('0' as int + i - 52) as char
    else if i == 62 then '+'
    else '/'
  }

  /** The 6-bit value of a character of the alphabet; `None` for any other character, `=` included. */
  function Base64Value(c: char): (r: Option<nat>)
    ensures r.Some? ==> r.value < 64
  {
    if 'A' <= c <= 'Z' then Some(c as int - 'A' as int)
    else if 'a' <= c <= 'z' then Some(c as int - 'a' as int + 26)
    else if '0' <= c <= '9' then Some(c as int - '0' as int + 52)
    else if c == '+' then Some(62)
    else if c == '/' then Some(63)
    else None
  }

  lemma Base64CharValue(i: nat)
    requires i < 64
    ensures Base64Value(Base64Char(i)) == Some(i)
  {
  }

  /** The second sextet of a group: the low 2 bits of `b0` above the high 4 bits of `b1`. */
  function High(b0: byte, b1: byte): (v: nat)
    ensures v < 64
  {
    (b0 % 4) * 16 + b1 / 16
  }

  /** The third sextet of a group: the low 4 bits of `b1` above the high 2 bits of `b2`. */
  function Low(b1: byte, b2: byte): (v: nat)
    ensures v < 64
  {
    (b1 % 16) * 4 + b2 / 64
  }

  /** The four characters of one full group of three bytes. */
  function Quad(b0: byte, b1: byte, b2: byte): string
  {
    [Base64Char(b0 / 4), Base64Char(High(b0, b1)), Base64Char(Low(b1, b2)), Base64Char(b2 % 64)]
  }

  /** `toString('base64')`: three bytes to four characters, the last group padded with `=`. */
  function Base64Encode(bytes: seq<byte>): string
  {
    if |bytes| == 0 then ""
    else if |bytes| == 1 then
      [Base64Char(bytes[0] / 4), Base64Char(High(bytes[0], 0)), '=', '=']
    else if |bytes| == 2 then
      [Base64Char(bytes[0] / 4), Base64Char(High(bytes[0], bytes[1])), Base64Char(Low(bytes[1], 0)), '=']
    else
      Quad(bytes[0], bytes[1], bytes[2]) + Base64Encode(bytes[3..])
  }

  /** Every character of the encoding is in the alphabet, or is the padding `=`. */
  lemma {:induction false} Base64Alphabet(bytes: seq<byte>)
    ensures forall k | 0 <= k < |Base64Encode(bytes)| :: Base64Encode(bytes)[k] == '=' || Base64Value(Base64Encode(bytes)[k]).Some?
  {
    var s := Base64Encode(bytes);
    if |bytes| == 1 {
      Base64CharValue(bytes[0] / 4);
      Base64CharValue(High(bytes[0], 0));
    } else if |bytes| == 2 {
      Base64CharValue(bytes[0] / 4);
      Base64CharValue(High(bytes[0], bytes[1]));
      Base64CharValue(Low(bytes[1], 0));
    } else if |bytes| >= 3 {
      var q, rest := Quad(bytes[0], bytes[1], bytes[2]), Base64Encode(bytes[3..]);
      Base64Alphabet(bytes[3..]);
      Base64CharValue(bytes[0] / 4);
      Base64CharValue(High(bytes[0], bytes[1]));
      Base64CharValue(Low(bytes[1], bytes[2]));
      Base64CharValue(bytes[2] % 64);
      assert s == q + rest;
      forall k | 0 <= k < |s| ensures s[k] == '=' || Base64Value(s[k]).Some? {
        if k >= 4 { assert s[k] == rest[k - 4]; }
      }
    }
  }

  /** Four characters for every group of three bytes, a last partial group included. */
  lemma {:induction false} Base64Length(bytes: seq<byte>)
    ensures |Base64Encode(bytes)| == 4 * ((|bytes| + 2) / 3)
  {
    if |bytes| >= 3 {
      Base64Length(bytes[3..]);
      assert (|bytes| + 2) / 3 == (|bytes| - 3 + 2) / 3 + 1;
    }
  }

  function Base64Decode(s: string): Option<seq<byte>>
    decreases |s|
  {
    if s == [] then Some([])
    else if |s| < 4 then None
    else
      var v0, v1, v2, v3 := Base64Value(s[0]), Base64Value(s[1]), Base64Value(s[2]), Base64Value(s[3]);
      if v0.None? || v1.None? then None
      else
        var b0 := v0.value * 4 + v1.value / 16;
        if |s| == 4 && s[2] == '=' && s[3] == '=' then Some([b0])
        else if v2.None? then None
        else
          var b1 := (v1.value % 16) * 16 + v2.value / 4;
          if |s| == 4 && s[3] == '=' then Some([b0, b1])
          else if v3.None? then None
          else
            var b2 := (v2.value % 4) * 64 + v3.value;
            match Base64Decode(s[4..]) {
              case None => None
              case Some(rest) => Some([b0, b1, b2] + rest)
            }
  }

  /** `bytes` in front of a decoded tail, a failure staying a failure. */
  function Prepend(bytes: seq<byte>, tail: Option<seq<byte>>): Option<seq<byte>>
  {
    if tail.None? then None else Some(bytes + tail.value)
  }

  /** The byte each decoding step rebuilds from the sextets of its encoding. */
  lemma Recombine(b0: byte, b1: byte, b2: byte)
    ensures (b0 / 4) * 4 + High(b0, b1) / 16 == b0
    ensures (High(b0, b1) % 16) * 16 + Low(b1, b2) / 4 == b1
    ensures (Low(b1, b2) % 4) * 64 + b2 % 64 == b2
  {
  }

  /** A group of four alphabet characters decodes to three bytes in front of the rest. */
  lemma DecodeFull(c0: char, c1: char, c2: char, c3: char, v0: nat, v1: nat, v2: nat, v3: nat, rest: string)
    requires Base64Value(c0) == Some(v0) && Base64Value(c1) == Some(v1)
    requires Base64Value(c2) == Some(v2) && Base64Value(c3) == Some(v3)
    ensures Base64Decode([c0, c1, c2, c3] + rest)
      == Prepend([v0 * 4 + v1 / 16, (v1 % 16) * 16 + v2 / 4, (v2 % 4) * 64 + v3], Base64Decode(rest))
  {
    var s := [c0, c1, c2, c3] + rest;
    assert s[..4] == [c0, c1, c2, c3] && s[4..] == rest;
  }

  lemma DecodeQuad(b0: byte, b1: byte, b2: byte, rest: string)
    ensures Base64Decode(Quad(b0, b1, b2) + rest) == Prepend([b0, b1, b2], Base64Decode(rest))
  {
    Base64CharValue(b0 / 4);
    Base64CharValue(High(b0, b1));
    Base64CharValue(Low(b1, b2));
    Base64CharValue(b2 % 64);
    DecodeFull(Base64Char(b0 / 4), Base64Char(High(b0, b1)), Base64Char(Low(b1, b2)), Base64Char(b2 % 64),
      b0 / 4, High(b0, b1), Low(b1, b2), b2 % 64, rest);
    Recombine(b0, b1, b2);
  }

  lemma EncodeGroup(bytes: seq<byte>)
    requires |bytes| >= 3
    ensures Base64Encode(bytes) == Quad(bytes[0], bytes[1], bytes[2]) + Base64Encode(bytes[3..])
  {
  }

  /** A group of two characters and two `=` decodes to one byte. */
  lemma DecodePaddedTwice(c0: char, c1: char, v0: nat, v1: nat)
    requires Base64Value(c0) == Some(v0) && Base64Value(c1) == Some(v1)
    ensures Base64Decode([c0, c1, '=', '=']) == Some([v0 * 4 + v1 / 16])
  {
  }

  /** A group of three characters and one `=` decodes to two bytes. */
  lemma DecodePaddedOnce(c0: char, c1: char, c2: char, v0: nat, v1: nat, v2: nat)
    requires Base64Value(c0) == Some(v0) && Base64Value(c1) == Some(v1) && Base64Value(c2) == Some(v2)
    ensures Base64Decode([c0, c1, c2, '=']) == Some([v0 * 4 + v1 / 16, (v1 % 16) * 16 + v2 / 4])
  {
  }

  lemma DecodeOne(bytes: seq<byte>)
    requires |bytes| == 1
    ensures Base64Decode(Base64Encode(bytes)) == Some(bytes)
  {
    var b0 := bytes[0];
    Base64CharValue(b0 / 4);
    Base64CharValue(High(b0, 0));
    DecodePaddedTwice(Base64Char(b0 / 4), Base64Char(High(b0, 0)), b0 / 4, High(b0, 0));
    Recombine(b0, 0, 0);
    assert [b0] == bytes;
  }

  /** The padded group of two bytes decodes to them. */
  lemma DecodePair(b0: byte, b1: byte)
    ensures Base64Decode([Base64Char(b0 / 4), Base64Char(High(b0, b1)), Base64Char(Low(b1, 0)), '=']) == Some([b0, b1])
  {
    Base64CharValue(b0 / 4);
    Base64CharValue(High(b0, b1));
    Base64CharValue(Low(b1, 0));
    DecodePaddedOnce(Base64Char(b0 / 4), Base64Char(High(b0, b1)), Base64Char(Low(b1, 0)), b0 / 4, High(b0, b1), Low(b1, 0));
    Recombine(b0, b1, 0);
  }

  lemma DecodeTwoBytes(bytes: seq<byte>)
    requires |bytes| == 2
    ensures Base64Decode(Base64Encode(bytes)) == Some(bytes)
  {
    DecodePair(bytes[0], bytes[1]);
    assert [bytes[0], bytes[1]] == bytes;
  }

  /** Base64 loses nothing: decoding the encoding of a byte string gives it back. */
  lemma {:induction false} Base64RoundTrip(bytes: seq<byte>)
    ensures Base64Decode(Base64Encode(bytes)) == Some(bytes)
    decreases |bytes|, 1
  {
    if |bytes| == 1 {
      DecodeOne(bytes);
    } else if |bytes| == 2 {
      DecodeTwoBytes(bytes);
    } else if |bytes| >= 3 {
      DecodeGroups(bytes);
    }
  }

  lemma {:induction false} DecodeGroups(bytes: seq<byte>)
    requires |bytes| >= 3
    ensures Base64Decode(Base64Encode(bytes)) == Some(bytes)
    decreases |bytes|, 0
  {
    var b0, b1, b2 := bytes[0], bytes[1], bytes[2];
    Base64RoundTrip(bytes[3..]);
    ConsGroup(b0, b1, b2, bytes[3..], Base64Encode(bytes[3..]));
    EncodeGroup(bytes);
    assert [b0, b1, b2] + bytes[3..] == bytes;
  }

  /** A full group in front of a decodable text decodes to its three bytes in front. */
  lemma ConsGroup(b0: byte, b1: byte, b2: byte, rest: seq<byte>, restText: string)
    requires Base64Decode(restText) == Some(rest)
    ensures Base64Decode(Quad(b0, b1, b2) + restText) == Some([b0, b1, b2] + rest)
  {
    DecodeQuad(b0, b1, b2, restText);
  }

  lemma Base64Injective(a: seq<byte>, b: seq<byte>)
    requires Base64Encode(a) == Base64Encode(b)
    ensures a == b
  {
    Base64RoundTrip(a);
    Base64RoundTrip(b);
  }

  // ---------------------------------------------------------------- encodeURIComponent

  /** The characters `encodeURIComponent` leaves as they are. */
  predicate IsUnreserved(c: char)
  {
    'A' <= c <= 'Z' || 'a' <= c <= 'z' || '0' <= c <= '9'
      || c == '-' || c == '_' || c == '.' || c == '!' || c == '~' || c == '*' || c == '\'' || c == '(' || c == ')'
  }

  function HexDigit(d: nat): (c: char)
    requires d < 16
  {
    if d < 10 then ('0' as int + d) as char else ('A' as int + d - 10) as char
  }

  function HexValue(c: char): (r: Option<nat>)
    ensures r.Some? ==> r.value < 16
  {
    if '0' <= c <= '9' then Some(c as int - '0' as int)
    else if 'A' <= c <= 'F' then Some(c as int - 'A' as int + 10)
    else None
  }

  /** `%XX` for every byte, with upper-case hexadecimal digits. */
  lemma HexDigitValue(d: nat)
    requires d < 16
    ensures HexValue(HexDigit(d)) == Some(d)
  {
  }

  function PercentBytes(bytes: seq<byte>): (s: string)
    ensures |s| == 3 * |bytes|
    ensures forall k | 0 <= k < |s| :: s[k] == '%' || HexValue(s[k]).Some?
  {
    if bytes == [] then "" else ['%', HexDigit(bytes[0] / 16), HexDigit(bytes[0] % 16)] + PercentBytes(bytes[1..])
  }

  function EncodeURIComponent(s: string): (r: string)
    ensures forall k | 0 <= k < |r| :: IsUnreserved(r[k]) || r[k] == '%'
  {
    if s == [] then ""
    else (if IsUnreserved(s[0]) then [s[0]] else PercentBytes(EncodeChar(s[0]))) + EncodeURIComponent(s[1..])
  }

  /** Reads `%XX` escapes and unreserved characters back into bytes. */
  function PercentDecode(s: string): Option<seq<byte>>
    decreases |s|
  {
    if s == [] then Some([])
    else if s[0] == '%' then
      if |s| < 3 then None
      else match (HexValue(s[1]), HexValue(s[2])) {
        case (Some(hi), Some(lo)) =>
          match PercentDecode(s[3..]) {
            case None => None
            case Some(rest) => Some([hi * 16 + lo] + rest)
          }
        case _ => None
      }
    else if IsUnreserved(s[0]) then
      match PercentDecode(s[1..]) {
        case None => None
        case Some(rest) => Some([s[0] as int] + rest)
      }
    else None
  }

  /**
   * The inverse of `EncodeURIComponent` on its image: upper-case `%XX` escapes and unreserved
   * characters read back into bytes, then the bytes read as UTF-8. Unlike JavaScript's
   * `decodeURIComponent`, it rejects lower-case hex digits and unescaped reserved characters,
   * which `EncodeURIComponent` never produces.
   */
  function DecodeURIComponent(s: string): Option<string>
  {
    match PercentDecode(s) {
      case None => None
      case Some(bytes) => Utf8Decode(bytes)
    }
  }

  lemma {:induction false} PercentBytesDecode(bytes: seq<byte>, rest: string)
    ensures PercentDecode(PercentBytes(bytes) + rest) == Prepend(bytes, PercentDecode(rest))
  {
    var s := PercentBytes(bytes) + rest;
    if bytes == [] {
      assert s == rest;
      if PercentDecode(rest).Some? {
        assert bytes + PercentDecode(rest).value == PercentDecode(rest).value;
      }
    } else {
      var b := bytes[0];
      assert s[0] == '%' && s[1] == HexDigit(b / 16) && s[2] == HexDigit(b % 16);
      HexDigitValue(b / 16);
      HexDigitValue(b % 16);
      assert s[3..] == PercentBytes(bytes[1..]) + rest;
      PercentBytesDecode(bytes[1..], rest);
      if PercentDecode(rest).Some? {
        assert [b] + (bytes[1..] + PercentDecode(rest).value) == bytes + PercentDecode(rest).value;
      }
    }
  }

  lemma {:induction false} PercentRoundTrip(s: string)
    ensures PercentDecode(EncodeURIComponent(s)) == Some(Utf8Encode(s))
  {
    if s != [] {
      var rest := EncodeURIComponent(s[1..]);
      PercentRoundTrip(s[1..]);
      if IsUnreserved(s[0]) {
        var t := [s[0]] + rest;
        assert t[1..] == rest;
        assert EncodeChar(s[0]) == [s[0] as int];
      } else {
        PercentBytesDecode(EncodeChar(s[0]), rest);
      }
    }
  }

  /** Decoding undoes `encodeURIComponent`. */
  lemma URIComponentRoundTrip(s: string)
    ensures DecodeURIComponent(EncodeURIComponent(s)) == Some(s)
  {
    PercentRoundTrip(s);
    Utf8RoundTrip(s);
  }
}

=== FILE: helpers.dfy ===
/** Pure helpers of the client controller: HTML escaping, file extensions and file-list descriptions. */
module ClientHelpers {
  import opened Strings
  import opened Wrappers

  // ---------------------------------------------------------------- escapeHtml

  /** `s.replace(/c/g, replacement)`: every occurrence of the character `c` replaced by `replacement`. */
  function ReplaceAll(s: string, c: char, replacement: string): string
  {
    if s == [] then [] else (if s[0] == c then replacement else [s[0]]) + ReplaceAll(s[1..], c, replacement)
  }

  lemma {:induction false} ReplaceAllAppend(a: string, b: string, c: char, replacement: string)
    ensures ReplaceAll(a + b, c, replacement) == ReplaceAll(a, c, replacement) + ReplaceAll(b, c, replacement)
  {
    if a == [] {
      assert a + b == b;
    } else {
      assert (a + b)[0] == a[0] && (a + b)[1..] == a[1..] + b;
      ReplaceAllAppend(a[1..], b, c, replacement);
    }
  }

  lemma {:induction false} ReplaceAbsent(s: string, c: char, replacement: string)
    requires c !in s
    ensures ReplaceAll(s, c, replacement) == s
  {
    if s != [] {
      ReplaceAbsent(s[1..], c, replacement);
      assert [s[0]] + s[1..] == s;
    }
  }

  /** `escapeHtml`: the five replacements in the order the controller applies them, `&` first. */
  function EscapeHtml(value: string): (r: string)
    ensures '<' !in r && '>' !in r && '"' !in r && '\'' !in r
  {
    EscapeHtmlIsPerCharacter(value);
    ReplaceAll(ReplaceAll(ReplaceAll(ReplaceAll(ReplaceAll(
      value, '&', "&amp;"), '<', "&lt;"), '>', "&gt;"), '"', "&quot;"), '\'', "&#39;")
  }

  /** The entity a single character is written as. */
  function EscapeChar(c: char): string
  {
    match c
    case '&' => "&amp;"
    case '<' => "&lt;"
    case '>' => "&gt;"
    case '"' => "&quot;"
    case '\'' => "&#39;"
    case _ => [c]
  }

  /** Escaping one character at a time: the reference the chain of replacements is checked against. */
  function EscapeEach(s: string): (r: string)
    ensures '<' !in r && '>' !in r && '"' !in r && '\'' !in r
  {
    if s == [] then [] else EscapeChar(s[0]) + EscapeEach(s[1..])
  }

  /** The chain of five replacements, as a function of the input. */
  function Chain(value: string): string
  {
    ReplaceAll(ReplaceAll(ReplaceAll(ReplaceAll(ReplaceAll(
      value, '&', "&amp;"), '<', "&lt;"), '>', "&gt;"), '"', "&quot;"), '\'', "&#39;")
  }

  lemma ChainAppend(a: string, b: string)
    ensures Chain(a + b) == Chain(a) + Chain(b)
  {
    var s1a, s1b := ReplaceAll(a, '&', "&amp;"), ReplaceAll(b, '&', "&amp;");
    ReplaceAllAppend(a, b, '&', "&amp;");
    var s2a, s2b := ReplaceAll(s1a, '<', "&lt;"), ReplaceAll(s1b, '<', "&lt;");
    ReplaceAllAppend(s1a, s1b, '<', "&lt;");
    var s3a, s3b := ReplaceAll(s2a, '>', "&gt;"), ReplaceAll(s2b, '>', "&gt;");
    ReplaceAllAppend(s2a, s2b, '>', "&gt;");
    var s4a, s4b := ReplaceAll(s3a, '"', "&quot;"), ReplaceAll(s3b, '"', "&quot;");
    ReplaceAllAppend(s3a, s3b, '"', "&quot;");
    ReplaceAllAppend(s4a, s4b, '\'', "&#39;");
  }

  lemma ReplaceSingle(x: char, c: char, replacement: string)
    ensures ReplaceAll([x], c, replacement) == if x == c then replacement else [x]
  {
    assert [x][0] == x && [x][1..] == [];
    assert ReplaceAll([x], c, replacement) == (if x == c then replacement else [x]) + ReplaceAll([], c, replacement);
  }

  /** The last four replacements leave text without the four characters they look for alone. */
  lemma TailAbsent(s: string)
    requires '<' !in s && '>' !in s && '"' !in s && '\'' !in s
    ensures ReplaceAll(ReplaceAll(ReplaceAll(ReplaceAll(s, '<', "&lt;"), '>', "&gt;"), '"', "&quot;"), '\'', "&#39;") == s
  {
    ReplaceAbsent(s, '<', "&lt;");
    ReplaceAbsent(s, '>', "&gt;");
    ReplaceAbsent(s, '"', "&quot;");
    ReplaceAbsent(s, '\'', "&#39;");
  }

  /** Each later replacement leaves the entities written by the earlier ones alone. */
  lemma ChainChar(c: char)
    ensures Chain([c]) == EscapeChar(c)
  {
    if c == '&' {
      ChainAmp(c);
    } else if c == '<' {
      ChainLt(c);
    } else if c == '>' {
      ChainGt(c);
    } else if c == '"' {
      ChainQuot(c);
    } else if c == '\'' {
      ChainApos(c);
    } else {
      ChainPlain(c);
    }
  }

  lemma ChainAmp(c: char)
    requires c == '&'
    ensures Chain([c]) == "&amp;"
  {
    ReplaceSingle(c, '&', "&amp;");
    TailAbsent("&amp;");
  }

  lemma ChainLt(c: char)
    requires c == '<'
    ensures Chain([c]) == "&lt;"
  {
    ReplaceAbsent([c], '&', "&amp;");
    ReplaceSingle(c, '<', "&lt;");
    LastThreeAbsent("&lt;");
  }

  /** The last three replacements leave text without the three characters they look for alone. */
  lemma LastThreeAbsent(s: string)
    requires '>' !in s && '"' !in s && '\'' !in s
    ensures ReplaceAll(ReplaceAll(ReplaceAll(s, '>', "&gt;"), '"', "&quot;"), '\'', "&#39;") == s
  {
    ReplaceAbsent(s, '>', "&gt;");
    ReplaceAbsent(s, '"', "&quot;");
    ReplaceAbsent(s, '\'', "&#39;");
  }

  lemma ChainGt(c: char)
    requires c == '>'
    ensures Chain([c]) == "&gt;"
  {
    ReplaceAbsent([c], '&', "&amp;");
    ReplaceAbsent([c], '<', "&lt;");
    ReplaceSingle(c, '>', "&gt;");
    var e := ReplaceAll([c], '>', "&gt;");
    ReplaceAbsent(e, '"', "&quot;");
    ReplaceAbsent(e, '\'', "&#39;");
  }

  lemma ChainQuot(c: char)
    requires c == '"'
    ensures Chain([c]) == "&quot;"
  {
    ReplaceAbsent([c], '&', "&amp;");
    ReplaceAbsent([c], '<', "&lt;");
    ReplaceAbsent([c], '>', "&gt;");
    ReplaceSingle(c, '"', "&quot;");
    var e := ReplaceAll([c], '"', "&quot;");
    ReplaceAbsent(e, '\'', "&#39;");
  }

  lemma ChainApos(c: char)
    requires c == '\''
    ensures Chain([c]) == "&#39;"
  {
    ReplaceAbsent([c], '&', "&amp;");
    ReplaceAbsent([c], '<', "&lt;");
    ReplaceAbsent([c], '>', "&gt;");
    ReplaceAbsent([c], '"', "&quot;");
    ReplaceSingle(c, '\'', "&#39;");
  }

  lemma ChainPlain(c: char)
    requires c != '&' && c != '<' && c != '>' && c != '"' && c != '\''
    ensures Chain([c]) == [c]
  {
    ReplaceAbsent([c], '&', "&amp;");
    TailAbsent([c]);
  }

  /** Replacing `&` first makes the chain of replacements escape each character exactly once. */
  lemma {:induction false} EscapeHtmlIsPerCharacter(value: string)
    ensures Chain(value) == EscapeEach(value)
  {
    if value != [] {
      assert value == [value[0]] + value[1..];
      ChainAppend([value[0]], value[1..]);
      ChainChar(value[0]);
      EscapeHtmlIsPerCharacter(value[1..]);
    }
  }

  /** Reads the five entities back into the characters they stand for. */
  function UnescapeHtml(s: string): string
  {
    if s == [] then []
    else if |s| >= 5 && s[..5] == "&amp;" then "&" + UnescapeHtml(s[5..])
    else if |s| >= 4 && s[..4] == "&lt;" then "<" + UnescapeHtml(s[4..])
    else if |s| >= 4 && s[..4] == "&gt;" then ">" + UnescapeHtml(s[4..])
    else if |s| >= 6 && s[..6] == "&quot;" then "\"" + UnescapeHtml(s[6..])
    else if |s| >= 5 && s[..5] == "&#39;" then "'" + UnescapeHtml(s[5..])
    else [s[0]] + UnescapeHtml(s[1..])
  }

  /** Text that does not start with `&` is read back one character at a time. */
  lemma UnescapePlain(s: string)
    requires s != [] && s[0] != '&'
    ensures UnescapeHtml(s) == [s[0]] + UnescapeHtml(s[1..])
  {
    assert |s| >= 4 ==> s[..4][0] == s[0];
    assert |s| >= 5 ==> s[..5][0] == s[0];
    assert |s| >= 6 ==> s[..6][0] == s[0];
  }

  lemma UnescapeChar(c: char, rest: string)
    ensures UnescapeHtml(EscapeChar(c) + rest) == [c] + UnescapeHtml(rest)
  {
    var s := EscapeChar(c) + rest;
    var n := |EscapeChar(c)|;
    assert s[..n] == EscapeChar(c) && s[n..] == rest;
    if c == '<' || c == '>' || c == '"' || c == '\'' {
      assert |s| >= 5 ==> s[..5][1] == s[1] != 'a';
    }
    if c == '>' || c == '"' || c == '\'' {
      assert |s| >= 4 ==> s[..4][1] == s[1] != 'l';
    }
    if c == '"' || c == '\'' {
      assert |s| >= 4 ==> s[..4][1] == s[1] != 'g';
    }
    if c == '\'' {
      assert |s| >= 6 ==> s[..6][1] == s[1] != 'q';
    }
    if c != '&' && c != '<' && c != '>' && c != '"' && c != '\'' {
      UnescapePlain(s);
      assert s[0] == c && s[1..] == rest;
    }
  }

  /** Escaping loses nothing: the entities read back to the original text. */
  lemma {:induction false} EscapeRoundTrip(value: string)
    ensures UnescapeHtml(EscapeHtml(value)) == value
  {
    EscapeHtmlIsPerCharacter(value);
    EscapeEachRoundTrip(value);
  }

  lemma {:induction false} EscapeEachRoundTrip(value: string)
    ensures UnescapeHtml(EscapeEach(value)) == value
  {
    if value != [] {
      UnescapeChar(value[0], EscapeEach(value[1..]));
      EscapeEachRoundTrip(value[1..]);
      assert [value[0]] + value[1..] == value;
    }
  }

  // ---------------------------------------------------------------- getFileExtension

  /** The text after the last `.` of `s`, or `None` when `s` has no `.`. */
  function AfterLastDot(s: string): (r: Option<string>)
    ensures r.None? <==> '.' !in s
    ensures r.Some? ==> '.' !in r.value
  {
    if s == [] then None
    else if s[|s| - 1] == '.' then Some([])
    else
      var p, x := s[..|s| - 1], s[|s| - 1];
      assert s == p + [x];
      match AfterLastDot(p) {
        case None => None
        case Some(t) => Some(t + [x])
      }
  }

  /** The text after the last dot is what follows the dot at position |s| - |t| - 1. */
  lemma {:induction false} AfterLastDotSplits(s: string)
    requires '.' in s
    ensures |AfterLastDot(s).value| < |s|
    ensures s == s[..|s| - |AfterLastDot(s).value| - 1] + "." + AfterLastDot(s).value
  {
    if s[|s| - 1] == '.' {
      assert s == s[..|s| - 1] + "." + [];
    } else {
      var p, x := s[..|s| - 1], s[|s| - 1];
      assert s == p + [x];
      assert '.' in p;
      AfterLastDotSplits(p);
      var t := AfterLastDot(p).value;
      var head := p[..|p| - |t| - 1];
      assert AfterLastDot(s).value == t + [x];
      assert s == head + "." + (t + [x]);
      assert s[..|s| - |t + [x]| - 1] == head;
    }
  }

  /** The text after the last dot of `base.ext` is `ext`. */
  lemma {:induction false} AfterLastDotOfDotted(base: string, ext: string)
    requires '.' !in ext
    ensures AfterLastDot(base + "." + ext) == Some(ext)
    decreases |ext|
  {
    var s := base + "." + ext;
    if ext == [] {
      assert s[|s| - 1] == '.';
    } else {
      var e := ext[..|ext| - 1];
      assert s[..|s| - 1] == base + "." + e;
      assert ext == e + [ext[|ext| - 1]];
      AfterLastDotOfDotted(base, e);
      assert s[|s| - 1] == ext[|ext| - 1];
    }
  }

  /** Lower-casing neither adds nor removes a `.`. */
  lemma LowerKeepsDots(t: string)
    ensures '.' in ToLower(t) <==> '.' in t
  {
    var r := ToLower(t);
    if '.' in r {
      var i :| 0 <= i < |r| && r[i] == '.';
      assert LowerChar(t[i]) == '.';
    }
    if '.' in t {
      var i :| 0 <= i < |t| && t[i] == '.';
      assert r[i] == '.';
    }
  }

  /** `getFileExtension`: the lower-cased text after the last `.`, or "" for a name without one. */
  function GetFileExtension(filename: string): (ext: string)
    ensures '.' !in ext
    ensures '.' !in filename ==> ext == ""
  {
    match AfterLastDot(filename) {
      case None => ""
      case Some(t) =>
        LowerKeepsDots(t);
        ToLower(t)
    }
  }

  /** With a dot in the name, the extension is the lower-cased text after the last dot. */
  lemma ExtensionAfterLastDot(filename: string)
    requires '.' in filename
    ensures exists k | 0 <= k < |filename| && filename[k] == '.' && '.' !in filename[k + 1..] ::
      GetFileExtension(filename) == ToLower(filename[k + 1..])
  {
    AfterLastDotSplits(filename);
    var t := AfterLastDot(filename).value;
    var k := |filename| - |t| - 1;
    assert filename[k] == '.' && filename[k + 1..] == t;
  }

  /** The extension of `base.ext` is `ext` lower-cased, whatever dots `base` holds. */
  lemma ExtensionOfDotted(base: string, ext: string)
    requires '.' !in ext
    ensures GetFileExtension(base + "." + ext) == ToLower(ext)
  {
    AfterLastDotOfDotted(base, ext);
  }

  // ---------------------------------------------------------------- buildDescriptionFromFiles

  /** A file of a torrent as the client sees it; an empty name stands for a missing one. */
  datatype FileInfo = FileInfo(name: string, length: nat)

  /** `files.map(file => file.name).filter(Boolean)`. */
  function NamesOf(files: seq<FileInfo>): (names: seq<string>)
    ensures |names| <= |files|
    ensures forall k | 0 <= k < |names| :: names[k] != ""
  {
    if files == [] then []
    else (if files[0].name == "" then [] else [files[0].name]) + NamesOf(files[1..])
  }

  lemma {:induction false} NamesOfEmpty(files: seq<FileInfo>)
    ensures NamesOf(files) == [] <==> forall k | 0 <= k < |files| :: files[k].name == ""
  {
    if files != [] {
      NamesOfEmpty(files[1..]);
      assert forall k | 1 <= k < |files| :: files[k].name == files[1..][k - 1].name;
    }
  }

  /** Every listed name comes from a named file, in the files' order. */
  lemma {:induction false} NamesOfAllNamed(files: seq<FileInfo>)
    requires forall k | 0 <= k < |files| :: files[k].name != ""
    ensures |NamesOf(files)| == |files|
    ensures forall k | 0 <= k < |files| :: NamesOf(files)[k] == files[k].name
  {
    if files != [] {
      NamesOfAllNamed(files[1..]);
    }
  }

  /** The first (at most) three files, by `files.slice(0, 3)`. */
  function FirstThree(files: seq<FileInfo>): (head: seq<FileInfo>)
    ensures |head| <= 3 && |head| <= |files| && head == files[..|head|]
    ensures |head| == 3 || |head| == |files|
  {
    if |files| <= 3 then files else files[..3]
  }

  /** `" y N más"` when `remaining` files were left out of the preview, nothing otherwise. */
  function Remainder(remaining: int): string
  {
    if remaining > 0 then " y " + NatToString(remaining) + " más" else ""
  }

  /** `buildDescriptionFromFiles`: up to three file names and how many files the preview leaves out. */
  function BuildDescriptionFromFiles(files: seq<FileInfo>): (description: string)
    ensures description == "" <==> forall k | 0 <= k < |files| && k < 3 :: files[k].name == ""
    ensures description != "" ==> |description| >= 9 && description[..9] == "Incluye: "
  {
    var preview := NamesOf(FirstThree(files));
    NamesOfEmpty(FirstThree(files));
    if |files| == 0 || |preview| == 0 then ""
    else
      var d := "Incluye: " + Join(preview, ", ") + Remainder(|files| - |preview|);
      assert d[..9] == "Incluye: ";
      d
  }

  /** Every named file among the first three appears in the description. */
  lemma DescriptionNamesPreview(files: seq<FileInfo>, k: nat)
    requires k < |files| && k < 3 && files[k].name != ""
    ensures Contains(BuildDescriptionFromFiles(files), files[k].name)
  {
    var preview := NamesOf(FirstThree(files));
    NamesHold(FirstThree(files), k);
    var j :| 0 <= j < |preview| && preview[j] == files[k].name;
    PreviewInDescription(files, j);
  }

  /** Every name of the preview appears in the description. */
  lemma PreviewInDescription(files: seq<FileInfo>, j: nat)
    requires j < |NamesOf(FirstThree(files))|
    ensures Contains(BuildDescriptionFromFiles(files), NamesOf(FirstThree(files))[j])
  {
    var preview := NamesOf(FirstThree(files));
    JoinContainsParts(preview, ", ", j);
    ContainsInConcat("Incluye: ", Join(preview, ", "), Remainder(|files| - |preview|), preview[j]);
  }

  /** The name of a named file is among `NamesOf`. */
  lemma {:induction false} NamesHold(files: seq<FileInfo>, k: nat)
    requires k < |files| && files[k].name != ""
    ensures exists j | 0 <= j < |NamesOf(files)| :: NamesOf(files)[j] == files[k].name
  {
    var names := NamesOf(files);
    if k == 0 {
      assert names[0] == files[0].name;
    } else {
      NamesHold(files[1..], k - 1);
      var j :| 0 <= j < |NamesOf(files[1..])| && NamesOf(files[1..])[j] == files[1..][k - 1].name;
      var offset := if files[0].name == "" then 0 else 1;
      assert names[j + offset] == files[k].name;
    }
  }

  /** With three or fewer named files, the description lists them all and reports no remainder. */
  lemma DescriptionOfFewFiles(files: seq<FileInfo>)
    requires 0 < |files| <= 3
    requires forall k | 0 <= k < |files| :: files[k].name != ""
    ensures BuildDescriptionFromFiles(files) == "Incluye: " + Join(NamesOf(files), ", ")
    ensures forall k | 0 <= k < |files| :: NamesOf(files)[k] == files[k].name
  {
    NamesOfAllNamed(files);
  }

  /** With more than three files and the first three named, the rest is counted as `files.length - 3`. */
  lemma DescriptionCountsRest(files: seq<FileInfo>)
    requires |files| > 3
    requires files[0].name != "" && files[1].name != "" && files[2].name != ""
    ensures BuildDescriptionFromFiles(files)
      == "Incluye: " + Join([files[0].name, files[1].name, files[2].name], ", ") + (" y " + NatToString(|files| - 3) + " más")
  {
    PreviewOfNamed(files);
  }

  /** The number of files without a name. */
  function Unnamed(files: seq<FileInfo>): nat
  {
    if files == [] then 0 else (if files[0].name == "" then 1 else 0) + Unnamed(files[1..])
  }

  /** `NamesOf` drops exactly the unnamed files. */
  lemma {:induction false} NamesOfLength(files: seq<FileInfo>)
    ensures |NamesOf(files)| + Unnamed(files) == |files|
  {
    if files != [] {
      NamesOfLength(files[1..]);
    }
  }

  /**
   * The count after the preview covers the files past the first three and also the unnamed files
   * among the first three, which the preview skips.
   */
  lemma DescriptionCountsUnnamed(files: seq<FileInfo>)
    requires exists k | 0 <= k < |files| && k < 3 :: files[k].name != ""
    ensures BuildDescriptionFromFiles(files)
      == "Incluye: " + Join(NamesOf(FirstThree(files)), ", ")
         + Remainder(|files| - |FirstThree(files)| + Unnamed(FirstThree(files)))
  {
    NamesOfLength(FirstThree(files));
    NamesOfEmpty(FirstThree(files));
  }

  lemma PreviewOfNamed(files: seq<FileInfo>)
    requires |files| > 3
    requires files[0].name != "" && files[1].name != "" && files[2].name != ""
    ensures NamesOf(FirstThree(files)) == [files[0].name, files[1].name, files[2].name]
  {
    assert FirstThree(files) == files[..3];
    NamesOfAllNamed(files[..3]);
  }

  lemma JoinThree(a: string, b: string, c: string, sep: string)
    ensures Join([a, b, c], sep) == a + sep + b + sep + c
  {
    assert [a, b, c][1..] == [b, c];
    assert [b, c][1..] == [c];
    assert Join([c], sep) == c;
    assert Join([b, c], sep) == b + sep + c;
  }
}

=== FILE: levenshtein.dfy ===
/**
 * The Levenshtein distance used by the fuzzy title matcher: a textbook recursive
 * definition, its basic laws, and the dynamic-programming matrix fill that the
 * client runs, proved to compute exactly that definition.
 */
module Levenshtein {

  function Min3(x: nat, y: nat, z: nat): (m: nat)
    ensures m <= x && m <= y && m <= z
    ensures m == x || m == y || m == z
  {
    if x <= y && x <= z then x else if y <= z then y else z
  }

  function DropLast(s: string): string
    requires |s| > 0
  {
    s[..|s| - 1]
  }

  /**
   * The fewest single-character insertions, deletions and substitutions that turn
   * `a` into `b`: the last characters are deleted, inserted, or matched (at cost 0
   * when they agree, 1 when one is substituted for the other).
   */
  function EditDistance(a: string, b: string): nat
    decreases |a| + |b|
  {
    if |a| == 0 then |b|
    else if |b| == 0 then |a|
    else
      Min3(EditDistance(DropLast(a), b) + 1,
           EditDistance(a, DropLast(b)) + 1,
           EditDistance(DropLast(a), DropLast(b)) + (if a[|a| - 1] == b[|b| - 1] then 0 else 1))
  }

  /** Appending a character to `b` costs at most one more edit. */
  lemma InsertStep(a: string, b: string)
    requires |b| > 0
    ensures EditDistance(a, b) <= EditDistance(a, DropLast(b)) + 1
  {
  }

  /** Appending a character to `a` costs at most one more edit. */
  lemma DeleteStep(a: string, b: string)
    requires |a| > 0
    ensures EditDistance(a, b) <= EditDistance(DropLast(a), b) + 1
  {
  }

  /** Removing the last character of `a` saves at most one edit. */
  lemma {:induction false} DeleteBound(a: string, b: string)
    requires |a| > 0
    ensures EditDistance(DropLast(a), b) <= EditDistance(a, b) + 1
    decreases |b|
  {
    if |b| > 0 {
      DeleteBound(a, DropLast(b));
      InsertStep(DropLast(a), b);
    }
  }

  /** Removing the last character of `b` saves at most one edit. */
  lemma {:induction false} InsertBound(a: string, b: string)
    requires |b| > 0
    ensures EditDistance(a, DropLast(b)) <= EditDistance(a, b) + 1
    decreases |a|
  {
    if |a| > 0 {
      InsertBound(DropLast(a), b);
      DeleteStep(a, DropLast(b));
    }
  }

  /**
   * When the last characters agree, the distance is that of the two prefixes: the
   * shortcut the matrix fill takes instead of the three-way minimum.
   */
  lemma MatchLast(a: string, b: string)
    requires |a| > 0 && |b| > 0 && a[|a| - 1] == b[|b| - 1]
    ensures EditDistance(a, b) == EditDistance(DropLast(a), DropLast(b))
  {
    DeleteBound(a, DropLast(b));
    InsertBound(DropLast(a), b);
  }

  /** A string is at distance 0 from itself. */
  lemma {:induction false} SelfDistance(a: string)
    ensures EditDistance(a, a) == 0
    decreases |a|
  {
    if |a| > 0 {
      MatchLast(a, a);
      SelfDistance(DropLast(a));
    }
  }

  /** Distance 0 holds only between equal strings. */
  lemma {:induction false} ZeroDistanceEqual(a: string, b: string)
    requires EditDistance(a, b) == 0
    ensures a == b
    decreases |a| + |b|
  {
    if |a| > 0 && |b| > 0 {
      ZeroDistanceEqual(DropLast(a), DropLast(b));
      assert a == DropLast(a) + [a[|a| - 1]];
      assert b == DropLast(b) + [b[|b| - 1]];
    }
  }

  /** The distance is symmetric. */
  lemma {:induction false} Symmetric(a: string, b: string)
    ensures EditDistance(a, b) == EditDistance(b, a)
    decreases |a| + |b|
  {
    if |a| > 0 && |b| > 0 {
      Symmetric(DropLast(a), b);
      Symmetric(a, DropLast(b));
      Symmetric(DropLast(a), DropLast(b));
    }
  }

  /** Never more edits than the longer string has characters. */
  lemma {:induction false} UpperBound(a: string, b: string)
    ensures EditDistance(a, b) <= if |a| >= |b| then |a| else |b|
    decreases |a| + |b|
  {
    if |a| > 0 && |b| > 0 {
      UpperBound(DropLast(a), DropLast(b));
    }
  }

  /** Never fewer edits than the difference in length. */
  lemma {:induction false} LowerBound(a: string, b: string)
    ensures EditDistance(a, b) >= |a| - |b| && EditDistance(a, b) >= |b| - |a|
    decreases |a| + |b|
  {
    if |a| > 0 && |b| > 0 {
      LowerBound(DropLast(a), b);
      LowerBound(a, DropLast(b));
      LowerBound(DropLast(a), DropLast(b));
    }
  }

  /** The recurrence in the matrix's terms: cell (i, j) holds the distance of the prefixes a[..j] and b[..i]. */
  lemma Recurrence(a: string, b: string, i: nat, j: nat)
    requires 1 <= i <= |b| && 1 <= j <= |a|
    ensures b[i - 1] == a[j - 1] ==>
      EditDistance(a[..j], b[..i]) == EditDistance(a[..j - 1], b[..i - 1])
    ensures b[i - 1] != a[j - 1] ==>
      EditDistance(a[..j], b[..i]) ==
        Min3(EditDistance(a[..j], b[..i - 1]) + 1,
             EditDistance(a[..j - 1], b[..i]) + 1,
             EditDistance(a[..j - 1], b[..i - 1]) + 1)
  {
    assert DropLast(a[..j]) == a[..j - 1];
    assert DropLast(b[..i]) == b[..i - 1];
    if b[i - 1] == a[j - 1] {
      MatchLast(a[..j], b[..i]);
    }
  }

  /** The value the inner loop writes into cell (i, j) from its three neighbours is the distance of the prefixes. */
  lemma CellValue(a: string, b: string, i: nat, j: nat, diagonal: nat, above: nat, left: nat)
    requires 1 <= i <= |b| && 1 <= j <= |a|
    requires diagonal == EditDistance(a[..j - 1], b[..i - 1])
    requires above == EditDistance(a[..j], b[..i - 1])
    requires left == EditDistance(a[..j - 1], b[..i])
    ensures EditDistance(a[..j], b[..i])
      == if b[i - 1] == a[j - 1] then diagonal else Min3(above + 1, left + 1, diagonal + 1)
  {
    Recurrence(a, b, i, j);
  }

  /** Cell (r, c) of the matrix holds the distance of the prefixes a[..c] and b[..r]. */
  ghost predicate RowsFilled(matrix: array2<nat>, a: string, b: string, rows: nat)
    reads matrix
    requires matrix.Length0 == |b| + 1 && matrix.Length1 == |a| + 1 && rows <= |b| + 1
  {
    forall r, c | 0 <= r < rows && 0 <= c <= |a| :: matrix[r, c] == EditDistance(a[..c], b[..r])
  }

  /** The first column of the rows from `from` on still holds the row number. */
  ghost predicate FirstColumn(matrix: array2<nat>, a: string, b: string, from: nat)
    reads matrix
    requires matrix.Length0 == |b| + 1 && matrix.Length1 == |a| + 1
  {
    forall r | from <= r <= |b| :: matrix[r, 0] == r
  }

  /** The two `for` loops that number the first column and the first row. */
  method InitMatrix(a: string, b: string) returns (matrix: array2<nat>)
    ensures fresh(matrix)
    ensures matrix.Length0 == |b| + 1 && matrix.Length1 == |a| + 1
    ensures RowsFilled(matrix, a, b, 1) && FirstColumn(matrix, a, b, 1)
  {
    matrix := new nat[|b| + 1, |a| + 1];
    for i := 0 to |b| + 1
      invariant forall r | 0 <= r < i :: matrix[r, 0] == r
    {
      matrix[i, 0] := i;
    }
    for j := 0 to |a| + 1
      invariant forall r | 0 <= r <= |b| :: matrix[r, 0] == r
      invariant forall c | 0 <= c < j :: matrix[0, c] == c
    {
      matrix[0, j] := j;
    }
    assert forall c | 0 <= c <= |a| :: |a[..c]| == c && b[..0] == [];
  }

  /** The inner loop: fills row `i` from rows `i - 1` and the cells to its left. */
  method FillRow(matrix: array2<nat>, a: string, b: string, i: nat)
    requires matrix.Length0 == |b| + 1 && matrix.Length1 == |a| + 1
    requires 1 <= i <= |b|
    requires RowsFilled(matrix, a, b, i) && FirstColumn(matrix, a, b, i)
    modifies matrix
    ensures RowsFilled(matrix, a, b, i + 1) && FirstColumn(matrix, a, b, i + 1)
  {
    assert matrix[i, 0] == EditDistance(a[..0], b[..i]) by {
      assert a[..0] == [];
    }
    for j := 1 to |a| + 1
      invariant forall r, c | 0 <= r <= |b| && r != i && 0 <= c <= |a| :: matrix[r, c] == old(matrix[r, c])
      invariant forall c | 0 <= c < j :: matrix[i, c] == EditDistance(a[..c], b[..i])
    {
      var diagonal, above, left := matrix[i - 1, j - 1], matrix[i - 1, j], matrix[i, j - 1];
      assert diagonal == old(matrix[i - 1, j - 1]) && above == old(matrix[i - 1, j]);
      CellValue(a, b, i, j, diagonal, above, left);
      matrix[i, j] := if b[i - 1] == a[j - 1] then diagonal else Min3(above + 1, left + 1, diagonal + 1);
    }
    forall r, c | 0 <= r <= i && 0 <= c <= |a|
      ensures matrix[r, c] == EditDistance(a[..c], b[..r])
    {
      if r < i {
        assert matrix[r, c] == old(matrix[r, c]);
      }
    }
  }

  /**
   * `levenshtein(a, b)`: equal strings are at distance 0, an empty string is at the
   * other's length, and otherwise a (|b|+1) x (|a|+1) matrix is filled row by row.
   */
  method ComputeLevenshtein(a: string, b: string) returns (distance: nat)
    ensures distance == EditDistance(a, b)
  {
    if a == b {
      SelfDistance(a);
      return 0;
    }
    if |a| == 0 {
      return |b|;
    }
    if |b| == 0 {
      return |a|;
    }

    var matrix := InitMatrix(a, b);
    for i := 1 to |b| + 1
      invariant RowsFilled(matrix, a, b, i) && FirstColumn(matrix, a, b, i)
    {
      FillRow(matrix, a, b, i);
    }
    assert a[..|a|] == a && b[..|b|] == b;
    distance := matrix[|b|, |a|];
  }
}

=== FILE: media.dfy ===
/**
 * The choice of the file to play in a torrent: among the files with an audio extension,
 * the longest one, the first of them when several are equally long.
 */
module MediaSelection {
  import opened ClientHelpers

  /** The extensions the player accepts, in the controller's order. */
  const AUDIO_FILE_EXTENSIONS: seq<string> := ["mp3", "flac", "aac", "m4a", "wav", "ogg", "opus", "alac", "wma"]

  predicate IsAudioFile(file: FileInfo)
  {
    GetFileExtension(file.name) in AUDIO_FILE_EXTENSIONS
  }

  /** `files.filter(keep)`. */
  function Filter(files: seq<FileInfo>, keep: FileInfo -> bool): (kept: seq<FileInfo>)
    ensures |kept| <= |files|
  {
    if files == [] then []
    else (if keep(files[0]) then [files[0]] else []) + Filter(files[1..], keep)
  }

  /** `torrent.files.filter(...)` on the audio extensions. */
  function AudioFiles(files: seq<FileInfo>): (audio: seq<FileInfo>)
    ensures |audio| <= |files|
  {
    Filter(files, IsAudioFile)
  }

  /** Every file the filter keeps is a file of the list that passes the test. */
  lemma {:induction false} FilterKeeps(files: seq<FileInfo>, keep: FileInfo -> bool, j: nat)
    requires j < |Filter(files, keep)|
    ensures keep(Filter(files, keep)[j]) && Filter(files, keep)[j] in files
  {
    var head := if keep(files[0]) then [files[0]] else [];
    var rest := Filter(files[1..], keep);
    assert Filter(files, keep) == head + rest;
    if j >= |head| {
      FilterKeeps(files[1..], keep, j - |head|);
      assert Filter(files, keep)[j] == rest[j - |head|];
      assert rest[j - |head|] in files[1..];
    }
  }

  /** Every file of the list that passes the test is kept by the filter. */
  lemma {:induction false} FilterFinds(files: seq<FileInfo>, keep: FileInfo -> bool, k: nat)
    requires k < |files| && keep(files[k])
    ensures exists j | 0 <= j < |Filter(files, keep)| :: Filter(files, keep)[j] == files[k]
  {
    var head := if keep(files[0]) then [files[0]] else [];
    var rest := Filter(files[1..], keep);
    assert Filter(files, keep) == head + rest;
    if k == 0 {
      assert Filter(files, keep)[0] == files[0];
    } else {
      FilterFinds(files[1..], keep, k - 1);
      var j :| 0 <= j < |rest| && rest[j] == files[1..][k - 1];
      assert Filter(files, keep)[|head| + j] == files[k];
    }
  }

  /** A filter that keeps nothing means no file passes the test. */
  lemma {:induction false} NoneKept(files: seq<FileInfo>, keep: FileInfo -> bool, k: nat)
    requires Filter(files, keep) == [] && k < |files|
    ensures !keep(files[k])
  {
    if k > 0 {
      assert Filter(files[1..], keep) == [];
      NoneKept(files[1..], keep, k - 1);
      assert files[1..][k - 1] == files[k];
    }
  }

  /** A file that passes the test is no longer than a bound that every kept file respects. */
  lemma {:induction false} KeptBelow(files: seq<FileInfo>, keep: FileInfo -> bool, k: nat, bound: nat)
    requires k < |files| && keep(files[k])
    requires forall j | 0 <= j < |Filter(files, keep)| :: Filter(files, keep)[j].length <= bound
    ensures files[k].length <= bound
  {
    var head := if keep(files[0]) then [files[0]] else [];
    var rest := Filter(files[1..], keep);
    assert Filter(files, keep) == head + rest;
    if k == 0 {
      assert Filter(files, keep)[0] == files[0];
    } else {
      forall j | 0 <= j < |rest| ensures rest[j].length <= bound {
        assert rest[j] == Filter(files, keep)[|head| + j];
      }
      KeptBelow(files[1..], keep, k - 1, bound);
      assert files[1..][k - 1] == files[k];
    }
  }

  /** Position `i` holds a file no other is longer than. */
  predicate IsLongest(files: seq<FileInfo>, i: nat)
  {
    i < |files| && forall j | 0 <= j < |files| :: files[j].length <= files[i].length
  }

  /** Position `i` holds a file no other is longer than, and every file before it is shorter. */
  predicate IsFirstLongest(files: seq<FileInfo>, i: nat)
  {
    IsLongest(files, i) && forall j | 0 <= j < i :: files[j].length < files[i].length
  }

  /**
   * The `reduce` that keeps `prev` unless `current` is strictly longer, continued from position
   * `next` with the best so far at `best`.
   */
  function ReduceLongest(files: seq<FileInfo>, best: nat, next: nat): (i: nat)
    requires best < next <= |files|
    requires forall j | 0 <= j < next :: files[j].length <= files[best].length
    requires forall j | 0 <= j < best :: files[j].length < files[best].length
    ensures IsFirstLongest(files, i)
    decreases |files| - next
  {
    if next == |files| then best
    else if files[next].length > files[best].length then ReduceLongest(files, next, next + 1)
    else ReduceLongest(files, best, next + 1)
  }

  /** `files.reduce((prev, current) => current.length > prev.length ? current : prev)`, as a position. */
  function LongestFile(files: seq<FileInfo>): (i: nat)
    requires files != []
    ensures IsFirstLongest(files, i)
  {
    ReduceLongest(files, 0, 1)
  }

  /** Only one position is the first of the longest files. */
  lemma FirstLongestUnique(files: seq<FileInfo>, i: nat, j: nat)
    requires IsFirstLongest(files, i) && IsFirstLongest(files, j)
    ensures i == j
  {
    NothingLongerBefore(files, i, j);
    NothingLongerBefore(files, j, i);
  }

  /** No file at least as long as the first longest one comes before it. */
  lemma NothingLongerBefore(files: seq<FileInfo>, i: nat, j: nat)
    requires IsFirstLongest(files, i) && j < |files| && files[j].length >= files[i].length
    ensures i <= j
  {
  }

  /** What `findAndPlayMediaFile` does with the files of a torrent. */
  datatype MediaChoice = NoFiles | NoAudio | Selected(file: FileInfo)

  function SelectMediaFile(files: seq<FileInfo>): (choice: MediaChoice)
    ensures choice.NoFiles? <==> files == []
    ensures choice.NoAudio? <==> files != [] && forall k | 0 <= k < |files| :: !IsAudioFile(files[k])
    ensures choice.Selected? ==> IsAudioFile(choice.file) && choice.file in files
    ensures choice.Selected? ==> forall k | 0 <= k < |files| :: IsAudioFile(files[k]) ==> files[k].length <= choice.file.length
  {
    if files == [] then NoFiles
    else
      var audio := AudioFiles(files);
      if audio == [] then
        NoAudioFiles(files);
        NoAudio
      else
        var i := LongestFile(audio);
        LongestAudio(files, i);
        Selected(audio[i])
  }

  /** An empty filter result means no file has an audio extension. */
  lemma NoAudioFiles(files: seq<FileInfo>)
    requires AudioFiles(files) == []
    ensures forall k | 0 <= k < |files| :: !IsAudioFile(files[k])
  {
    forall k | 0 <= k < |files| ensures !IsAudioFile(files[k]) {
      NoneKept(files, IsAudioFile, k);
    }
  }

  /** The longest kept file is one no audio file of the torrent is longer than. */
  lemma LongestAudio(files: seq<FileInfo>, i: nat)
    requires IsLongest(AudioFiles(files), i)
    ensures IsAudioFile(AudioFiles(files)[i]) && AudioFiles(files)[i] in files
    ensures forall k | 0 <= k < |files| :: IsAudioFile(files[k]) ==> files[k].length <= AudioFiles(files)[i].length
  {
    FilterKeeps(files, IsAudioFile, i);
    forall k | 0 <= k < |files| && IsAudioFile(files[k])
      ensures files[k].length <= AudioFiles(files)[i].length
    {
      KeptBelow(files, IsAudioFile, k, AudioFiles(files)[i].length);
    }
  }

  /** Among equally long audio files, the one listed first is played. */
  lemma SelectsFirstOfLongest(files: seq<FileInfo>, i: nat)
    requires IsFirstLongest(AudioFiles(files), i)
    ensures SelectMediaFile(files) == Selected(AudioFiles(files)[i])
  {
    var audio := AudioFiles(files);
    FirstLongestUnique(audio, i, LongestFile(audio));
  }
}

=== FILE: player.dfy ===
/**
 * The client controller's play queue and its two bookkeeping maps: the FIFO queue
 * with the item now playing, the downloads the client tracks, and the timers of
 * its status polling.
 */
module Player {
  import opened Strings
  import opened Wrappers

  /**
   * The fields of a search result or library track that `addToQueue` reads; an
   * empty string stands for a missing or empty field.
   */
  datatype Track = Track(
    name: string, originalName: string, isLocal: bool, magnet: string,
    streamUrl: string, source: string, size: string, quality: string)

  /** One entry of the play queue. */
  datatype QueueEntry = QueueEntry(
    id: string, title: string, isLocal: bool, magnet: Option<string>,
    streamUrl: Option<string>, source: string, size: string, quality: string)

  /** `a || b` on strings: the first one unless it is empty. */
  function OrElse(a: string, b: string): string
  {
    if a != "" then a else b
  }

  /** `s || null`. */
  function NonEmpty(s: string): Option<string>
  {
    if s != "" then Some(s) else None
  }

  /** The queue entry `addToQueue` builds for a track under a freshly drawn id. */
  function MakeEntry(track: Track, id: string): (e: QueueEntry)
    ensures e.id == id && e.isLocal == track.isLocal
    ensures e.magnet.Some? <==> track.magnet != ""
    ensures e.streamUrl.Some? <==> track.streamUrl != ""
    ensures e.title != ""
  {
    QueueEntry(
      id,
      OrElse(track.name, OrElse(track.originalName, "Elemento sin título")),
      track.isLocal,
      NonEmpty(track.magnet),
      NonEmpty(track.streamUrl),
      OrElse(track.source, if track.isLocal then "Biblioteca" else "Tracker"),
      track.size,
      track.quality)
  }

  /** The validation of `addToQueue`: a remote entry needs a magnet, a local one a stream URL. */
  predicate Accepted(e: QueueEntry)
  {
    (!e.isLocal ==> e.magnet.Some?) && (e.isLocal ==> e.streamUrl.Some?)
  }

  /** What the controller starts playing for an entry taken off the queue. */
  datatype PlayRequest = Stop | PlayLocal(entry: QueueEntry) | PlayTorrent(magnet: string, title: string)

  /** How `playNextInQueue` hands an entry over: a local stream, else a magnet, else nothing. */
  function Dispatch(e: QueueEntry): Option<PlayRequest>
  {
    if e.isLocal && e.streamUrl.Some? then Some(PlayLocal(e))
    else if e.magnet.Some? then Some(PlayTorrent(e.magnet.value, e.title))
    else None
  }

  /** Every entry that passes validation can be played. */
  lemma AcceptedDispatches(e: QueueEntry)
    requires Accepted(e)
    ensures Dispatch(e).Some?
  {
  }

  /** The position of the first entry that can be played, or |queue| when none can. */
  function FirstPlayable(queue: seq<QueueEntry>): (k: nat)
    ensures k <= |queue|
    ensures k < |queue| ==> Dispatch(queue[k]).Some?
    ensures forall j | 0 <= j < k :: Dispatch(queue[j]).None?
  {
    if queue == [] then 0
    else if Dispatch(queue[0]).Some? then 0
    else 1 + FirstPlayable(queue[1..])
  }

  /** The queue-related fields of the controller. */
  datatype QueueState = QueueState(queue: seq<QueueEntry>, current: Option<QueueEntry>, processing: bool)

  /**
   * `playNextInQueue`, stated without its recursion: entries that cannot be played
   * are dropped, the first one that can becomes current; an exhausted queue stops.
   */
  function PlayNext(queue: seq<QueueEntry>): (QueueState, PlayRequest)
  {
    var k := FirstPlayable(queue);
    if k == |queue| then (QueueState([], None, false), Stop)
    else (QueueState(queue[k + 1..], Some(queue[k]), true), Dispatch(queue[k]).value)
  }

  /** On an empty queue, nothing is current and processing stops. */
  lemma PlayNextEmpty()
    ensures PlayNext([]) == (QueueState([], None, false), Stop)
  {
  }

  /** On a queue of validated entries, the head is taken off and becomes current: the queue shrinks by one. */
  lemma {:induction false} PlayNextTakesHead(queue: seq<QueueEntry>)
    requires |queue| > 0
    requires forall k | 0 <= k < |queue| :: Accepted(queue[k])
    ensures PlayNext(queue).0 == QueueState(queue[1..], Some(queue[0]), true)
    ensures |PlayNext(queue).0.queue| == |queue| - 1
    ensures PlayNext(queue).1 == Dispatch(queue[0]).value
  {
    AcceptedDispatches(queue[0]);
  }

  /** Handle of a pending status-poll timer. */
  type TimerHandle = nat

  /** A download the client tracks. */
  datatype Download = Download(
    torrentId: string, name: string, status: string, progress: int, downloadSpeed: int,
    downloadUrl: Option<string>, fileName: Option<string>)

  /** The server's reply to `POST /api/stream`. */
  datatype StartReply = StartReply(torrentId: string, name: string)

  datatype DownloadOutcome = NoMagnet | StartFailed | AlreadyDownloading | Started(torrentId: string)

  /** The entry a newly started download gets. */
  function NewDownload(reply: StartReply, name: string): (d: Download)
    ensures d.torrentId == reply.torrentId && d.status == "downloading" && d.progress == 0
    ensures d.name != ""
  {
    Download(reply.torrentId, OrElse(name, OrElse(reply.name, "Descarga sin título")),
             "downloading", 0, 0, None, None)
  }

  /** The key under which the polling of a download keeps its timer. */
  function DownloadPollKey(torrentId: string): string
  {
    "download-" + torrentId
  }

  /** The entries of the queue whose id differs from `id`, in their order: `filter(item => item.id !== id)`. */
  function WithoutId(queue: seq<QueueEntry>, id: string): (rest: seq<QueueEntry>)
    ensures |rest| <= |queue|
    ensures forall e :: e in rest <==> e in queue && e.id != id
  {
    if queue == [] then []
    else (if queue[0].id != id then [queue[0]] else []) + WithoutId(queue[1..], id)
  }

  /** Every entry with another id stays as many times as it occurs; none with the id does. */
  lemma {:induction false} WithoutIdCounts(queue: seq<QueueEntry>, id: string)
    ensures forall e :: multiset(WithoutId(queue, id))[e] == if e.id != id then multiset(queue)[e] else 0
  {
    if queue != [] {
      var head := if queue[0].id != id then [queue[0]] else [];
      WithoutIdCounts(queue[1..], id);
      assert queue == [queue[0]] + queue[1..];
      assert WithoutId(queue, id) == head + WithoutId(queue[1..], id);
    }
  }

  /** The entries that stay keep their order. */
  lemma {:induction false} WithoutIdInOrder(queue: seq<QueueEntry>, id: string)
    ensures IsSubsequence(WithoutId(queue, id), queue)
  {
    if queue != [] {
      var rest := WithoutId(queue[1..], id);
      WithoutIdInOrder(queue[1..], id);
      if queue[0].id != id {
        assert WithoutId(queue, id) == [queue[0]] + rest;
        assert ([queue[0]] + rest)[1..] == rest;
      } else {
        assert WithoutId(queue, id) == rest;
        SubsequenceDropHead(rest, queue);
      }
    }
  }

  /** The number of entries of the queue with the given id. */
  function CountId(queue: seq<QueueEntry>, id: string): nat
  {
    if queue == [] then 0 else (if queue[0].id == id then 1 else 0) + CountId(queue[1..], id)
  }

  /** Removing an id drops exactly the entries that carry it. */
  lemma {:induction false} WithoutIdLength(queue: seq<QueueEntry>, id: string)
    ensures |WithoutId(queue, id)| == |queue| - CountId(queue, id)
  {
    if queue != [] {
      WithoutIdLength(queue[1..], id);
    }
  }

  /** Removing an id that no entry carries leaves the queue as it is. */
  lemma {:induction false} WithoutAbsentId(queue: seq<QueueEntry>, id: string)
    requires forall k | 0 <= k < |queue| :: queue[k].id != id
    ensures WithoutId(queue, id) == queue
  {
    if queue != [] {
      WithoutAbsentId(queue[1..], id);
      assert [queue[0]] + queue[1..] == queue;
    }
  }

  /** The client controller's state for playback queueing and download bookkeeping. */
  class TorrentStream {
    var playQueue: seq<QueueEntry>
    var currentQueueItem: Option<QueueEntry>
    var isQueueProcessing: bool
    var activeDownloads: map<string, Download>
    var torrentStatusTimers: map<string, TimerHandle>

    /** Every queued entry passed validation. */
    ghost predicate Valid()
      reads this
    {
      forall k | 0 <= k < |playQueue| :: Accepted(playQueue[k])
    }

    function State(): QueueState
      reads this
    {
      QueueState(playQueue, currentQueueItem, isQueueProcessing)
    }

    constructor ()
      ensures Valid()
      ensures playQueue == [] && currentQueueItem == None && !isQueueProcessing
      ensures activeDownloads == map[] && torrentStatusTimers == map[]
    {
      playQueue := [];
      currentQueueItem := None;
      isQueueProcessing := false;
      activeDownloads := map[];
      torrentStatusTimers := map[];
    }

    /**
     * `playNextInQueue`: takes the head off the queue and starts it; an entry that
     * cannot be played is skipped by calling itself again on the shorter queue.
     */
    method PlayNextInQueue() returns (request: PlayRequest)
      modifies this
      ensures (State(), request) == PlayNext(old(playQueue))
      ensures old(Valid()) ==> Valid()
      ensures activeDownloads == old(activeDownloads) && torrentStatusTimers == old(torrentStatusTimers)
      decreases |playQueue|
    {
      if |playQueue| == 0 {
        currentQueueItem := None;
        isQueueProcessing := false;
        return Stop;
      }

      var nextItem := playQueue[0];
      playQueue := playQueue[1..];
      currentQueueItem := Some(nextItem);
      isQueueProcessing := true;

      if nextItem.isLocal && nextItem.streamUrl.Some? {
        return PlayLocal(nextItem);
      }
      if nextItem.magnet.Some? {
        return PlayTorrent(nextItem.magnet.value, nextItem.title);
      }

      isQueueProcessing := false;
      currentQueueItem := None;
      request := PlayNextInQueue();
    }

    /**
     * `addToQueue`: rejects a missing track and entries failing validation, else
     * appends the entry; when nothing is being processed and the player is paused,
     * playback of the queue starts right away.
     */
    method AddToQueue(track: Option<Track>, id: string, playerPaused: bool)
      returns (accepted: bool, request: Option<PlayRequest>)
      modifies this
      ensures accepted <==> track.Some? && Accepted(MakeEntry(track.value, id))
      ensures !accepted ==> State() == old(State()) && request == None
      ensures accepted && (old(isQueueProcessing) || !playerPaused) ==>
        playQueue == old(playQueue) + [MakeEntry(track.value, id)]
        && currentQueueItem == old(currentQueueItem) && isQueueProcessing == old(isQueueProcessing)
        && request == None
      ensures accepted && !old(isQueueProcessing) && playerPaused ==>
        request.Some? && (State(), request.value) == PlayNext(old(playQueue) + [MakeEntry(track.value, id)])
      ensures old(Valid()) ==> Valid()
      ensures activeDownloads == old(activeDownloads) && torrentStatusTimers == old(torrentStatusTimers)
    {
      if track.None? {
        return false, None;
      }
      var queueEntry := MakeEntry(track.value, id);
      if !queueEntry.isLocal && queueEntry.magnet.None? {
        return false, None;
      }
      if queueEntry.isLocal && queueEntry.streamUrl.None? {
        return false, None;
      }

      playQueue := playQueue + [queueEntry];
      accepted := true;
      request := None;
      if !isQueueProcessing && playerPaused {
        var started := PlayNextInQueue();
        request := Some(started);
      }
    }

    /** `removeFromQueue`: drops every queued entry with the id and keeps the rest in order. */
    method RemoveFromQueue(id: string)
      modifies this`playQueue
      ensures playQueue == WithoutId(old(playQueue), id)
      ensures old(Valid()) ==> Valid()
    {
      playQueue := WithoutId(playQueue, id);
    }

    /** `clearQueue`: empties the queue; the item now playing stays current. */
    method ClearQueue()
      modifies this`playQueue
      ensures playQueue == [] && Valid()
    {
      playQueue := [];
    }

    /** `handleTrackEnded`: moves on to the next entry only while the queue is being processed. */
    method HandleTrackEnded() returns (request: Option<PlayRequest>)
      modifies this
      ensures old(isQueueProcessing) ==> request.Some? && (State(), request.value) == PlayNext(old(playQueue))
      ensures !old(isQueueProcessing) ==> request == None && State() == old(State())
      ensures old(Valid()) ==> Valid()
      ensures activeDownloads == old(activeDownloads) && torrentStatusTimers == old(torrentStatusTimers)
    {
      request := None;
      if isQueueProcessing {
        var next := PlayNextInQueue();
        request := Some(next);
      }
    }

    /**
     * `downloadTorrent`: with a magnet, asks the server to start the torrent (its
     * reply is `reply`, `None` when the request failed) and starts tracking the
     * returned id unless it is already tracked.
     */
    method DownloadTorrent(magnetURI: string, name: string, reply: Option<StartReply>)
      returns (outcome: DownloadOutcome)
      modifies this`activeDownloads
      ensures magnetURI == "" ==> outcome == NoMagnet && activeDownloads == old(activeDownloads)
      ensures magnetURI != "" && reply.None? ==> outcome == StartFailed && activeDownloads == old(activeDownloads)
      ensures magnetURI != "" && reply.Some? && reply.value.torrentId in old(activeDownloads) ==>
        outcome == AlreadyDownloading && activeDownloads == old(activeDownloads)
      ensures magnetURI != "" && reply.Some? && reply.value.torrentId !in old(activeDownloads) ==>
        outcome == Started(reply.value.torrentId)
        && activeDownloads == old(activeDownloads)[reply.value.torrentId := NewDownload(reply.value, name)]
    {
      if magnetURI == "" {
        return NoMagnet;
      }
      if reply.None? {
        return StartFailed;
      }
      var torrentId := reply.value.torrentId;
      if torrentId in activeDownloads {
        return AlreadyDownloading;
      }
      activeDownloads := activeDownloads[torrentId := NewDownload(reply.value, name)];
      return Started(torrentId);
    }

    /** `stopMonitoringTorrent`: clears and forgets the timer under the key, if there is one. */
    method StopMonitoringTorrent(key: string) returns (cleared: Option<TimerHandle>)
      modifies this`torrentStatusTimers
      ensures key !in torrentStatusTimers
      ensures torrentStatusTimers == old(torrentStatusTimers) - {key}
      ensures cleared == if key in old(torrentStatusTimers) then Some(old(torrentStatusTimers)[key]) else None
    {
      cleared := None;
      if key in torrentStatusTimers {
        cleared := Some(torrentStatusTimers[key]);
        torrentStatusTimers := torrentStatusTimers - {key};
      }
    }

    /**
     * `removeDownload`: for a tracked id, stops the download's polling timer, forgets
     * the download and asks the server to drop it; an unknown id changes nothing.
     */
    method RemoveDownload(torrentId: string) returns (deleteRequested: bool, cleared: Option<TimerHandle>)
      modifies this`activeDownloads, this`torrentStatusTimers
      ensures deleteRequested <==> torrentId in old(activeDownloads)
      ensures !deleteRequested ==>
        activeDownloads == old(activeDownloads) && torrentStatusTimers == old(torrentStatusTimers) && cleared == None
      ensures deleteRequested ==>
        activeDownloads == old(activeDownloads) - {torrentId}
        && torrentStatusTimers == old(torrentStatusTimers) - {DownloadPollKey(torrentId)}
        && cleared == (if DownloadPollKey(torrentId) in old(torrentStatusTimers)
                       then Some(old(torrentStatusTimers)[DownloadPollKey(torrentId)]) else None)
    {
      deleteRequested := false;
      cleared := None;
      if torrentId in activeDownloads {
        cleared := StopMonitoringTorrent(DownloadPollKey(torrentId));
        activeDownloads := activeDownloads - {torrentId};
        deleteRequested := true;
      }
    }
  }
}

=== FILE: results.dfy ===
/**
 * Post-processing of the search results the client receives from the backend: defaults for
 * missing fields, the optional lossless filter, and the stable sort that puts local results
 * first (or last).
 */
module SearchResults {
  import opened Strings
  import opened Wrappers
  import opened ClientHelpers

  /**
   * A result as the backend sends it. An empty string stands for a missing text field;
   * `leechs`, `peers` and `files` are optional because `??` and `||` treat them so.
   */
  datatype RawResult = RawResult(
    name: string,
    isLocal: bool,
    leechs: Option<int>,
    peers: Option<int>,
    category: string,
    quality: string,
    description: string,
    files: Option<seq<FileInfo>>)

  /** A result in the shape the interface uses. */
  datatype SearchResult = SearchResult(
    name: string,
    isLocal: bool,
    leechs: int,
    category: string,
    quality: string,
    description: string,
    files: seq<FileInfo>)

  function FilesOf(raw: RawResult): seq<FileInfo>
  {
    if raw.files.Some? then raw.files.value else []
  }

  /** The `map` step of `searchTorrents`. */
  function Adapt(raw: RawResult): (result: SearchResult)
    ensures result.name == raw.name && result.isLocal == raw.isLocal
    ensures result.isLocal ==> result.leechs == 0
    ensures !result.isLocal && raw.leechs.Some? ==> result.leechs == raw.leechs.value
    ensures !result.isLocal && raw.leechs.None? && raw.peers.Some? ==> result.leechs == raw.peers.value
    ensures !result.isLocal && raw.leechs.None? && raw.peers.None? ==> result.leechs == 0
    ensures result.category != "" && result.quality != ""
    ensures raw.category != "" ==> result.category == raw.category
    ensures raw.quality != "" ==> result.quality == raw.quality
    ensures raw.description != "" ==> result.description == raw.description
    ensures raw.files.None? ==> result.files == []
    ensures raw.files.Some? ==> result.files == raw.files.value
    ensures raw.category == "" ==> result.category == (if raw.isLocal then "library" else "music")
    ensures raw.quality == "" ==> result.quality == (if raw.isLocal then "Archivo local" else "Audio")
    ensures raw.description == "" ==> result.description == BuildDescriptionFromFiles(result.files)
  {
    var isLocal := raw.isLocal;
    SearchResult(
      raw.name,
      isLocal,
      if isLocal then 0 else if raw.leechs.Some? then raw.leechs.value else if raw.peers.Some? then raw.peers.value else 0,
      if raw.category != "" then raw.category else if isLocal then "library" else "music",
      if raw.quality != "" then raw.quality else if isLocal then "Archivo local" else "Audio",
      if raw.description != "" then raw.description else BuildDescriptionFromFiles(FilesOf(raw)),
      FilesOf(raw))
  }

  function AdaptAll(raws: seq<RawResult>): (results: seq<SearchResult>)
    ensures |results| == |raws|
    ensures forall k | 0 <= k < |raws| :: results[k] == Adapt(raws[k])
  {
    if raws == [] then [] else [Adapt(raws[0])] + AdaptAll(raws[1..])
  }

  /** The lossless test: the quality names FLAC or lossless, or the name mentions flac, alac or lossless in any case. */
  predicate IsLossless(item: SearchResult)
  {
    var quality := ToLower(item.quality);
    var name := ToLower(item.name);
    Contains(quality, "flac") || Contains(quality, "lossless")
      || Contains(name, "flac") || Contains(name, "alac") || Contains(name, "lossless")
  }

  /** The lossless results, in their order, each as often as it occurs. */
  function LosslessOnly(results: seq<SearchResult>): (kept: seq<SearchResult>)
    ensures |kept| <= |results|
    ensures forall k | 0 <= k < |kept| :: IsLossless(kept[k]) && kept[k] in results
    ensures forall k | 0 <= k < |results| :: IsLossless(results[k]) ==> results[k] in kept
  {
    if results == [] then []
    else (if IsLossless(results[0]) then [results[0]] else []) + LosslessOnly(results[1..])
  }

  /** Each lossless result is kept as often as it occurs; the others never. */
  lemma {:induction false} LosslessOnlyCounts(results: seq<SearchResult>)
    ensures forall r :: multiset(LosslessOnly(results))[r] == if IsLossless(r) then multiset(results)[r] else 0
  {
    if results != [] {
      var head := if IsLossless(results[0]) then [results[0]] else [];
      LosslessOnlyCounts(results[1..]);
      assert results == [results[0]] + results[1..];
      assert LosslessOnly(results) == head + LosslessOnly(results[1..]);
    }
  }

  /** The lossless results keep their order. */
  lemma {:induction false} LosslessOnlyInOrder(results: seq<SearchResult>)
    ensures IsSubsequence(LosslessOnly(results), results)
  {
    if results != [] {
      var rest := LosslessOnly(results[1..]);
      LosslessOnlyInOrder(results[1..]);
      if IsLossless(results[0]) {
        assert LosslessOnly(results) == [results[0]] + rest;
        assert ([results[0]] + rest)[1..] == rest;
      } else {
        assert LosslessOnly(results) == rest;
        SubsequenceDropHead(rest, results);
      }
    }
  }

  // ---------------------------------------------------------------- the stable sort on isLocal

  /** The results whose `isLocal` is `local`, in their original order. */
  function WithLocal(results: seq<SearchResult>, local: bool): (group: seq<SearchResult>)
    ensures |group| <= |results|
    ensures forall k | 0 <= k < |group| :: group[k].isLocal == local
  {
    if results == [] then []
    else (if results[0].isLocal == local then [results[0]] else []) + WithLocal(results[1..], local)
  }

  /**
   * `results.sort((a, b) => Number(b.isLocal) - Number(a.isLocal))` when `localFirst`, and the
   * opposite comparison otherwise. The sort is stable, so it is the group that sorts first
   * followed by the other group, each in its original order.
   */
  function SortByLocal(results: seq<SearchResult>, localFirst: bool): seq<SearchResult>
  {
    WithLocal(results, localFirst) + WithLocal(results, !localFirst)
  }

  /** Every result of the group that sorts first precedes every result of the other group. */
  predicate GroupedBy(results: seq<SearchResult>, localFirst: bool)
  {
    forall i, j | 0 <= i < j < |results| :: results[j].isLocal == localFirst ==> results[i].isLocal == localFirst
  }

  lemma SortGroups(results: seq<SearchResult>, localFirst: bool)
    ensures GroupedBy(SortByLocal(results, localFirst), localFirst)
  {
    var first, second := WithLocal(results, localFirst), WithLocal(results, !localFirst);
    assert forall k | |first| <= k < |first + second| :: (first + second)[k] == second[k - |first|];
  }

  lemma {:induction false} WithLocalSplits(results: seq<SearchResult>, local: bool)
    ensures multiset(WithLocal(results, local)) + multiset(WithLocal(results, !local)) == multiset(results)
  {
    if results != [] {
      var head, rest := [results[0]], results[1..];
      assert results == head + rest;
      WithLocalSplits(rest, local);
      if results[0].isLocal == local {
        assert WithLocal(results, local) == head + WithLocal(rest, local);
        assert WithLocal(results, !local) == WithLocal(rest, !local);
      } else {
        assert WithLocal(results, local) == WithLocal(rest, local);
        assert WithLocal(results, !local) == head + WithLocal(rest, !local);
      }
    }
  }

  /** The sort is a permutation: no result is lost or duplicated. */
  lemma SortPermutes(results: seq<SearchResult>, localFirst: bool)
    ensures multiset(SortByLocal(results, localFirst)) == multiset(results)
  {
    WithLocalSplits(results, localFirst);
  }

  lemma {:induction false} WithLocalAppend(a: seq<SearchResult>, b: seq<SearchResult>, local: bool)
    ensures WithLocal(a + b, local) == WithLocal(a, local) + WithLocal(b, local)
  {
    if a == [] {
      assert a + b == b;
    } else {
      assert (a + b)[0] == a[0] && (a + b)[1..] == a[1..] + b;
      WithLocalAppend(a[1..], b, local);
    }
  }

  /** Selecting a group from results that all belong to one group keeps all or nothing. */
  lemma {:induction false} WithLocalUniform(results: seq<SearchResult>, b: bool, local: bool)
    requires forall k | 0 <= k < |results| :: results[k].isLocal == b
    ensures WithLocal(results, local) == if b == local then results else []
  {
    if results != [] {
      WithLocalUniform(results[1..], b, local);
      assert [results[0]] + results[1..] == results;
    }
  }

  /** Stability: inside each group the sort keeps the order the backend sent. */
  lemma SortIsStable(results: seq<SearchResult>, localFirst: bool, local: bool)
    ensures WithLocal(SortByLocal(results, localFirst), local) == WithLocal(results, local)
  {
    var first, second := WithLocal(results, localFirst), WithLocal(results, !localFirst);
    WithLocalAppend(first, second, local);
    WithLocalUniform(first, localFirst, local);
    WithLocalUniform(second, !localFirst, local);
  }

  /** The position of the first result outside the group that sorts first (or the length). */
  function FirstLate(results: seq<SearchResult>, localFirst: bool): (n: nat)
    ensures n <= |results|
    ensures forall k | 0 <= k < n :: results[k].isLocal == localFirst
    ensures n < |results| ==> results[n].isLocal != localFirst
  {
    if results == [] || results[0].isLocal != localFirst then 0
    else 1 + FirstLate(results[1..], localFirst)
  }

  /** A grouped sequence is its first group followed by its second group. */
  lemma GroupedSplit(results: seq<SearchResult>, localFirst: bool)
    requires GroupedBy(results, localFirst)
    ensures results == WithLocal(results, localFirst) + WithLocal(results, !localFirst)
  {
    var n := FirstLate(results, localFirst);
    LateGroup(results, localFirst);
    assert results == results[..n] + results[n..];
    GroupsOfSplit(results[..n], results[n..], localFirst);
  }

  /** In a grouped sequence, everything from the first late result on is late. */
  lemma LateGroup(results: seq<SearchResult>, localFirst: bool)
    requires GroupedBy(results, localFirst)
    ensures forall k | FirstLate(results, localFirst) <= k < |results| :: results[k].isLocal == !localFirst
  {
  }

  /** The two groups of an early part followed by a late part are those parts. */
  lemma GroupsOfSplit(early: seq<SearchResult>, late: seq<SearchResult>, localFirst: bool)
    requires forall k | 0 <= k < |early| :: early[k].isLocal == localFirst
    requires forall k | 0 <= k < |late| :: late[k].isLocal == !localFirst
    ensures WithLocal(early + late, localFirst) == early
    ensures WithLocal(early + late, !localFirst) == late
  {
    WithLocalUniform(early, localFirst, localFirst);
    WithLocalUniform(early, localFirst, !localFirst);
    WithLocalUniform(late, !localFirst, localFirst);
    WithLocalUniform(late, !localFirst, !localFirst);
    WithLocalAppend(early, late, localFirst);
    WithLocalAppend(early, late, !localFirst);
  }

  /**
   * The stable sort is the only ordering that groups the results and keeps each group's
   * order: whatever sequence does both is `SortByLocal`.
   */
  lemma SortIsUnique(results: seq<SearchResult>, localFirst: bool, other: seq<SearchResult>)
    requires GroupedBy(other, localFirst)
    requires WithLocal(other, true) == WithLocal(results, true)
    requires WithLocal(other, false) == WithLocal(results, false)
    ensures other == SortByLocal(results, localFirst)
  {
    GroupedSplit(other, localFirst);
  }

  // ---------------------------------------------------------------- searchTorrents

  /** What `searchTorrents` guarantees of each result it returns. */
  predicate Acceptable(result: SearchResult, losslessOnly: bool)
  {
    (result.isLocal ==> result.leechs == 0)
    && result.category != "" && result.quality != ""
    && (losslessOnly ==> IsLossless(result))
  }

  /** The results after the map and the optional filter, before the sort. */
  function Kept(raws: seq<RawResult>, losslessOnly: bool): (kept: seq<SearchResult>)
    ensures forall k | 0 <= k < |kept| :: Acceptable(kept[k], losslessOnly)
  {
    var all := AdaptAll(raws);
    if losslessOnly then
      var kept := LosslessOnly(all);
      assert forall k | 0 <= k < |kept| :: kept[k] in all;
      kept
    else all
  }

  lemma SortKeepsAcceptable(results: seq<SearchResult>, localFirst: bool, losslessOnly: bool)
    requires forall k | 0 <= k < |results| :: Acceptable(results[k], losslessOnly)
    ensures forall k | 0 <= k < |SortByLocal(results, localFirst)| :: Acceptable(SortByLocal(results, localFirst)[k], losslessOnly)
  {
    var sorted := SortByLocal(results, localFirst);
    SortPermutes(results, localFirst);
    forall k | 0 <= k < |sorted|
      ensures Acceptable(sorted[k], losslessOnly)
    {
      assert sorted[k] in multiset(results);
      var j :| 0 <= j < |results| && results[j] == sorted[k];
    }
  }

  /**
   * The post-processing of `searchTorrents`. `response` is `None` when the request failed or
   * its status was not ok, and the client then shows an error and has no results.
   */
  function SearchTorrents(response: Option<seq<RawResult>>, losslessOnly: bool, localFirst: bool): (results: seq<SearchResult>)
    ensures response.None? ==> results == []
    ensures GroupedBy(results, localFirst)
    ensures forall k | 0 <= k < |results| :: Acceptable(results[k], losslessOnly)
  {
    if response.None? then []
    else
      var kept := Kept(response.value, losslessOnly);
      SortGroups(kept, localFirst);
      SortKeepsAcceptable(kept, localFirst, losslessOnly);
      SortByLocal(kept, localFirst)
  }

  /** Nothing that passes the filter is dropped: every such result is returned, and only those. */
  lemma SearchKeepsMatches(raws: seq<RawResult>, losslessOnly: bool, localFirst: bool)
    ensures multiset(SearchTorrents(Some(raws), losslessOnly, localFirst)) == multiset(Kept(raws, losslessOnly))
    ensures forall k | 0 <= k < |raws| && (!losslessOnly || IsLossless(Adapt(raws[k])))
      :: Adapt(raws[k]) in SearchTorrents(Some(raws), losslessOnly, localFirst)
  {
    var kept := Kept(raws, losslessOnly);
    SortPermutes(kept, localFirst);
    forall k | 0 <= k < |raws| && (!losslessOnly || IsLossless(Adapt(raws[k])))
      ensures Adapt(raws[k]) in SearchTorrents(Some(raws), losslessOnly, localFirst)
    {
      var all := AdaptAll(raws);
      assert all[k] == Adapt(raws[k]);
      assert Adapt(raws[k]) in multiset(kept);
    }
  }
}

=== FILE: server.dfy ===
/**
 * The backend: the registry of active torrents behind `POST /api/stream`, the status lookup
 * of `GET /api/torrent/:id/status`, the query guard of `GET /api/search` and the row filter of
 * the 1337x scraper. The torrent engine, the HTTP layer and the HTML parser are outside the
 * model; what they hand back is a parameter.
 */
module Server {
  import opened Strings
  import opened Wrappers
  import opened Encoding

  // ---------------------------------------------------------------- torrent ids

  /** `Buffer.from(magnet).toString('base64')`: base64 of the UTF-8 bytes of the magnet. */
  function TorrentId(magnet: string): (id: string)
    ensures forall k | 0 <= k < |id| :: id[k] == '=' || Base64Value(id[k]).Some?
  {
    Base64Alphabet(Utf8Encode(magnet));
    Base64Encode(Utf8Encode(magnet))
  }

  /** Different magnets never share an id, so one registry entry stands for one magnet. */
  lemma TorrentIdInjective(a: string, b: string)
    requires TorrentId(a) == TorrentId(b)
    ensures a == b
  {
    Base64Injective(Utf8Encode(a), Utf8Encode(b));
    Utf8Injective(a, b);
  }

  // ---------------------------------------------------------------- replies

  /** What the engine reports about a torrent; the floating-point figures are left out. */
  datatype Torrent = Torrent(name: string, downloaded: nat, uploaded: nat, numPeers: nat, done: bool)

  /** An `activeTorrents` value: the engine's torrent, when it was added and its display name. */
  datatype TorrentEntry = TorrentEntry(torrent: Option<Torrent>, added: int, name: string)

  /** The status document of a torrent. */
  datatype TorrentStatus = TorrentStatus(name: string, downloaded: nat, uploaded: nat, numPeers: nat, done: bool)

  /** A row of search results as the scraper returns it. */
  datatype ScrapedTorrent = ScrapedTorrent(
    name: string,
    size: string,
    seeds: int,
    peers: int,
    category: string,
    quality: string,
    kind: string,
    url: string,
    hash: string,
    magnet: string)

  /** An HTTP reply: the status code is given by the constructor. */
  datatype Reply =
    | BadRequest(error: string)                    // 400
    | NotFound(error: string)                      // 404
    | ServerError(error: string)                   // 500
    | AlreadyAdded(torrentId: string)              // 200, status 'already_added'
    | Added(torrentId: string, torrentName: string) // 200, status 'added'
    | StatusReply(status: TorrentStatus)           // 200
    | SearchReply(results: seq<ScrapedTorrent>)    // 200

  /** What the engine's `client.add` does: it throws, or hands back a torrent. */
  datatype EngineAdd = Throws | Returns(torrent: Torrent)

  // ---------------------------------------------------------------- the registry

  class Registry {
    /** `activeTorrents`, keyed by torrent id. */
    var activeTorrents: map<string, TorrentEntry>
    /** The magnets handed to the engine's `add`, in order. */
    var engineCalls: seq<string>

    /** Every registered id is the id of a magnet the engine was asked to add. */
    ghost predicate Valid()
      reads this
    {
      forall id | id in activeTorrents :: exists m | m in engineCalls :: TorrentId(m) == id
    }

    /** Each registered id stands for exactly one of the magnets the engine was asked to add. */
    lemma RegisteredMagnet(torrentId: string) returns (magnet: string)
      requires Valid() && torrentId in activeTorrents
      ensures magnet in engineCalls && TorrentId(magnet) == torrentId
      ensures forall m | m in engineCalls && TorrentId(m) == torrentId :: m == magnet
    {
      magnet :| magnet in engineCalls && TorrentId(magnet) == torrentId;
      forall m | m in engineCalls && TorrentId(m) == torrentId ensures m == magnet {
        TorrentIdInjective(m, magnet);
      }
    }

    constructor()
      ensures activeTorrents == map[] && engineCalls == []
      ensures Valid()
    {
      activeTorrents := map[];
      engineCalls := [];
    }

    /**
     * `POST /api/stream`. A missing magnet is refused, a known id is reported without calling
     * the engine, an engine failure leaves the registry as it was, and otherwise exactly one
     * entry is added.
     */
    method PostStream(magnet: string, engine: EngineAdd, now: int) returns (reply: Reply)
      requires Valid()
      modifies this
      ensures Valid()
      ensures magnet == "" ==>
        reply == BadRequest("Magnet link required")
        && activeTorrents == old(activeTorrents) && engineCalls == old(engineCalls)
      ensures magnet != "" && TorrentId(magnet) in old(activeTorrents) ==>
        reply == AlreadyAdded(TorrentId(magnet))
        && activeTorrents == old(activeTorrents) && engineCalls == old(engineCalls)
      ensures magnet != "" && TorrentId(magnet) !in old(activeTorrents) ==>
        engineCalls == old(engineCalls) + [magnet]
      ensures magnet != "" && TorrentId(magnet) !in old(activeTorrents) && engine.Throws? ==>
        reply == ServerError("Failed to add torrent") && activeTorrents == old(activeTorrents)
      ensures magnet != "" && TorrentId(magnet) !in old(activeTorrents) && engine.Returns? ==>
        var t := engine.torrent;
        reply == Added(TorrentId(magnet), t.name)
        && activeTorrents == old(activeTorrents)[TorrentId(magnet) := TorrentEntry(Some(t), now, if t.name != "" then t.name else "Unknown")]
    {
      if magnet == "" {
        return BadRequest("Magnet link required");
      }
      var torrentId := TorrentId(magnet);
      if torrentId in activeTorrents {
        return AlreadyAdded(torrentId);
      }
      engineCalls := engineCalls + [magnet];
      match engine {
        case Throws =>
          reply := ServerError("Failed to add torrent");
        case Returns(torrent) =>
          var name := if torrent.name != "" then torrent.name else "Unknown";
          activeTorrents := activeTorrents[torrentId := TorrentEntry(Some(torrent), now, name)];
          reply := Added(torrentId, torrent.name);
      }
      assert magnet in engineCalls;
    }

    /** The torrent's `error` handler: the entry of that id goes, every other stays. */
    method OnEngineError(torrentId: string)
      requires Valid()
      modifies this`activeTorrents
      ensures Valid()
      ensures activeTorrents == old(activeTorrents) - {torrentId}
    {
      activeTorrents := activeTorrents - {torrentId};
    }

    /**
     * The engine updating the torrent object the registry holds: metadata arriving, pieces
     * downloaded, peers joining. Only the figures of that entry change; its `added` time and the
     * display name chosen when it was added stay, and an unknown id or an entry without a torrent
     * changes nothing.
     */
    method OnEngineProgress(torrentId: string, torrent: Torrent)
      requires Valid()
      modifies this`activeTorrents
      ensures Valid()
      ensures torrentId in old(activeTorrents) && old(activeTorrents)[torrentId].torrent.Some? ==>
        activeTorrents == old(activeTorrents)[torrentId := old(activeTorrents)[torrentId].(torrent := Some(torrent))]
      ensures !(torrentId in old(activeTorrents) && old(activeTorrents)[torrentId].torrent.Some?) ==>
        activeTorrents == old(activeTorrents)
    {
      if torrentId in activeTorrents && activeTorrents[torrentId].torrent.Some? {
        activeTorrents := activeTorrents[torrentId := activeTorrents[torrentId].(torrent := Some(torrent))];
      }
    }

    /** `GET /api/torrent/:id/status`: a lookup, so the registry is left as it is. */
    function Status(torrentId: string): (reply: Reply)
      reads this
      ensures reply.NotFound? <==> torrentId !in activeTorrents || activeTorrents[torrentId].torrent.None?
      ensures torrentId !in activeTorrents ==> reply.error == "Torrent not found"
      ensures torrentId in activeTorrents && activeTorrents[torrentId].torrent.None? ==> reply.error == "Torrent not available"
      ensures reply.StatusReply? ==>
        var t := activeTorrents[torrentId].torrent.value;
        reply.status.name == t.name && reply.status.downloaded == t.downloaded && reply.status.uploaded == t.uploaded
        && reply.status.numPeers == t.numPeers && reply.status.done == t.done
    {
      if torrentId !in activeTorrents then NotFound("Torrent not found")
      else match activeTorrents[torrentId].torrent {
        case None => NotFound("Torrent not available")
        case Some(t) => StatusReply(TorrentStatus(t.name, t.downloaded, t.uploaded, t.numPeers, t.done))
      }
    }
  }

  /** Posting the same magnet twice calls the engine once and reports the second post as already added. */
  method PostTwice(magnet: string, torrent: Torrent) returns (registry: Registry, first: Reply, second: Reply)
    requires magnet != ""
    ensures fresh(registry)
    ensures first == Added(TorrentId(magnet), torrent.name)
    ensures second == AlreadyAdded(TorrentId(magnet))
    ensures registry.engineCalls == [magnet] && registry.activeTorrents.Keys == {TorrentId(magnet)}
  {
    registry := new Registry();
    first := registry.PostStream(magnet, Returns(torrent), 0);
    second := registry.PostStream(magnet, Returns(torrent), 1);
  }

  /** The status reads the torrent as the engine last updated it, not as it was when it was added. */
  method StatusAfterProgress(registry: Registry, torrentId: string, torrent: Torrent) returns (reply: Reply)
    requires registry.Valid()
    requires torrentId in registry.activeTorrents && registry.activeTorrents[torrentId].torrent.Some?
    modifies registry
    ensures registry.Valid()
    ensures reply == StatusReply(TorrentStatus(torrent.name, torrent.downloaded, torrent.uploaded, torrent.numPeers, torrent.done))
  {
    registry.OnEngineProgress(torrentId, torrent);
    reply := registry.Status(torrentId);
  }

  // ---------------------------------------------------------------- GET /api/search

  /** `req.query.q || req.query.query || ''`; `None` is the 400 reply, given before the scraper runs. */
  function SearchQuery(q: string, query: string): (r: Option<string>)
    ensures r.None? <==> q == "" && query == ""
    ensures r.Some? ==> r.value != "" && (r.value == q || (q == "" && r.value == query))
  {
    if q != "" then Some(q) else if query != "" then Some(query) else None
  }

  /**
   * The search endpoint. `page` is the listing the scraper downloads for the query (`None` when
   * the download fails); `scraped` says whether the scraper ran. The reply carries the guarded
   * scraper's results: on a listing with a linkless row among the first 20, the scraper as
   * written returns [] instead (`LinklessRowLosesAllResults`).
   */
  method HandleSearch(q: string, query: string, page: Option<seq<Row>>) returns (reply: Reply, scraped: bool)
    ensures scraped <==> q != "" || query != ""
    ensures !scraped ==> reply == BadRequest("Query parameter required")
    ensures scraped ==> reply == SearchReply(Search1337x(page))
  {
    var search := SearchQuery(q, query);
    if search.None? {
      return BadRequest("Query parameter required"), false;
    }
    var results := Search1337xMusic(page);
    return SearchReply(results), true;
  }

  // ---------------------------------------------------------------- the 1337x row filter

  /**
   * One row of the result table, after extraction: the trimmed link text, the link's `href`
   * (`None` when the row has no such link), and the trimmed seeds and size cells.
   */
  datatype Row = Row(name: string, href: Option<string>, seeds: string, size: string)

  /** The listing page the scraper downloads for a query. */
  function SearchUrl(query: string): (url: string)
    ensures |url| >= |SITE| && url[..|SITE|] == SITE
  {
    SITE + "/search/" + EncodeURIComponent(query) + "/1/"
  }

  /** The query is read back from the path segment between `/search/` and `/1/`. */
  lemma SearchUrlQuery(query: string)
    ensures var url := SearchUrl(query);
      var start := |SITE| + |"/search/"|;
      start + 3 <= |url|
      && DecodeURIComponent(url[start..|url| - 3]) == Some(query)
      && '/' !in url[start..|url| - 3]
  {
    var e := EncodeURIComponent(query);
    var url := SearchUrl(query);
    var start := |SITE| + |"/search/"|;
    assert url == SITE + "/search/" + e + "/1/";
    assert url[start..|url| - 3] == e;
    URIComponentRoundTrip(query);
  }

  /** At most this many rows are read. */
  const MAX_ROWS: nat := 20

  const MUSIC_KEYWORDS: seq<string> := ["mp3", "flac", "album", "discography", "music"]

  const ZERO_HASH: string := "0000000000000000000000000000000000000000"

  const SITE: string := "https://www.1377x.to"

  const TRACKER: string := "udp://tracker.opentrackr.org:1337/announce"

  /** `isMusic`: the lower-cased name contains one of the keywords. */
  predicate IsMusic(name: string)
  {
    exists k | 0 <= k < |MUSIC_KEYWORDS| :: Contains(ToLower(name), MUSIC_KEYWORDS[k])
  }

  /** `href.split('/')[2] || ZERO_HASH`: the third `/`-separated piece, when it is there and not empty. */
  function FakeHash(href: string): (hash: string)
    ensures hash != "" && '/' !in hash
  {
    var parts := SplitOn(href, '/');
    if |parts| > 2 && parts[2] != "" then parts[2] else ZERO_HASH
  }

  /** For a link `/torrent/<id>/<rest>` the hash is the id. */
  lemma FakeHashOfTorrentLink(id: string, rest: string)
    requires id != "" && '/' !in id
    ensures FakeHash("/torrent/" + id + "/" + rest) == id
  {
    var href := "/torrent/" + id + "/" + rest;
    assert href == [] + ['/'] + ("torrent" + ['/'] + (id + ['/'] + rest));
    SplitOnJoin([], '/', "torrent" + ['/'] + (id + ['/'] + rest));
    SplitOnJoin("torrent", '/', id + ['/'] + rest);
    SplitOnJoin(id, '/', rest);
  }

  /** A link without any `/` has no third piece, so the hash falls back to the forty zeros. */
  lemma FakeHashWithoutSlash(href: string)
    requires '/' !in href
    ensures FakeHash(href) == ZERO_HASH
  {
    SplitOnAbsent(href, '/');
  }

  /** A link with a single `/` has only two pieces, so the hash falls back to the forty zeros. */
  lemma FakeHashOneSlash(first: string, second: string)
    requires '/' !in first && '/' !in second
    ensures FakeHash(first + "/" + second) == ZERO_HASH
  {
    SplitOnJoin(first, '/', second);
    SplitOnAbsent(second, '/');
  }

  /** A link whose third piece is empty (`a/b//rest`) also falls back to the forty zeros. */
  lemma FakeHashEmptyThird(first: string, second: string, rest: string)
    requires '/' !in first && '/' !in second
    ensures FakeHash(first + "/" + second + "//" + rest) == ZERO_HASH
  {
    var href := first + "/" + second + "//" + rest;
    assert href == first + ['/'] + (second + ['/'] + ([] + ['/'] + rest));
    SplitOnJoin(first, '/', second + ['/'] + ([] + ['/'] + rest));
    SplitOnJoin(second, '/', [] + ['/'] + rest);
    SplitOnJoin([], '/', rest);
  }

  /** The longest run of decimal digits at the start of `s`. */
  function DigitPrefix(s: string): (digits: string)
    ensures |digits| <= |s| && digits == s[..|digits|]
    ensures forall i | 0 <= i < |digits| :: IsDigit(digits[i])
    ensures |digits| < |s| ==> !IsDigit(s[|digits|])
  {
    if s != [] && IsDigit(s[0]) then [s[0]] + DigitPrefix(s[1..]) else []
  }

  /** `parseInt(s) || 0` for decimal text: an optional sign and the leading digits; no digits give 0. */
  function ParseIntOrZero(s: string): int
  {
    var negative := s != [] && s[0] == '-';
    var body := if s != [] && (s[0] == '-' || s[0] == '+') then s[1..] else s;
    var digits := DigitPrefix(body);
    var value: int := if digits == [] then 0 else DigitsValue(digits);
    if negative then -value else value
  }

  lemma {:induction false} DigitPrefixOfDigits(digits: string, rest: string)
    requires forall i | 0 <= i < |digits| :: IsDigit(digits[i])
    requires rest == [] || !IsDigit(rest[0])
    ensures DigitPrefix(digits + rest) == digits
  {
    if digits == [] {
      assert digits + rest == rest;
    } else {
      assert (digits + rest)[1..] == digits[1..] + rest;
      DigitPrefixOfDigits(digits[1..], rest);
      assert [digits[0]] + digits[1..] == digits;
    }
  }

  /** A seeds cell with no digit after its optional sign reads as 0, the `|| 0` fallback. */
  lemma ParseIntFails(s: string)
    requires var body := if s != [] && (s[0] == '-' || s[0] == '+') then s[1..] else s;
      body == [] || !IsDigit(body[0])
    ensures ParseIntOrZero(s) == 0
  {
  }

  /** A seeds cell holding a number followed by anything but a digit reads as that number. */
  lemma ParseIntReadsNumber(n: nat, rest: string)
    requires rest == [] || !IsDigit(rest[0])
    ensures ParseIntOrZero(NatToString(n) + rest) == n
  {
    var digits := NatToString(n);
    DigitPrefixOfDigits(digits, rest);
    assert (digits + rest)[0] == digits[0];
    NatToStringValue(n);
  }

  /** `magnet:?xt=urn:btih:<hash>&dn=<name>&tr=<tracker>`. */
  function MagnetLink(hash: string, name: string): string
  {
    "magnet:?xt=urn:btih:" + hash + "&dn=" + EncodeURIComponent(name) + "&tr=" + TRACKER
  }

  /** Three pieces free of `sep`, joined by `sep`, split back into those three pieces. */
  lemma SplitThree(a: string, b: string, c: string, sep: char)
    requires sep !in a && sep !in b && sep !in c
    ensures SplitOn(a + [sep] + b + [sep] + c, sep) == [a, b, c]
  {
    assert a + [sep] + b + [sep] + c == a + [sep] + (b + [sep] + c);
    SplitOnJoin(a, sep, b + [sep] + c);
    SplitOnJoin(b, sep, c);
    SplitOnAbsent(c, sep);
  }

  /** Percent-encoding leaves no `&` in a name. */
  lemma EncodedNameHasNoAmpersand(name: string)
    ensures '&' !in "dn=" + EncodeURIComponent(name)
  {
    var e := EncodeURIComponent(name);
    var dn := "dn=" + e;
    forall k | 0 <= k < |dn| ensures dn[k] != '&' {
      if k >= 3 { assert dn[k] == e[k - 3]; }
    }
  }

  /** The link's three parameters come apart at `&`, and the name is read back from the second. */
  lemma MagnetFields(hash: string, name: string)
    requires '&' !in hash
    ensures SplitOn(MagnetLink(hash, name), '&')
      == ["magnet:?xt=urn:btih:" + hash, "dn=" + EncodeURIComponent(name), "tr=" + TRACKER]
    ensures DecodeURIComponent(EncodeURIComponent(name)) == Some(name)
  {
    var xt, dn, tr := "magnet:?xt=urn:btih:" + hash, "dn=" + EncodeURIComponent(name), "tr=" + TRACKER;
    PlainParameters(hash);
    EncodedNameHasNoAmpersand(name);
    MagnetLinkPieces(hash, EncodeURIComponent(name));
    SplitThree(xt, dn, tr, '&');
    URIComponentRoundTrip(name);
  }

  /** The link is its three parameters joined by `&`. */
  lemma MagnetLinkPieces(hash: string, encoded: string)
    ensures "magnet:?xt=urn:btih:" + hash + "&dn=" + encoded + "&tr=" + TRACKER
      == ("magnet:?xt=urn:btih:" + hash) + ['&'] + ("dn=" + encoded) + ['&'] + ("tr=" + TRACKER)
  {
  }

  /** The hash parameter and the tracker parameter hold no `&`. */
  lemma PlainParameters(hash: string)
    requires '&' !in hash
    ensures '&' !in "magnet:?xt=urn:btih:" + hash && '&' !in "tr=" + TRACKER
  {
    var prefix := "magnet:?xt=urn:btih:";
    assert '&' !in prefix;
    var xt := prefix + hash;
    forall k | 0 <= k < |xt| ensures xt[k] != '&' {
      if k >= |prefix| { assert xt[k] == hash[k - |prefix|]; }
    }
  }

  /** The result built from a row with a name and a link. */
  function ResultOf(row: Row, href: string): (result: ScrapedTorrent)
    ensures result.name == row.name && result.hash == FakeHash(href)
    ensures result.magnet == MagnetLink(FakeHash(href), row.name)
  {
    var hash := FakeHash(href);
    ScrapedTorrent(row.name, row.size, ParseIntOrZero(row.seeds), 0, "music", "MP3", "audio",
      SITE + href, hash, MagnetLink(hash, row.name))
  }

  /** The fixed fields of a result: the size cell, no peers, and the music category, MP3 quality and audio type. */
  lemma ResultFields(row: Row, href: string)
    ensures var r := ResultOf(row, href);
      r.size == row.size && r.peers == 0 && r.category == "music" && r.quality == "MP3" && r.kind == "audio"
      && r.url == SITE + href
  {
  }

  /** A seeds cell holding a number followed by a non-digit gives that many seeds. */
  lemma ResultSeeds(row: Row, href: string, n: nat, rest: string)
    requires row.seeds == NatToString(n) + rest && (rest == [] || !IsDigit(rest[0]))
    ensures ResultOf(row, href).seeds == n
  {
    ParseIntReadsNumber(n, rest);
  }

  /** A seeds cell that does not start with a number gives 0 seeds. */
  lemma ResultSeedsFallback(row: Row, href: string)
    requires row.seeds == [] || (!IsDigit(row.seeds[0]) && row.seeds[0] != '-' && row.seeds[0] != '+')
    ensures ResultOf(row, href).seeds == 0
  {
    ParseIntFails(row.seeds);
  }

  /** A row becomes a result when it has a name and a non-empty link, and the name looks like music. */
  predicate Qualifies(row: Row)
  {
    row.name != "" && row.href.Some? && row.href.value != "" && IsMusic(row.name)
  }

  /** The results of the rows, row by row. */
  function ScrapeRows(rows: seq<Row>): (results: seq<ScrapedTorrent>)
    ensures |results| <= |rows|
  {
    if rows == [] then []
    else
      var init, row := rows[..|rows| - 1], rows[|rows| - 1];
      ScrapeRows(init) + if Qualifies(row) then [ResultOf(row, row.href.value)] else []
  }

  /** The first `MAX_ROWS` rows: the loop stops by returning `false` at index 20. */
  function Considered(rows: seq<Row>): seq<Row>
  {
    if |rows| <= MAX_ROWS then rows else rows[..MAX_ROWS]
  }

  /** What `search1337xMusic` returns once the row guard runs before the hash is taken. */
  function Search1337x(page: Option<seq<Row>>): seq<ScrapedTorrent>
  {
    if page.None? then [] else ScrapeRows(Considered(page.value))
  }

  /** `search1337xMusic` with the row guard ahead of `href.split`. */
  method Search1337xMusic(page: Option<seq<Row>>) returns (results: seq<ScrapedTorrent>)
    ensures results == Search1337x(page)
  {
    results := [];
    if page.None? {
      return;
    }
    var rows := page.value;
    var i := 0;
    while i < |rows|
      invariant 0 <= i <= |rows| && i <= MAX_ROWS
      invariant results == ScrapeRows(rows[..i])
    {
      if i >= MAX_ROWS {
        break;
      }
      var row := rows[i];
      assert rows[..i + 1][..i] == rows[..i];
      if row.name != "" && row.href.Some? && row.href.value != "" {
        var href := row.href.value;
        if IsMusic(row.name) {
          results := results + [ResultOf(row, href)];
        }
      }
      i := i + 1;
    }
    assert i == |Considered(rows)| && rows[..i] == Considered(rows);
  }

  /**
   * The filter keeps a considered row exactly when it qualifies, never reads past the
   * twentieth row, and every result carries a hash and a name that looks like music.
   */
  lemma ScrapeKeepsQualifyingRows(rows: seq<Row>)
    ensures |ScrapeRows(rows)| <= |rows|
    ensures forall k | 0 <= k < |ScrapeRows(rows)| ::
      ScrapeRows(rows)[k].hash != "" && ScrapeRows(rows)[k].name != "" && IsMusic(ScrapeRows(rows)[k].name)
    ensures forall k | 0 <= k < |rows| && Qualifies(rows[k]) :: ResultOf(rows[k], rows[k].href.value) in ScrapeRows(rows)
    ensures forall r | r in ScrapeRows(rows) :: exists row | row in rows :: Qualifies(row) && r == ResultOf(row, row.href.value)
  {
    ScrapedLookLikeMusic(rows);
    ScrapedFromQualifying(rows);
    forall k | 0 <= k < |rows| && Qualifies(rows[k])
      ensures ResultOf(rows[k], rows[k].href.value) in ScrapeRows(rows)
    {
      ScrapeFindsRow(rows, k);
    }
  }

  /** Every result is the result of a qualifying row: none comes from a row without a name or a link. */
  lemma {:induction false} ScrapedFromQualifying(rows: seq<Row>)
    ensures forall r | r in ScrapeRows(rows) :: exists row | row in rows :: Qualifies(row) && r == ResultOf(row, row.href.value)
  {
    if rows != [] {
      var init, last := rows[..|rows| - 1], rows[|rows| - 1];
      ScrapedFromQualifying(init);
      assert ScrapeRows(rows) == ScrapeRows(init) + if Qualifies(last) then [ResultOf(last, last.href.value)] else [];
      forall r | r in ScrapeRows(rows)
        ensures exists row | row in rows :: Qualifies(row) && r == ResultOf(row, row.href.value)
      {
        if r in ScrapeRows(init) {
          var row :| row in init && Qualifies(row) && r == ResultOf(row, row.href.value);
          assert row in rows;
        } else {
          assert last in rows;
        }
      }
    }
  }

  lemma {:induction false} ScrapedLookLikeMusic(rows: seq<Row>)
    ensures forall k | 0 <= k < |ScrapeRows(rows)| ::
      ScrapeRows(rows)[k].hash != "" && ScrapeRows(rows)[k].name != "" && IsMusic(ScrapeRows(rows)[k].name)
  {
    if rows != [] {
      ScrapedLookLikeMusic(rows[..|rows| - 1]);
    }
  }

  lemma {:induction false} ScrapeFindsRow(rows: seq<Row>, k: nat)
    requires k < |rows| && Qualifies(rows[k])
    ensures ResultOf(rows[k], rows[k].href.value) in ScrapeRows(rows)
  {
    var init := rows[..|rows| - 1];
    if k < |rows| - 1 {
      assert rows[k] == init[k];
      ScrapeFindsRow(init, k);
    }
  }

  lemma SearchReadsTwentyRows(page: seq<Row>)
    ensures |Search1337x(Some(page))| <= MAX_ROWS
  {
  }

  // ---------------------------------------------------------------- the loop as written

  /**
   * The loop as the scraper writes it: `href.split('/')` is evaluated before the `name && href`
   * guard, so a considered row without a link throws; `None` is that exception.
   */
  function ScrapeRowsAsWritten(rows: seq<Row>): Option<seq<ScrapedTorrent>>
  {
    if rows == [] then Some([])
    else
      var init, row := rows[..|rows| - 1], rows[|rows| - 1];
      match ScrapeRowsAsWritten(init) {
        case None => None
        case Some(results) =>
          if row.href.None? then None
          else Some(results + if Qualifies(row) then [ResultOf(row, row.href.value)] else [])
      }
  }

  /** `search1337xMusic` as written: the exception is caught and the whole search returns nothing. */
  function Search1337xAsWritten(page: Option<seq<Row>>): seq<ScrapedTorrent>
  {
    if page.None? then []
    else match ScrapeRowsAsWritten(Considered(page.value)) {
      case None => []
      case Some(results) => results
    }
  }

  /** One row without a link anywhere in the rows read makes the loop as written throw. */
  lemma {:induction false} LinklessRowThrows(rows: seq<Row>, k: nat)
    requires k < |rows| && rows[k].href.None?
    ensures ScrapeRowsAsWritten(rows) == None
  {
    if k < |rows| - 1 {
      LinklessRowThrows(rows[..|rows| - 1], k);
    }
  }

  /** A linkless row among the first twenty empties the whole result list as written. */
  lemma LinklessRowLosesAllResults(page: seq<Row>, k: nat)
    requires k < |page| && k < MAX_ROWS && page[k].href.None?
    ensures Search1337xAsWritten(Some(page)) == []
  {
    var rows := Considered(page);
    assert rows[k] == page[k];
    LinklessRowThrows(rows, k);
  }

  /** A name already in lower case that holds a keyword looks like music. */
  lemma LowerKeywordIsMusic(name: string, k: nat, at: nat)
    requires k < |MUSIC_KEYWORDS| && OccursAt(name, MUSIC_KEYWORDS[k], at)
    requires forall i | 0 <= i < |name| :: !IsUpperAscii(name[i])
    ensures IsMusic(name)
  {
    ToLowerOfLower(name);
  }

  /** The counterexample: a linkless first row hides the qualifying second one. */
  lemma LinklessFirstRow()
    ensures var page := [Row("greatest hits album", None, "3", "80 MB"),
                         Row("abba flac", Some("/torrent/42/abba-flac/"), "7", "2 GB")];
      Search1337xAsWritten(Some(page)) == [] && |Search1337x(Some(page))| == 1
  {
    var second := Row("abba flac", Some("/torrent/42/abba-flac/"), "7", "2 GB");
    assert second.name[5..9] == MUSIC_KEYWORDS[1];
    LowerKeywordIsMusic(second.name, 1, 5);
    LinklessThenQualifying(Row("greatest hits album", None, "3", "80 MB"), second);
  }

  /** A linkless row followed by a qualifying one: nothing as written, one result once corrected. */
  lemma LinklessThenQualifying(first: Row, second: Row)
    requires first.href.None? && Qualifies(second)
    ensures Search1337xAsWritten(Some([first, second])) == []
    ensures Search1337x(Some([first, second])) == [ResultOf(second, second.href.value)]
  {
    var page := [first, second];
    LinklessRowLosesAllResults(page, 0);
    assert Considered(page) == page;
    assert page[..1] == [first] && [first][..0] == [];
    assert ScrapeRows([first]) == [];
    assert ScrapeRows(page) == [ResultOf(second, second.href.value)];
  }


  /** Without linkless rows the code as written and the guarded version agree. */
  lemma {:induction false} AsWrittenAgreesWithoutLinklessRows(rows: seq<Row>)
    requires forall k | 0 <= k < |rows| :: rows[k].href.Some?
    ensures ScrapeRowsAsWritten(rows) == Some(ScrapeRows(rows))
  {
    if rows != [] {
      AsWrittenAgreesWithoutLinklessRows(rows[..|rows| - 1]);
    }
  }
}

=== FILE: strings.dfy ===
/** String helpers with JavaScript's semantics, shared by the client and the server model. */
module Strings {

  /** `text.includes(pattern)`: pattern occurs at some position of text (the empty pattern always does). */
  predicate Contains(text: string, pattern: string)
  {
    exists i | 0 <= i <= |text| - |pattern| :: OccursAt(text, pattern, i)
  }

  /** `pattern` stands in `text` starting at position `i`. */
  predicate OccursAt(text: string, pattern: string, i: int)
  {
    0 <= i <= |text| - |pattern| && text[i..i + |pattern|] == pattern
  }

  lemma ContainsEmpty(text: string)
    ensures Contains(text, "")
  {
    assert OccursAt(text, "", 0);
  }

  lemma ContainsSelf(text: string)
    ensures Contains(text, text)
  {
    assert OccursAt(text, text, 0);
  }

  /** A pattern found in `b` is found in `a + b + c`. */
  lemma ContainsInConcat(a: string, b: string, c: string, pattern: string)
    requires Contains(b, pattern)
    ensures Contains(a + b + c, pattern)
  {
    var i :| 0 <= i <= |b| - |pattern| && OccursAt(b, pattern, i);
    var t := a + b + c;
    assert t[|a| + i..|a| + i + |pattern|] == b[i..i + |pattern|];
    assert OccursAt(t, pattern, |a| + i);
  }

  predicate IsUpperAscii(c: char) { 'A' <= c <= 'Z' }

  /** `toLowerCase` restricted to ASCII: A-Z become a-z, every other character is kept. */
  function LowerChar(c: char): (r: char)
    ensures IsUpperAscii(c) ==> r as int == c as int + 32
    ensures !IsUpperAscii(c) ==> r == c
  {
    if IsUpperAscii(c) then (c as int + 32) as char else c
  }

  function ToLower(s: string): (r: string)
    ensures |r| == |s|
    ensures forall i | 0 <= i < |s| :: r[i] == LowerChar(s[i])
  {
    if s == [] then [] else [LowerChar(s[0])] + ToLower(s[1..])
  }

  lemma ToLowerAppend(a: string, b: string)
    ensures ToLower(a + b) == ToLower(a) + ToLower(b)
  {
  }

  /** A string with no upper-case ASCII letter is unchanged by lowering it. */
  lemma ToLowerOfLower(s: string)
    requires forall i | 0 <= i < |s| :: !IsUpperAscii(s[i])
    ensures ToLower(s) == s
  {
  }

  /** `parts.join(sep)`. */
  function Join(parts: seq<string>, sep: string): string
  {
    if |parts| == 0 then ""
    else if |parts| == 1 then parts[0]
    else parts[0] + sep + Join(parts[1..], sep)
  }

  /** Every part of a join occurs in the joined text. */
  lemma {:induction false} JoinContainsParts(tokens: seq<string>, sep: string, k: nat)
    requires k < |tokens|
    ensures Contains(Join(tokens, sep), tokens[k])
  {
    if |tokens| == 1 {
      ContainsSelf(tokens[0]);
    } else if k == 0 {
      ContainsSelf(tokens[0]);
      ContainsInConcat([], tokens[0], sep + Join(tokens[1..], sep), tokens[0]);
      assert [] + tokens[0] + (sep + Join(tokens[1..], sep)) == Join(tokens, sep);
    } else {
      JoinContainsParts(tokens[1..], sep, k - 1);
      ContainsInConcat(tokens[0] + sep, Join(tokens[1..], sep), [], tokens[k]);
      assert tokens[0] + sep + Join(tokens[1..], sep) + [] == Join(tokens, sep);
    }
  }

  /** `s.split(sep)` for a one-character separator: the pieces between separators, empty ones included. */
  function SplitOn(s: string, sep: char): (parts: seq<string>)
    ensures |parts| >= 1
    ensures forall k | 0 <= k < |parts| :: sep !in parts[k]
  {
    if s == [] then [""]
    else
      var rest := SplitOn(s[1..], sep);
      if s[0] == sep then [""] + rest
      else [[s[0]] + rest[0]] + rest[1..]
  }

  /** Text without the separator splits into itself alone. */
  lemma {:induction false} SplitOnAbsent(s: string, sep: char)
    requires sep !in s
    ensures SplitOn(s, sep) == [s]
  {
    if s != [] {
      SplitOnAbsent(s[1..], sep);
      assert [s[0]] + s[1..] == s;
    }
  }

  /** `SplitOn` inverts joining pieces that do not hold the separator. */
  lemma {:induction false} SplitOnJoin(first: string, sep: char, rest: string)
    requires sep !in first
    ensures SplitOn(first + [sep] + rest, sep) == [first] + SplitOn(rest, sep)
  {
    if first == [] {
      assert first + [sep] + rest == [sep] + rest;
      assert ([sep] + rest)[1..] == rest;
    } else {
      var s := first + [sep] + rest;
      assert s[0] == first[0];
      assert s[1..] == first[1..] + [sep] + rest;
      SplitOnJoin(first[1..], sep, rest);
      assert [first[0]] + first[1..] == first;
    }
  }

  /** Decimal digits of a natural number, as `String(n)` prints it. */
  function NatToString(n: nat): (r: string)
    ensures |r| >= 1
    ensures forall i | 0 <= i < |r| :: '0' <= r[i] <= '9'
  {
    if n < 10 then [DigitChar(n)] else NatToString(n / 10) + [DigitChar(n % 10)]
  }

  function DigitChar(d: nat): (c: char)
    requires d < 10
    ensures '0' <= c <= '9' && c as int - '0' as int == d
  {
    ('0' as int + d) as char
  }

  predicate IsDigit(c: char) { '0' <= c <= '9' }

  /** The number spelled by a run of decimal digits. */
  function DigitsValue(s: string): nat
    requires forall i | 0 <= i < |s| :: IsDigit(s[i])
  {
    if s == [] then 0 else DigitsValue(s[..|s| - 1]) * 10 + DigitValue(s[|s| - 1])
  }

  function DigitValue(c: char): (d: nat)
    requires IsDigit(c)
    ensures d < 10
  {
    c as int - '0' as int
  }

  /** `NatToString` is read back by `DigitsValue`. */
  lemma {:induction false} NatToStringValue(n: nat)
    ensures DigitsValue(NatToString(n)) == n
  {
    var r := NatToString(n);
    if n >= 10 {
      NatToStringValue(n / 10);
      assert r[..|r| - 1] == NatToString(n / 10);
    }
  }

  /** `x` can be obtained from `y` by deleting elements. */
  predicate IsSubsequence<T(==)>(x: seq<T>, y: seq<T>)
  {
    if x == [] then true
    else if y == [] then false
    else if x[0] == y[0] then IsSubsequence(x[1..], y[1..])
    else IsSubsequence(x, y[1..])
  }

  /** A subsequence of the tail is a subsequence of the whole. */
  lemma {:induction false} SubsequenceDropHead<T>(x: seq<T>, y: seq<T>)
    requires |y| > 0 && IsSubsequence(x, y[1..])
    ensures IsSubsequence(x, y)
    decreases |y|, 1
  {
    if x != [] && x[0] == y[0] {
      SubsequenceTail(x, y[1..]);
    }
  }

  /** Dropping the first element of a subsequence keeps it a subsequence. */
  lemma {:induction false} SubsequenceTail<T>(x: seq<T>, z: seq<T>)
    requires x != [] && IsSubsequence(x, z)
    ensures IsSubsequence(x[1..], z)
    decreases |z|, 2
  {
    if x[0] == z[0] {
      SubsequenceDropHead(x[1..], z);
    } else {
      SubsequenceTail(x, z[1..]);
      SubsequenceDropHead(x[1..], z);
    }
  }

  /** Appending the same element to both sides, or to the longer side only, keeps a subsequence. */
  lemma {:induction false} SubsequenceSnoc<T>(x: seq<T>, y: seq<T>, e: T)
    requires IsSubsequence(x, y)
    ensures IsSubsequence(x, y + [e]) && IsSubsequence(x + [e], y + [e])
    decreases |y|
  {
    if y == [] {
      assert [e][1..] == [];
    } else {
      assert (y + [e])[1..] == y[1..] + [e];
      if x == [] {
        SubsequenceSnoc(x, y[1..], e);
        assert x + [e] == [e];
      } else if x[0] == y[0] {
        SubsequenceSnoc(x[1..], y[1..], e);
        assert (x + [e])[1..] == x[1..] + [e];
      } else {
        SubsequenceSnoc(x, y[1..], e);
      }
    }
  }
}

=== FILE: suggestions.dfy ===
/**
 * The related-search suggestions built from a page of results: the artists are counted by
 * their lower-cased name, the three most frequent get two cards each, the cleaned query
 * gets two more, and at most six cards are shown.
 */
module Suggestions {
  import opened Strings

  /** One entry of the `artistStats` map: the lower-cased key, the first spelling seen and the count. */
  datatype ArtistStat = ArtistStat(key: string, artist: string, count: nat)

  /** The position of `key` in `stats`, or -1 when it is not there (`artistStats.has(key)`). */
  function FindKey(stats: seq<ArtistStat>, key: string): (i: int)
    ensures -1 <= i < |stats|
    ensures i >= 0 ==> stats[i].key == key
    ensures i == -1 <==> forall k | 0 <= k < |stats| :: stats[k].key != key
    ensures forall k | 0 <= k < i :: stats[k].key != key
  {
    if stats == [] then -1
    else if stats[0].key == key then 0
    else
      var r := FindKey(stats[1..], key);
      if r < 0 then -1 else r + 1
  }

  /** One step of the counting loop: an empty artist is skipped, a known key counted, a new key appended. */
  function Bump(stats: seq<ArtistStat>, artist: string): seq<ArtistStat>
  {
    if artist == "" then stats
    else
      var key := ToLower(artist);
      var i := FindKey(stats, key);
      if i < 0 then stats + [ArtistStat(key, artist, 1)]
      else stats[i := stats[i].(count := stats[i].count + 1)]
  }

  /** The `artistStats` map after the loop over `artists`, in insertion order. */
  function Tally(artists: seq<string>): seq<ArtistStat>
  {
    if artists == [] then [] else Bump(Tally(artists[..|artists| - 1]), artists[|artists| - 1])
  }

  /** How many of `artists` are non-empty and have lower-cased name `key`. */
  function CountKey(artists: seq<string>, key: string): nat
  {
    if artists == [] then 0
    else
      var last := artists[|artists| - 1];
      CountKey(artists[..|artists| - 1], key) + (if last != "" && ToLower(last) == key then 1 else 0)
  }

  lemma {:induction false} CountKeyWitness(artists: seq<string>, key: string)
    requires CountKey(artists, key) > 0
    ensures exists a | a in artists && a != "" :: ToLower(a) == key
  {
    var init, last := artists[..|artists| - 1], artists[|artists| - 1];
    if !(last != "" && ToLower(last) == key) {
      CountKeyWitness(init, key);
      var a :| a in init && a != "" && ToLower(a) == key;
      assert a in artists;
    }
  }

  predicate KeysDistinct(stats: seq<ArtistStat>)
  {
    forall i, j | 0 <= i < j < |stats| :: stats[i].key != stats[j].key
  }

  /**
   * The tally holds one entry per key, each counting exactly the artists with that key, and
   * every non-empty artist has an entry.
   */
  lemma TallyCounts(artists: seq<string>)
    ensures KeysDistinct(Tally(artists))
    ensures forall k | 0 <= k < |Tally(artists)| :: Tally(artists)[k].count == CountKey(artists, Tally(artists)[k].key)
    ensures forall k | 0 <= k < |Tally(artists)| :: Tally(artists)[k].count > 0
    ensures forall a | a in artists && a != "" :: FindKey(Tally(artists), ToLower(a)) >= 0
  {
    TallyDistinct(artists);
    TallyCounted(artists);
    TallyFinds(artists);
  }

  /** A step keeps the keys already there and makes sure the artist's key is present. */
  lemma BumpKeepsKeys(stats: seq<ArtistStat>, artist: string)
    ensures |Bump(stats, artist)| >= |stats|
    ensures forall k | 0 <= k < |stats| :: Bump(stats, artist)[k].key == stats[k].key
    ensures artist != "" ==> FindKey(Bump(stats, artist), ToLower(artist)) >= 0
  {
    if artist != "" {
      var after := Bump(stats, artist);
      var i := FindKey(stats, ToLower(artist));
      var j := if i < 0 then |stats| else i;
      assert after[j].key == ToLower(artist);
    }
  }

  lemma BumpDistinct(stats: seq<ArtistStat>, artist: string)
    requires KeysDistinct(stats)
    ensures KeysDistinct(Bump(stats, artist))
  {
  }

  lemma {:induction false} TallyDistinct(artists: seq<string>)
    ensures KeysDistinct(Tally(artists))
  {
    if artists != [] {
      var init, last := artists[..|artists| - 1], artists[|artists| - 1];
      TallyDistinct(init);
      BumpDistinct(Tally(init), last);
    }
  }

  lemma {:induction false} TallyFinds(artists: seq<string>)
    ensures forall a | a in artists && a != "" :: FindKey(Tally(artists), ToLower(a)) >= 0
  {
    if artists != [] {
      var init, last := artists[..|artists| - 1], artists[|artists| - 1];
      TallyFinds(init);
      var before := Tally(init);
      var after := Bump(before, last);
      assert Tally(artists) == after;
      BumpKeepsKeys(before, last);
      forall a | a in artists && a != ""
        ensures FindKey(after, ToLower(a)) >= 0
      {
        if a != last {
          assert artists == init + [last];
          assert a in init;
          var j := FindKey(before, ToLower(a));
          assert after[j].key == ToLower(a);
        }
      }
    }
  }

  lemma {:induction false} TallyCounted(artists: seq<string>)
    ensures forall k | 0 <= k < |Tally(artists)| :: Tally(artists)[k].count == CountKey(artists, Tally(artists)[k].key)
    ensures forall k | 0 <= k < |Tally(artists)| :: Tally(artists)[k].count > 0
  {
    if artists != [] {
      var init, last := artists[..|artists| - 1], artists[|artists| - 1];
      assert artists == init + [last];
      TallyCounted(init);
      TallyFinds(init);
      TallyDistinct(init);
      forall k | 0 <= k < |Tally(artists)|
        ensures Tally(artists)[k].count == CountKey(artists, Tally(artists)[k].key)
        ensures Tally(artists)[k].count > 0
      {
        BumpCountAt(init, last, k);
      }
    }
  }

  /** Entry `k` after a step: an old entry counted once more when the artist has its key, or the new entry. */
  lemma BumpEntry(before: seq<ArtistStat>, last: string, k: nat)
    requires KeysDistinct(before)
    requires k < |Bump(before, last)|
    ensures k < |before| ==>
      (Bump(before, last)[k].key == before[k].key
       && Bump(before, last)[k].count == before[k].count + (if last != "" && ToLower(last) == before[k].key then 1 else 0))
    ensures k >= |before| ==>
      (last != "" && FindKey(before, ToLower(last)) < 0 && Bump(before, last)[k] == ArtistStat(ToLower(last), last, 1))
  {
  }

  /** Counting one more artist keeps entry `k` equal to its count. */
  lemma BumpCountAt(init: seq<string>, last: string, k: nat)
    requires KeysDistinct(Tally(init))
    requires forall j | 0 <= j < |Tally(init)| :: Tally(init)[j].count == CountKey(init, Tally(init)[j].key)
    requires forall j | 0 <= j < |Tally(init)| :: Tally(init)[j].count > 0
    requires forall a | a in init && a != "" :: FindKey(Tally(init), ToLower(a)) >= 0
    requires k < |Tally(init + [last])|
    ensures Tally(init + [last])[k].count == CountKey(init + [last], Tally(init + [last])[k].key)
    ensures Tally(init + [last])[k].count > 0
  {
    var artists := init + [last];
    assert artists[..|artists| - 1] == init && artists[|artists| - 1] == last;
    var before := Tally(init);
    assert Tally(artists) == Bump(before, last);
    BumpEntry(before, last, k);
    var key := Tally(artists)[k].key;
    assert CountKey(artists, key) == CountKey(init, key) + (if last != "" && ToLower(last) == key then 1 else 0);
    if k >= |before| {
      NewKeyUncounted(init, key);
    }
  }

  /** A key the tally has not seen counts no artist. */
  lemma NewKeyUncounted(init: seq<string>, key: string)
    requires forall a | a in init && a != "" :: FindKey(Tally(init), ToLower(a)) >= 0
    requires FindKey(Tally(init), key) < 0
    ensures CountKey(init, key) == 0
  {
    if CountKey(init, key) > 0 {
      CountKeyWitness(init, key);
    }
  }

  /** The loop of `buildSuggestions` that fills `artistStats`, with `has` as a search. */
  method CountArtists(artists: seq<string>) returns (stats: seq<ArtistStat>)
    ensures stats == Tally(artists)
  {
    stats := [];
    for n := 0 to |artists|
      invariant stats == Tally(artists[..n])
    {
      assert artists[..n + 1][..n] == artists[..n];
      var artist := artists[n];
      if artist != "" {
        var key := ToLower(artist);
        var j := 0;
        while j < |stats| && stats[j].key != key
          invariant 0 <= j <= |stats|
          invariant forall m | 0 <= m < j :: stats[m].key != key
        {
          j := j + 1;
        }
        if j == |stats| {
          stats := stats + [ArtistStat(key, artist, 1)];
        } else {
          stats := stats[j := stats[j].(count := stats[j].count + 1)];
        }
      }
    }
    assert artists[..|artists|] == artists;
  }

  // ---------------------------------------------------------------- the three most frequent artists

  /** Inserts `x` before the first entry whose count is not greater, so ties keep their order. */
  function InsertByCount(x: ArtistStat, sorted: seq<ArtistStat>): (r: seq<ArtistStat>)
    ensures |r| == |sorted| + 1
    ensures multiset(r) == multiset(sorted) + multiset{x}
  {
    if sorted == [] || sorted[0].count <= x.count then [x] + sorted
    else
      assert sorted == [sorted[0]] + sorted[1..];
      [sorted[0]] + InsertByCount(x, sorted[1..])
  }

  /** `sort((a, b) => b.count - a.count)`, a stable sort by decreasing count. */
  function SortByCount(stats: seq<ArtistStat>): (sorted: seq<ArtistStat>)
    ensures |sorted| == |stats|
    ensures multiset(sorted) == multiset(stats)
  {
    if stats == [] then []
    else
      assert stats == [stats[0]] + stats[1..];
      InsertByCount(stats[0], SortByCount(stats[1..]))
  }

  /** The entries counted `c` times, in their order. */
  function WithCount(stats: seq<ArtistStat>, c: nat): seq<ArtistStat>
  {
    if stats == [] then [] else (if stats[0].count == c then [stats[0]] else []) + WithCount(stats[1..], c)
  }

  /** Inserting places `x` ahead of every entry with its count and moves no other entry past one with its own. */
  lemma {:induction false} InsertWithCount(x: ArtistStat, sorted: seq<ArtistStat>, c: nat)
    ensures WithCount(InsertByCount(x, sorted), c) == (if x.count == c then [x] else []) + WithCount(sorted, c)
  {
    if sorted == [] || sorted[0].count <= x.count {
      assert ([x] + sorted)[1..] == sorted;
    } else {
      var rest := sorted[1..];
      InsertWithCount(x, rest, c);
      assert ([sorted[0]] + InsertByCount(x, rest))[1..] == InsertByCount(x, rest);
      assert WithCount(InsertByCount(x, sorted), c)
        == (if sorted[0].count == c then [sorted[0]] else []) + ((if x.count == c then [x] else []) + WithCount(rest, c));
    }
  }

  /** The sort is stable: the entries with any one count keep the order in which they were first seen. */
  lemma {:induction false} SortByCountIsStable(stats: seq<ArtistStat>, c: nat)
    ensures WithCount(SortByCount(stats), c) == WithCount(stats, c)
  {
    if stats != [] {
      SortByCountIsStable(stats[1..], c);
      InsertWithCount(stats[0], SortByCount(stats[1..]), c);
    }
  }

  predicate DecreasingCounts(stats: seq<ArtistStat>)
  {
    forall i, j | 0 <= i < j < |stats| :: stats[i].count >= stats[j].count
  }

  lemma {:induction false} InsertKeepsOrder(x: ArtistStat, sorted: seq<ArtistStat>)
    requires DecreasingCounts(sorted)
    ensures DecreasingCounts(InsertByCount(x, sorted))
  {
    if sorted != [] && sorted[0].count > x.count {
      var rest := sorted[1..];
      InsertKeepsOrder(x, rest);
      InsertBounded(x, rest, sorted[0].count);
      var inserted := InsertByCount(x, rest);
      var r := [sorted[0]] + inserted;
      assert forall i | 1 <= i < |r| :: r[i] == inserted[i - 1];
    }
  }

  /** Inserting an entry no more frequent than a bound keeps every count within the bound. */
  lemma {:induction false} InsertBounded(x: ArtistStat, sorted: seq<ArtistStat>, bound: nat)
    requires x.count <= bound
    requires forall k | 0 <= k < |sorted| :: sorted[k].count <= bound
    ensures forall k | 0 <= k < |InsertByCount(x, sorted)| :: InsertByCount(x, sorted)[k].count <= bound
  {
    if sorted != [] && sorted[0].count > x.count {
      InsertBounded(x, sorted[1..], bound);
    }
  }

  lemma {:induction false} SortIsOrdered(stats: seq<ArtistStat>)
    ensures DecreasingCounts(SortByCount(stats))
  {
    if stats != [] {
      SortIsOrdered(stats[1..]);
      InsertKeepsOrder(stats[0], SortByCount(stats[1..]));
    }
  }

  /** `.slice(0, 3)` of the sorted entries. */
  function TopArtists(stats: seq<ArtistStat>): (top: seq<ArtistStat>)
    ensures |top| == if |stats| < 3 then |stats| else 3
  {
    var sorted := SortByCount(stats);
    if |sorted| <= 3 then sorted else sorted[..3]
  }

  /** No artist left out of the top three was counted more often than one kept in it. */
  lemma TopArtistsAreMostFrequent(stats: seq<ArtistStat>)
    ensures DecreasingCounts(TopArtists(stats))
    ensures forall x | x in stats ::
      (x in TopArtists(stats) || forall k | 0 <= k < |TopArtists(stats)| :: x.count <= TopArtists(stats)[k].count)
  {
    var sorted := SortByCount(stats);
    var top := TopArtists(stats);
    SortIsOrdered(stats);
    assert top == sorted[..|top|];
    forall x | x in stats
      ensures x in top || forall k | 0 <= k < |top| :: x.count <= top[k].count
    {
      assert x in multiset(sorted);
      var p :| 0 <= p < |sorted| && sorted[p] == x;
      if p < |top| {
        assert top[p] == x;
      }
    }
  }

  // ---------------------------------------------------------------- the cards

  /** A suggestion card; the fields are the texts the card shows and the query it runs. */
  datatype Suggestion = Suggestion(
    tag: string,
    tagColor: string,
    title: string,
    subtitle: string,
    description: string,
    footerLeft: string,
    footerRight: string,
    query: string)

  function ArtistCards(artist: string): (cards: seq<Suggestion>)
    ensures |cards| == 2 && cards[0].query == artist && cards[1].query == artist + " live"
  {
    [ Suggestion("Artista", "bg-emerald-600", "Explora a " + artist, "Selección personalizada",
        "Discografía y rarezas de " + artist + ".", "Local + P2P", "MP3 / FLAC", artist),
      Suggestion("Live", "bg-purple-600", artist + " en vivo", "Acústicos & directos",
        "Busca actuaciones especiales o sesiones Tiny Desk de " + artist + ".", "Streams curados", "Audio",
        artist + " live") ]
  }

  function QueryCards(cleanQuery: string): (cards: seq<Suggestion>)
    ensures |cards| == 2
    ensures cards[0].query == cleanQuery + " essentials" && cards[1].query == cleanQuery + " similar artists"
  {
    [ Suggestion("Género", "bg-blue-600", cleanQuery + " essentials", "Recomendado",
        "Colecciones esenciales relacionadas con " + cleanQuery + ".", "Selección automática", "Lossless",
        cleanQuery + " essentials"),
      Suggestion("Descubrir", "bg-amber-500", "Artistas parecidos a " + cleanQuery, "Similares",
        "Encuentra colaboraciones, remixes y proyectos paralelos.", "Mezclas", "FLAC / MP3",
        cleanQuery + " similar artists") ]
  }

  /** Two cards per top artist, in the order of `top`. */
  function ArtistPairs(top: seq<ArtistStat>): (cards: seq<Suggestion>)
    ensures |cards| == 2 * |top|
    ensures forall k | 0 <= k < |top| :: cards[2 * k].query == top[k].artist
    ensures forall k | 0 <= k < |top| :: cards[2 * k + 1].query == top[k].artist + " live"
  {
    if top == [] then []
    else
      var init := ArtistPairs(top[..|top| - 1]);
      var cards := init + ArtistCards(top[|top| - 1].artist);
      assert forall k | 0 <= k < |top| - 1 ::
        cards[2 * k] == init[2 * k] && cards[2 * k + 1] == init[2 * k + 1] && top[k] == top[..|top| - 1][k];
      cards
  }

  function Min(a: int, b: int): int { if a < b then a else b }

  /** `buildSuggestions` on artists already cleaned (an empty one is skipped) and a cleaned query. */
  method BuildSuggestions(artists: seq<string>, cleanQuery: string) returns (suggestions: seq<Suggestion>)
    ensures |suggestions| == Min(6, 2 * |TopArtists(Tally(artists))| + if cleanQuery != "" then 2 else 0)
    ensures |suggestions| <= 6
    ensures forall k | 0 <= k < |TopArtists(Tally(artists))| :: suggestions[2 * k].query == TopArtists(Tally(artists))[k].artist
    ensures forall k | 0 <= k < |TopArtists(Tally(artists))| ::
      suggestions[2 * k + 1].query == TopArtists(Tally(artists))[k].artist + " live"
    ensures |TopArtists(Tally(artists))| < 3 && cleanQuery != "" ==>
      suggestions[2 * |TopArtists(Tally(artists))|].query == cleanQuery + " essentials"
      && suggestions[2 * |TopArtists(Tally(artists))| + 1].query == cleanQuery + " similar artists"
  {
    var stats := CountArtists(artists);
    var top := TopArtists(stats);
    var cards := PushArtistCards(top);
    if cleanQuery != "" {
      cards := cards + QueryCards(cleanQuery);
    }
    suggestions := if |cards| <= 6 then cards else cards[..6];
  }

  /** The `topArtists.forEach` that pushes two cards per artist. */
  method PushArtistCards(top: seq<ArtistStat>) returns (cards: seq<Suggestion>)
    ensures cards == ArtistPairs(top)
  {
    cards := [];
    for i := 0 to |top|
      invariant cards == ArtistPairs(top[..i])
    {
      assert top[..i + 1][..i] == top[..i];
      cards := cards + ArtistCards(top[i].artist);
    }
    assert top[..|top|] == top;
  }
}

=== FILE: text.dfy ===
/**
 * Text matching and ranking utilities of the client: normalisation, the condensed
 * alphanumeric form, query tokens, the relevancy score, the fuzzy-match gate, and
 * the keyword classifiers for audio quality and audio-versus-video releases.
 */
module TextUtils {
  import opened Strings
  import opened Levenshtein

  const AUDIO_EXTENSIONS: seq<string> := ["mp3", "flac", "wav", "m4a", "aac", "ogg", "opus", "alac", "wma"]
  const AUDIO_KEYWORDS: seq<string> :=
    ["mp3", "flac", "aac", "alac", "lossless", "discografia", "discography", "album", "soundtrack", "ost",
     "320", "256", "192", "128", "remastered", "bonus", "deluxe", "ep", "lp", "mixtape"]
  const VIDEO_KEYWORDS: seq<string> :=
    ["1080", "720", "2160", "4k", "hdrip", "webrip", "bluray", "dvdrip", "hdtv", "x265", "x264", "cam",
     "xxx", "porn", "porno", "adult", "sex"]

  // ---------------------------------------------------------------- normalisation

  /** The combining diacritical marks U+0300..U+036F that normalisation strips. */
  predicate IsCombiningMark(c: char) { 0x300 <= c as int <= 0x36F }

  /** Lower-case letters and digits: the only characters the condensed form keeps. */
  predicate IsAlnum(c: char) { 'a' <= c <= 'z' || '0' <= c <= '9' }

  /** A string that normalisation leaves as it is: no diacritic mark, no upper-case letter. */
  predicate IsNormalized(s: string)
  {
    forall i | 0 <= i < |s| :: !IsCombiningMark(s[i]) && !IsUpperAscii(s[i])
  }

  /** `normalizeText`: drop diacritic marks, then lower-case. */
  function NormalizeText(value: string): (r: string)
    ensures IsNormalized(r)
    ensures |r| <= |value|
  {
    if value == [] then [] else NormalizeChar(value[0]) + NormalizeText(value[1..])
  }

  function NormalizeChar(c: char): string
  {
    if IsCombiningMark(c) then [] else [LowerChar(c)]
  }

  lemma {:induction false} NormalizeAppend(a: string, b: string)
    ensures NormalizeText(a + b) == NormalizeText(a) + NormalizeText(b)
  {
    if a != [] {
      assert (a + b)[0] == a[0];
      assert (a + b)[1..] == a[1..] + b;
      NormalizeAppend(a[1..], b);
      calc {
        NormalizeText(a + b);
        NormalizeChar(a[0]) + NormalizeText(a[1..] + b);
        NormalizeChar(a[0]) + (NormalizeText(a[1..]) + NormalizeText(b));
      }
    } else {
      assert a + b == b;
    }
  }

  /** Normalised text is a fixed point of normalisation. */
  lemma {:induction false} NormalizeFixed(s: string)
    requires IsNormalized(s)
    ensures NormalizeText(s) == s
  {
    if s != [] {
      NormalizeFixed(s[1..]);
    }
  }

  /** Normalisation is idempotent. */
  lemma NormalizeIdempotent(value: string)
    ensures NormalizeText(NormalizeText(value)) == NormalizeText(value)
  {
    NormalizeFixed(NormalizeText(value));
  }

  /** The letters and digits of a string, in order. */
  function KeepAlnum(s: string): (r: string)
    ensures forall i | 0 <= i < |r| :: IsAlnum(r[i])
  {
    if s == [] then [] else KeepChar(s[0]) + KeepAlnum(s[1..])
  }

  function KeepChar(c: char): string
  {
    if IsAlnum(c) then [c] else []
  }

  lemma {:induction false} KeepAlnumSubsequence(s: string)
    ensures IsSubsequence(KeepAlnum(s), s)
  {
    if s != [] {
      KeepAlnumSubsequence(s[1..]);
      if IsAlnum(s[0]) {
        assert KeepAlnum(s) == [s[0]] + KeepAlnum(s[1..]);
        assert KeepAlnum(s)[1..] == KeepAlnum(s[1..]);
      } else {
        assert KeepAlnum(s) == [] + KeepAlnum(s[1..]) == KeepAlnum(s[1..]);
        SubsequenceDropHead(KeepAlnum(s), s);
      }
    }
  }

  lemma {:induction false} KeepAlnumFixed(s: string)
    requires forall i | 0 <= i < |s| :: IsAlnum(s[i])
    ensures KeepAlnum(s) == s
  {
    if s != [] {
      KeepAlnumFixed(s[1..]);
    }
  }

  lemma {:induction false} KeepAlnumAppend(a: string, b: string)
    ensures KeepAlnum(a + b) == KeepAlnum(a) + KeepAlnum(b)
  {
    if a != [] {
      assert (a + b)[0] == a[0];
      assert (a + b)[1..] == a[1..] + b;
      KeepAlnumAppend(a[1..], b);
      calc {
        KeepAlnum(a + b);
        KeepChar(a[0]) + KeepAlnum(a[1..] + b);
        KeepChar(a[0]) + (KeepAlnum(a[1..]) + KeepAlnum(b));
      }
    } else {
      assert a + b == b;
    }
  }

  /** `condensedText`: the normalised text with everything but [a-z0-9] removed. */
  function CondensedText(value: string): string
  {
    KeepAlnum(NormalizeText(value))
  }

  /** The condensed form holds only [a-z0-9] and is a subsequence of the normalised form. */
  lemma CondensedShape(value: string)
    ensures forall i | 0 <= i < |CondensedText(value)| :: IsAlnum(CondensedText(value)[i])
    ensures IsSubsequence(CondensedText(value), NormalizeText(value))
  {
    KeepAlnumSubsequence(NormalizeText(value));
  }

  /** Condensing condensed text changes nothing. */
  lemma CondensedIdempotent(value: string)
    ensures CondensedText(CondensedText(value)) == CondensedText(value)
  {
    var c := CondensedText(value);
    NormalizeFixed(c);
    KeepAlnumFixed(c);
  }

  // ---------------------------------------------------------------- tokens

  /**
   * The maximal runs of [a-z0-9] in `s`, the run in progress being `current`:
   * `split(/[^a-z0-9]+/).filter(Boolean)` on normalised text.
   */
  function Runs(s: string, current: string): (tokens: seq<string>)
    decreases |s|
  {
    if s == [] then (if current == [] then [] else [current])
    else if IsAlnum(s[0]) then Runs(s[1..], current + [s[0]])
    else (if current == [] then [] else [current]) + Runs(s[1..], [])
  }

  /** Every token is non-empty and made of [a-z0-9] only. */
  predicate WellFormedTokens(tokens: seq<string>)
  {
    forall k | 0 <= k < |tokens| :: tokens[k] != [] && forall i | 0 <= i < |tokens[k]| :: IsAlnum(tokens[k][i])
  }

  /** The tokens run together, with nothing between them. */
  function Flatten(tokens: seq<string>): string
  {
    if tokens == [] then [] else tokens[0] + Flatten(tokens[1..])
  }

  lemma RunsShape(s: string, current: string)
    requires forall i | 0 <= i < |current| :: IsAlnum(current[i])
    ensures WellFormedTokens(Runs(s, current))
    ensures Flatten(Runs(s, current)) == current + KeepAlnum(s)
  {
    RunsWellFormed(s, current);
    RunsFlatten(s, current);
  }

  lemma {:induction false} RunsWellFormed(s: string, current: string)
    requires forall i | 0 <= i < |current| :: IsAlnum(current[i])
    ensures WellFormedTokens(Runs(s, current))
    decreases |s|
  {
    if s != [] {
      if IsAlnum(s[0]) {
        RunsWellFormed(s[1..], current + [s[0]]);
      } else {
        RunsWellFormed(s[1..], []);
        var rest := Runs(s[1..], []);
        if current != [] {
          assert forall k | 1 <= k < |[current] + rest| :: ([current] + rest)[k] == rest[k - 1];
        } else {
          assert [] + rest == rest;
        }
      }
    }
  }

  lemma {:induction false} RunsFlatten(s: string, current: string)
    ensures Flatten(Runs(s, current)) == current + KeepAlnum(s)
    decreases |s|
  {
    if s == [] {
      assert Flatten([current]) == current + Flatten([]);
    } else if IsAlnum(s[0]) {
      RunsFlatten(s[1..], current + [s[0]]);
      assert KeepAlnum(s) == [s[0]] + KeepAlnum(s[1..]);
      assert current + [s[0]] + KeepAlnum(s[1..]) == current + KeepAlnum(s);
    } else {
      RunsFlatten(s[1..], []);
      assert KeepAlnum(s) == KeepAlnum(s[1..]);
      var rest := Runs(s[1..], []);
      if current != [] {
        assert ([current] + rest)[0] == current && ([current] + rest)[1..] == rest;
        assert Flatten([current] + rest) == current + Flatten(rest);
      } else {
        assert [] + rest == rest;
      }
    }
  }

  /** `tokenizeQuery`: the maximal [a-z0-9] runs of the normalised query. */
  function TokenizeQuery(query: string): (tokens: seq<string>)
    ensures WellFormedTokens(tokens)
  {
    RunsShape(NormalizeText(query), []);
    Runs(NormalizeText(query), [])
  }

  /** The tokens, run together, are exactly the condensed query: tokenising loses only separators. */
  lemma TokensSpellCondensed(query: string)
    ensures Flatten(TokenizeQuery(query)) == CondensedText(query)
  {
    RunsShape(NormalizeText(query), []);
  }

  /** Joining tokens with single spaces and tokenising the result gives the tokens back. */
  lemma TokenizeJoin(tokens: seq<string>)
    requires WellFormedTokens(tokens)
    ensures TokenizeQuery(Join(tokens, " ")) == tokens
  {
    JoinNormalized(tokens);
    if tokens != [] {
      RunsJoin(tokens, []);
      assert [] + tokens[0] == tokens[0];
      assert [tokens[0]] + tokens[1..] == tokens;
    }
  }

  /** Space-joined tokens are already normalised. */
  lemma JoinNormalized(tokens: seq<string>)
    requires WellFormedTokens(tokens)
    ensures NormalizeText(Join(tokens, " ")) == Join(tokens, " ")
  {
    JoinAlnumOrSpace(tokens);
    NormalizeFixed(Join(tokens, " "));
  }

  /** Space-joined tokens hold only letters, digits and spaces. */
  lemma {:induction false} JoinAlnumOrSpace(tokens: seq<string>)
    requires WellFormedTokens(tokens)
    ensures forall i | 0 <= i < |Join(tokens, " ")| :: IsAlnum(Join(tokens, " ")[i]) || Join(tokens, " ")[i] == ' '
  {
    if |tokens| > 1 {
      var first := tokens[0];
      var rest := Join(tokens[1..], " ");
      assert WellFormedTokens(tokens[1..]) by {
        forall k | 0 <= k < |tokens[1..]| ensures tokens[1..][k] == tokens[k + 1] {}
      }
      JoinAlnumOrSpace(tokens[1..]);
      var joined := first + " " + rest;
      assert Join(tokens, " ") == joined;
      forall i | 0 <= i < |joined| ensures IsAlnum(joined[i]) || joined[i] == ' ' {
        if i < |first| {
          assert joined[i] == first[i];
        } else if i > |first| {
          assert joined[i] == rest[i - |first| - 1];
        }
      }
    }
  }

  /** A run of letters and digits extends the run in progress. */
  lemma {:induction false} RunsAlnumPrefix(run: string, rest: string, current: string)
    requires forall i | 0 <= i < |run| :: IsAlnum(run[i])
    ensures Runs(run + rest, current) == Runs(rest, current + run)
    decreases |run|
  {
    if run == [] {
      assert [] + rest == rest && current + [] == current;
    } else {
      assert (run + rest)[0] == run[0] && (run + rest)[1..] == run[1..] + rest;
      RunsAlnumPrefix(run[1..], rest, current + [run[0]]);
      assert current + [run[0]] + run[1..] == current + run;
    }
  }

  /** Space-joined tokens split back at the spaces, the first one extending the run in progress. */
  lemma {:induction false} RunsJoin(tokens: seq<string>, current: string)
    requires WellFormedTokens(tokens) && tokens != []
    ensures Runs(Join(tokens, " "), current) == [current + tokens[0]] + tokens[1..]
    decreases |tokens|
  {
    if |tokens| == 1 {
      RunsAlnumPrefix(tokens[0], [], current);
      assert tokens[0] + [] == tokens[0];
    } else {
      var rest := Join(tokens[1..], " ");
      assert Join(tokens, " ") == tokens[0] + (" " + rest);
      RunsAlnumPrefix(tokens[0], " " + rest, current);
      assert (" " + rest)[1..] == rest;
      assert WellFormedTokens(tokens[1..]) by {
        forall k | 0 <= k < |tokens[1..]| ensures tokens[1..][k] == tokens[k + 1] {}
      }
      RunsJoin(tokens[1..], []);
      assert [] + tokens[1] == tokens[1];
      assert [tokens[1]] + tokens[2..] == tokens[1..];
    }
  }

  /** A query that normalises to nothing has no tokens. */
  lemma EmptyQueryHasNoTokens(query: string)
    ensures NormalizeText(query) == [] ==> TokenizeQuery(query) == []
  {
  }

  /** The tokens of length at least 4, in their original order. */
  function StrongTokens(tokens: seq<string>): (strong: seq<string>)
    ensures forall t :: t in strong <==> t in tokens && |t| >= 4
    ensures forall t :: multiset(strong)[t] == if |t| >= 4 then multiset(tokens)[t] else 0
    ensures IsSubsequence(strong, tokens)
  {
    if tokens == [] then []
    else
      var rest := StrongTokens(tokens[1..]);
      assert tokens == [tokens[0]] + tokens[1..];
      if |tokens[0]| >= 4 then
        assert ([tokens[0]] + rest)[1..] == rest;
        [tokens[0]] + rest
      else
        SubsequenceDropHead(rest, tokens);
        rest
  }

  /** `buildFilterTokens`: the strong tokens if there are any, else every token. */
  function BuildFilterTokens(query: string): (filter: seq<string>)
    ensures (exists t :: t in TokenizeQuery(query) && |t| >= 4) ==>
      (forall t :: t in filter <==> t in TokenizeQuery(query) && |t| >= 4) && IsSubsequence(filter, TokenizeQuery(query))
    ensures (exists t :: t in TokenizeQuery(query) && |t| >= 4) ==>
      forall t :: multiset(filter)[t] == if |t| >= 4 then multiset(TokenizeQuery(query))[t] else 0
    ensures (forall t :: t in TokenizeQuery(query) ==> |t| < 4) ==> filter == TokenizeQuery(query)
    ensures NormalizeText(query) == [] ==> filter == []
  {
    var base := TokenizeQuery(query);
    EmptyQueryHasNoTokens(query);
    var strong := StrongTokens(base);
    if |strong| > 0 then strong else base
  }

  // ---------------------------------------------------------------- relevancy

  /** The tokens the title contains, in order, one entry per occurrence in `tokens`. */
  function MatchedTokens(title: string, tokens: seq<string>): (matched: seq<string>)
    ensures |matched| <= |tokens|
    ensures forall t :: t in matched <==> t in tokens && Contains(title, t)
  {
    if tokens == [] then []
    else
      var last := tokens[|tokens| - 1];
      MatchedTokens(title, tokens[..|tokens| - 1]) + (if Contains(title, last) then [last] else [])
  }

  /** Each token the title contains is matched as many times as it occurs in `tokens`; the others never. */
  lemma {:induction false} MatchedTokensCounts(title: string, tokens: seq<string>)
    ensures forall t :: multiset(MatchedTokens(title, tokens))[t] == if Contains(title, t) then multiset(tokens)[t] else 0
  {
    if tokens != [] {
      var before := tokens[..|tokens| - 1];
      var last := tokens[|tokens| - 1];
      MatchedTokensCounts(title, before);
      assert tokens == before + [last];
      assert MatchedTokens(title, tokens) == MatchedTokens(title, before) + (if Contains(title, last) then [last] else []);
    }
  }

  /** The matched tokens keep the order of `tokens`. */
  lemma {:induction false} MatchedTokensInOrder(title: string, tokens: seq<string>)
    ensures IsSubsequence(MatchedTokens(title, tokens), tokens)
  {
    if tokens != [] {
      var before := tokens[..|tokens| - 1];
      var last := tokens[|tokens| - 1];
      var earlier := MatchedTokens(title, before);
      MatchedTokensInOrder(title, before);
      assert tokens == before + [last];
      SubsequenceSnoc(earlier, before, last);
      if Contains(title, last) {
        assert MatchedTokens(title, tokens) == earlier + [last];
      } else {
        assert MatchedTokens(title, tokens) == earlier;
      }
    }
  }

  /** The 5-point bonus for a title that contains the space-joined token phrase. */
  function PhraseBonus(title: string, tokens: seq<string>): nat
  {
    if Contains(title, Join(tokens, " ")) then 5 else 0
  }

  /** A relevancy score: the seed count alone, or token points plus `log10(seeds + 1)`. */
  datatype Relevancy = Popularity(seeds: int) | Relevance(points: nat, seeds: int)

  /**
   * `calculateRelevancyScore`: with no tokens, the seed count; otherwise five points
   * for every token the title contains and five more for the whole phrase (the
   * logarithmic seed term is kept symbolically in `Relevance.seeds`).
   */
  method CalculateRelevancyScore(title: string, tokens: seq<string>, seeds: int) returns (r: Relevancy)
    ensures |tokens| == 0 ==> r == Popularity(seeds)
    ensures |tokens| > 0 ==>
      r == Relevance(5 * |MatchedTokens(title, tokens)| + PhraseBonus(title, tokens), seeds)
  {
    if |tokens| == 0 {
      return Popularity(seeds);
    }
    var score := 0;
    for k := 0 to |tokens|
      invariant score == 5 * |MatchedTokens(title, tokens[..k])|
    {
      assert tokens[..k + 1][..k] == tokens[..k];
      if Contains(title, tokens[k]) {
        score := score + 5;
      }
    }
    assert tokens[..|tokens|] == tokens;
    if Contains(title, Join(tokens, " ")) {
      score := score + 5;
    }
    return Relevance(score, seeds);
  }

  /** The token points never exceed five per token plus the phrase bonus. */
  lemma PointsBound(title: string, tokens: seq<string>)
    ensures 5 * |MatchedTokens(title, tokens)| + PhraseBonus(title, tokens) <= 5 * (|tokens| + 1)
  {
  }

  lemma {:induction false} ContainsTransitive(a: string, b: string, c: string)
    requires Contains(a, b) && Contains(b, c)
    ensures Contains(a, c)
  {
    var i :| 0 <= i <= |a| - |b| && OccursAt(a, b, i);
    var j :| 0 <= j <= |b| - |c| && OccursAt(b, c, j);
    forall t | 0 <= t < |c|
      ensures a[i + j + t] == c[t]
    {
      assert c[t] == b[j + t] == a[i + j + t];
    }
    assert a[i + j..i + j + |c|] == c;
    assert OccursAt(a, c, i + j);
  }

  lemma {:induction false} AllMatched(title: string, tokens: seq<string>)
    requires forall k | 0 <= k < |tokens| :: Contains(title, tokens[k])
    ensures MatchedTokens(title, tokens) == tokens
  {
    if tokens != [] {
      AllMatched(title, tokens[..|tokens| - 1]);
      assert tokens[..|tokens| - 1] + [tokens[|tokens| - 1]] == tokens;
    }
  }

  /** A title that contains the whole phrase contains every token, so it gets the top score. */
  lemma PhraseGivesTopScore(title: string, tokens: seq<string>)
    requires |tokens| > 0 && Contains(title, Join(tokens, " "))
    ensures 5 * |MatchedTokens(title, tokens)| + PhraseBonus(title, tokens) == 5 * (|tokens| + 1)
  {
    forall k | 0 <= k < |tokens|
      ensures Contains(title, tokens[k])
    {
      JoinContainsParts(tokens, " ", k);
      ContainsTransitive(title, Join(tokens, " "), tokens[k]);
    }
    AllMatched(title, tokens);
  }

  // ---------------------------------------------------------------- fuzzy matching

  /** `Math.ceil(n * 0.2)`, written in integers: the least whole number at least n / 5. */
  function Threshold(n: nat): (t: nat)
    ensures 5 * t >= n && 5 * (t - 1) < n
  {
    (n + 4) / 5
  }

  /**
   * `isFuzzyMatch`: the normalised text contains the normalised query, or the
   * condensed text contains the condensed query, or the two condensed forms are
   * within a fifth of the longer one's length in edit distance.
   */
  function IsFuzzyMatch(text: string, query: string): (r: bool)
    ensures text == [] || query == [] ==> !r
    ensures text != [] && query != [] && Contains(NormalizeText(text), NormalizeText(query)) ==> r
    ensures (text != [] && query != [] && CondensedText(text) != [] && CondensedText(query) != []
      && Contains(CondensedText(text), CondensedText(query))) ==> r
    ensures (text != [] && query != [] && !Contains(NormalizeText(text), NormalizeText(query))
      && CondensedText(text) != [] && CondensedText(query) != []
      && !Contains(CondensedText(text), CondensedText(query))) ==>
        (r <==> EditDistance(CondensedText(text), CondensedText(query))
                  <= Threshold(if |CondensedText(text)| >= |CondensedText(query)| then |CondensedText(text)| else |CondensedText(query)|))
    ensures r && !Contains(NormalizeText(text), NormalizeText(query)) ==>
      CondensedText(text) != [] && CondensedText(query) != []
  {
    if text == [] || query == [] then false
    else
      var normalizedText := NormalizeText(text);
      var normalizedQuery := NormalizeText(query);
      if normalizedQuery == [] then (ContainsEmpty(normalizedText); true)
      else if Contains(normalizedText, normalizedQuery) then true
      else
        var condensedName := CondensedText(text);
        var condensedQuery := CondensedText(query);
        if condensedName == [] || condensedQuery == [] then false
        else if Contains(condensedName, condensedQuery) then true
        else
          var distance := EditDistance(condensedName, condensedQuery);
          var longest := if |condensedName| >= |condensedQuery| then |condensedName| else |condensedQuery|;
          distance <= Threshold(longest)
  }

  /** Every non-empty title matches itself. */
  lemma FuzzyReflexive(text: string)
    requires text != []
    ensures IsFuzzyMatch(text, text)
  {
    ContainsSelf(NormalizeText(text));
  }

  /** Titles that differ only in case, diacritics and punctuation match, when they have letters or digits. */
  lemma FuzzySameCondensed(text: string, query: string)
    requires text != [] && query != [] && CondensedText(text) == CondensedText(query) != []
    ensures IsFuzzyMatch(text, query)
  {
    ContainsSelf(CondensedText(text));
  }

  /** One typo is always tolerated between titles with letters or digits. */
  lemma FuzzyOneEdit(text: string, query: string)
    requires text != [] && query != [] && CondensedText(text) != [] && CondensedText(query) != []
    requires EditDistance(CondensedText(text), CondensedText(query)) <= 1
    ensures IsFuzzyMatch(text, query)
  {
  }

  /** A query far longer than the title is rejected unless normalised containment already holds. */
  lemma FuzzyRejectsLongQuery(text: string, query: string)
    requires text != [] && query != [] && !Contains(NormalizeText(text), NormalizeText(query))
    requires CondensedText(text) != [] && 2 * |CondensedText(text)| < |CondensedText(query)|
    ensures !IsFuzzyMatch(text, query)
  {
    var c, q := CondensedText(text), CondensedText(query);
    LowerBound(c, q);
  }

  // ---------------------------------------------------------------- classifiers

  /** `keywords.some(k => text.includes(k))`. */
  function AnyContained(text: string, keywords: seq<string>): (r: bool)
    ensures r <==> exists k | 0 <= k < |keywords| :: Contains(text, keywords[k])
  {
    if keywords == [] then false
    else Contains(text, keywords[0]) || AnyContained(text, keywords[1..])
  }

  const QUALITY_KEYWORDS: seq<string> := ["flac", "320", "256", "192", "128"]
  const QUALITY_LABELS: seq<string> := ["FLAC", "320 kbps", "256 kbps", "192 kbps", "128 kbps"]

  /** The position of the first keyword from `from` on that the text contains, or |keywords| when none is. */
  function FirstContained(text: string, keywords: seq<string>, from: nat): (k: nat)
    requires from <= |keywords|
    ensures from <= k <= |keywords|
    ensures k < |keywords| ==> Contains(text, keywords[k])
    ensures forall j | from <= j < k :: !Contains(text, keywords[j])
    decreases |keywords| - from
  {
    if from == |keywords| then from
    else if Contains(text, keywords[from]) then from
    else FirstContained(text, keywords, from + 1)
  }

  /**
   * `inferAudioQuality`: the label of the first of flac, 320, 256, 192, 128 that
   * the normalised text contains, or "Audio".
   */
  function InferAudioQuality(text: string): (quality: string)
    ensures quality in QUALITY_LABELS || quality == "Audio"
  {
    var normalized := NormalizeText(text);
    if Contains(normalized, "flac") then "FLAC"
    else if Contains(normalized, "320") then "320 kbps"
    else if Contains(normalized, "256") then "256 kbps"
    else if Contains(normalized, "192") then "192 kbps"
    else if Contains(normalized, "128") then "128 kbps"
    else "Audio"
  }

  /** The if-chain agrees with the priority list: the label of the first keyword found wins. */
  lemma QualityByPriority(text: string)
    ensures var k := FirstContained(NormalizeText(text), QUALITY_KEYWORDS, 0);
      InferAudioQuality(text) == if k < |QUALITY_KEYWORDS| then QUALITY_LABELS[k] else "Audio"
    ensures InferAudioQuality(text) == "Audio" <==>
      forall k | 0 <= k < |QUALITY_KEYWORDS| :: !Contains(NormalizeText(text), QUALITY_KEYWORDS[k])
  {
    var n := NormalizeText(text);
    var ks := QUALITY_KEYWORDS;
    assert ks[0] == "flac" && ks[1] == "320" && ks[2] == "256" && ks[3] == "192" && ks[4] == "128";
    var k := FirstContained(n, ks, 0);
    assert k == 0 ==> Contains(n, "flac");
    assert k == 1 ==> !Contains(n, "flac") && Contains(n, "320");
    assert k == 2 ==> !Contains(n, "flac") && !Contains(n, "320") && Contains(n, "256");
    assert k == 3 ==> !Contains(n, "flac") && !Contains(n, "320") && !Contains(n, "256") && Contains(n, "192");
    assert k == 4 ==>
      !Contains(n, "flac") && !Contains(n, "320") && !Contains(n, "256") && !Contains(n, "192") && Contains(n, "128");
  }

  /** "flac" outranks every bit-rate: a title naming both is labelled FLAC. */
  lemma FlacOutranksBitrates(text: string)
    requires Contains(NormalizeText(text), "flac")
    ensures InferAudioQuality(text) == "FLAC"
  {
  }

  /**
   * `isLikelyAudioRelease`: a non-empty name whose normalised form contains an
   * audio keyword and no video keyword.
   */
  function IsLikelyAudioRelease(name: string): (r: bool)
    ensures r ==> name != []
    ensures r ==> exists k | 0 <= k < |AUDIO_KEYWORDS| :: Contains(NormalizeText(name), AUDIO_KEYWORDS[k])
    ensures r ==> forall k | 0 <= k < |VIDEO_KEYWORDS| :: !Contains(NormalizeText(name), VIDEO_KEYWORDS[k])
    ensures (name != [] && (exists k | 0 <= k < |AUDIO_KEYWORDS| :: Contains(NormalizeText(name), AUDIO_KEYWORDS[k]))
      && forall k | 0 <= k < |VIDEO_KEYWORDS| :: !Contains(NormalizeText(name), VIDEO_KEYWORDS[k])) ==> r
  {
    if name == [] then false
    else
      var normalized := NormalizeText(name);
      if AnyContained(normalized, VIDEO_KEYWORDS) then false
      else AnyContained(normalized, AUDIO_KEYWORDS)
  }

  /** A keyword list of lower-case letters and digits is already normalised. */
  lemma KeywordNormalized(keyword: string)
    requires forall i | 0 <= i < |keyword| :: IsAlnum(keyword[i])
    ensures NormalizeText(keyword) == keyword
  {
    NormalizeFixed(keyword);
  }

  /** Naming a video keyword anywhere vetoes a release, whatever audio keywords surround it. */
  lemma VideoKeywordVetoes(before: string, k: nat, after: string)
    requires k < |VIDEO_KEYWORDS|
    ensures !IsLikelyAudioRelease(before + VIDEO_KEYWORDS[k] + after)
  {
    KeywordsAlnum(VIDEO_KEYWORDS, k);
    KeywordSurvives(before, VIDEO_KEYWORDS[k], after);
  }

  /** With no video keyword present, naming an audio keyword anywhere is enough. */
  lemma AudioKeywordSuffices(before: string, k: nat, after: string)
    requires k < |AUDIO_KEYWORDS|
    requires !AnyContained(NormalizeText(before + AUDIO_KEYWORDS[k] + after), VIDEO_KEYWORDS)
    ensures IsLikelyAudioRelease(before + AUDIO_KEYWORDS[k] + after)
  {
    KeywordsAlnum(AUDIO_KEYWORDS, k);
    KeywordSurvives(before, AUDIO_KEYWORDS[k], after);
  }

  /** Every keyword of both lists is made of lower-case letters and digits. */
  lemma KeywordsAlnum(keywords: seq<string>, k: nat)
    requires keywords == AUDIO_KEYWORDS || keywords == VIDEO_KEYWORDS
    requires k < |keywords|
    ensures forall i | 0 <= i < |keywords[k]| :: IsAlnum(keywords[k][i])
  {
  }

  /** A keyword of letters and digits is still there after normalising the text around it. */
  lemma KeywordSurvives(before: string, keyword: string, after: string)
    requires forall i | 0 <= i < |keyword| :: IsAlnum(keyword[i])
    ensures Contains(NormalizeText(before + keyword + after), keyword)
  {
    KeywordNormalized(keyword);
    NormalizeAppend(before + keyword, after);
    NormalizeAppend(before, keyword);
    ContainsSelf(keyword);
    ContainsInConcat(NormalizeText(before), keyword, NormalizeText(after), keyword);
  }
}

=== FILE: wrappers.dfy ===
/** The optional-value wrapper shared by every module of the model. */
module Wrappers {

  /** A value that may be absent: JavaScript's `null`/`undefined` for an optional field. */
  datatype Option<+T> = None | Some(value: T)
}
